=== FILE: README.md ===
# Survey Force components, modelled in Dafny

This project models the client-side logic of the Survey Force Lightning Web
Components: the survey taker (current and legacy), the question renderer,
the three question-list editors (creator, demo builder, record-page builder),
the survey regeneration page and wizard, the invitation links panel, the
template list, the operations dashboard, the results analytics, and the four
cards of the home page. Each component is one Dafny module with the same name
(`SurveyTaker`, `LegacyTaker`, `SurveyQuestion`, `SurveyCreator`,
`SurveyBuilderLwc`, `SurveyBuilder`, `Regeneration`, `RegenerationWizard`,
`Invitations`, `TemplateList`, `Dashboard`, `AnalyticsDashboard`, `HomeHero`,
`HomeActionCenter`, `HomeGuidedResources`, `HomeActivityFeed`). Four shared
modules sit underneath:

- `Common`: the JavaScript string and list operations the components rely on;
- `Questions`: the survey question and the visible list;
- `ResponseStore`: the taker's answer dictionary;
- `HomeData`: the summary the home cards read; any of its counts may be missing.

Components that keep state (the takers, the editors, the regeneration pages,
the invitations panel and the template list) are classes whose fields are the
component's tracked fields. Their handlers are methods that change those
fields and state the whole new state. Every remote Apex call is split into a
method that starts it and returns the request, and methods that take the
resolved result or the failure as a parameter. Getters that only compute are
functions, and the properties the components promise are proved about those
functions as lemmas.

Conventions:

- JavaScript `null`, `undefined` and `''` in a string field are all `""`.
- Dates are milliseconds since the epoch, and the current time is a parameter.
- Toasts are appended to a `toasts` log field.
- Navigation, the clipboard, `confirm` and file reading are parameters or
  result methods.

Getters that are plain predicates carry no `ensures` and have no row below;
the lemmas that state their meaning do. These include `SurveyQuestion.HasChoices`,
`SurveyCreator.CanCreate`, `Regeneration.CanProceed`,
`SurveyBuilder.ShowChoicesField`, the `Show*Button` getters of the wizard,
`Invitations.SurveyInvitations.ShowContent` and the dashboard categories.

## Model

| member | source | states |
|---|---|---|
| ResponseStore.Get | force-app/main/default/lwc/surveyTaker/surveyTaker.js:468 | an entry is found exactly when some stored entry has that question id, and the one found is stored under it |
| ResponseStore.Put | force-app/main/default/lwc/surveyTaker/surveyTaker.js:316-320 | the written id then reads back the new entry, every other id reads as before, keys stay unique, a new id is appended and an existing one replaced where it stands |
| ResponseStore.Without | force-app/main/default/lwc/surveyTaker/surveyTaker.js:343 | the value is gone and every other value is kept |
| ResponseStore.Toggle | force-app/main/default/lwc/surveyTaker/surveyTaker.js:338-344 | the value is in the list exactly when the box is checked, other values are untouched, and checking only appends |
| ResponseStore.CheckThenUncheck | force-app/main/default/lwc/surveyTaker/surveyTaker.js:338-344 | unchecking a box just checked restores the list |
| ResponseStore.ToggleIdempotent | force-app/main/default/lwc/surveyTaker/surveyTaker.js:338-344 | repeating the same checkbox change changes nothing more |
| ResponseStore.ToggleKeepsDistinct | force-app/main/default/lwc/surveyTaker/surveyTaker.js:338-344 | the `includes` guard keeps a checked list free of duplicates |
| ResponseStore.WithoutKeepsDistinct | force-app/main/default/lwc/surveyTaker/surveyTaker.js:343 | filtering a value out keeps a list free of duplicates |
| ResponseStore.SetAnswer | force-app/main/default/lwc/surveyTaker/surveyTaker.js:310-321 | the entry reads back with the new text and its list kept (or the given blank list when it is new); no other entry changes |
| ResponseStore.ToggleAnswer | force-app/main/default/lwc/surveyTaker/surveyTaker.js:323-344 | the entry's list becomes the toggled old list (`[]` for a missing or null list), its text is kept, no other entry changes |
| ResponseStore.BlankEntry | force-app/main/default/lwc/surveyTaker/surveyTaker.js:293-303 | the starting entry of a question holds no answer, and has a list exactly for Multi-Select |
| ResponseStore.InitialStore | force-app/main/default/lwc/surveyTaker/surveyTaker.js:290-304 | the store a load builds has unique keys and at most one entry per question |
| ResponseStore.InitialStoreEntries | force-app/main/default/lwc/surveyTaker/surveyTaker.js:290-304 | after a load every question has an entry, each entry is some question's blank entry, and none holds an answer |
| ResponseStore.InitialStoreEntry | force-app/main/default/lwc/surveyTaker/surveyTaker.js:290-304 | with distinct question ids, each question's entry is exactly its blank entry |
| Questions.VisibleQuestions | force-app/main/default/lwc/surveyTaker/surveyTaker.js:110-112 | the visible list is no longer than the loaded list |
| Questions.VisibleMembers | force-app/main/default/lwc/surveyTaker/surveyTaker.js:110-112 | a question is visible exactly when it was loaded and is not hidden |
| Questions.VisibleInOrder | force-app/main/default/lwc/surveyTaker/surveyTaker.js:110-112 | the visible questions keep the load order |
| Questions.VisiblePosition | force-app/main/default/lwc/surveyTaker/surveyTaker.js:114-117 | the k-th visible question is the same object as some position of the loaded list (the object the checkbox handler mutates) |
| Questions.UncheckAll | force-app/main/default/lwc/surveyTaker/surveyTaker.js:297-299 | every choice is kept with its check box cleared |
| Questions.ResetChoices | force-app/main/default/lwc/surveyTaker/surveyTaker.js:293-300 | a Multi-Select question has no checked choice afterwards; any other question is unchanged; id, type, visibility and choice count are kept |
| Questions.ResetQuestions | force-app/main/default/lwc/surveyTaker/surveyTaker.js:292-304 | every loaded question is reset in place, in order |
| Questions.MarkChoice | force-app/main/default/lwc/surveyTaker/surveyTaker.js:347-350 | only the first choice with that value takes the new checked state; every other choice is unchanged |
| SurveyTaker.LoadErrorMessage | force-app/main/default/lwc/surveyTaker/surveyTaker.js:284-287 | the load error is never empty: the server's body message, else the error's message, else 'Error loading survey' when the error carries neither |
| SurveyTaker.SubmitErrorMessage | force-app/main/default/lwc/surveyTaker/surveyTaker.js:459-462 | the submit error is never empty: the body message, else the fixed fallback |
| SurveyTaker.CurrentQuestion | force-app/main/default/lwc/surveyTaker/surveyTaker.js:114-117 | there is a current question exactly when the cursor is below the visible count, and it is a loaded, non-hidden question |
| SurveyTaker.NextWalksForward | force-app/main/default/lwc/surveyTaker/surveyTaker.js:353-373 | when every visible required question is answered, Next is never refused at any visible position |
| SurveyTaker.FirstUnanswered | force-app/main/default/lwc/surveyTaker/surveyTaker.js:465-485 | nothing is reported exactly when every question is satisfied; otherwise the message names the first unsatisfied question and all earlier ones are satisfied |
| SurveyTaker.ValidateResponses | force-app/main/default/lwc/surveyTaker/surveyTaker.js:465-485 | validation passes exactly when every visible question is satisfied (optional, or answered by its type's rule) |
| SurveyTaker.SubmittedResponses | force-app/main/default/lwc/surveyTaker/surveyTaker.js:427 | the submission holds exactly the stored entries with an answer, and nothing when none has one |
| SurveyTaker.SubmittedInOrder | force-app/main/default/lwc/surveyTaker/surveyTaker.js:427 | the submitted entries keep store order |
| SurveyTaker.TokenDecidesTheRoute | force-app/main/default/lwc/surveyTaker/surveyTaker.js:431-446 | load and submit both go by token exactly when there is one; a submission carries the answered entries and, without a token, the effective ids |
| SurveyTaker.FreshStoreSubmitsNothing | force-app/main/default/lwc/surveyTaker/surveyTaker.js:290-308 | right after a load a submission would carry no entry |
| SurveyTaker.ValidationImpliesStepAnswered | force-app/main/default/lwc/surveyTaker/surveyTaker.js:465-485 | an answer accepted by submit validation also passes the Next check |
| SurveyTaker.BlankTextPassesOnlyTheStepCheck | force-app/main/default/lwc/surveyTaker/surveyTaker.js:353-361 | a whitespace-only text answer passes the Next check but fails submit validation |
| SurveyTaker.ValidatedRequiredAreSubmitted | force-app/main/default/lwc/surveyTaker/surveyTaker.js:416-485 | after validation passes, every visible required question has an entry in the submission |
| SurveyTaker.BlankEntries | force-app/main/default/lwc/surveyTaker/surveyTaker.js:290-304 | the loop that fills the store builds exactly the initial store |
| SurveyTaker.ResetAll | force-app/main/default/lwc/surveyTaker/surveyTaker.js:292-300 | the loop over the questions yields exactly the reset questions |
| SurveyTaker.MarkAt | force-app/main/default/lwc/surveyTaker/surveyTaker.js:346-350 | marking a choice keeps every question's id and visibility, and so the visible count |
| SurveyTaker.UrlParamsOf | force-app/main/default/lwc/surveyTaker/surveyTaker.js:30-34 | the token is `c__token` when that is set and `token` otherwise, so there is one exactly when either is set |
| SurveyTaker.ViewOf | force-app/main/default/lwc/surveyTaker/surveyTaker.js:259-265 | the survey's name and header and the invitation header are shown as loaded; the thank-you text is the survey's own, else the fixed default sentence, so never empty; the name is shown exactly when it is not hidden |
| SurveyTaker.AnonymityOf | force-app/main/default/lwc/surveyTaker/surveyTaker.js:266-275 | the respondent may choose exactly without a token, as an internal user, on a survey that is not all-anonymous; their own choice is kept |
| SurveyTaker.SurveyTaker.constructor | force-app/main/default/lwc/surveyTaker/surveyTaker.js:86-108 | the component starts idle, empty, identified, with the store and cursor consistent |
| SurveyTaker.SurveyTaker.EffectiveRecordId | force-app/main/default/lwc/surveyTaker/surveyTaker.js:60-62 | the component property wins over the page state |
| SurveyTaker.SurveyTaker.EffectiveCaseId | force-app/main/default/lwc/surveyTaker/surveyTaker.js:67-69 | the component property wins over the page state |
| SurveyTaker.SurveyTaker.EffectiveContactId | force-app/main/default/lwc/surveyTaker/surveyTaker.js:74-76 | the component property wins over the page state |
| SurveyTaker.SurveyTaker.LoadSurveyData | force-app/main/default/lwc/surveyTaker/surveyTaker.js:234-250 | a load marks loading, clears the error, remembers the identity and sends the request chosen by token |
| SurveyTaker.SurveyTaker.ConnectedCallback | force-app/main/default/lwc/surveyTaker/surveyTaker.js:225-232 | a load starts exactly when the guard allows one, never while a load is in flight or for the identity already loaded; otherwise nothing changes |
| SurveyTaker.SurveyTaker.HandlePageReference | force-app/main/default/lwc/surveyTaker/surveyTaker.js:25-41 | the page state is taken, then a load starts exactly when the guard allows one; never while a load is in flight, never again for the identity already loaded |
| SurveyTaker.SurveyTaker.LoadResolved | force-app/main/default/lwc/surveyTaker/surveyTaker.js:253-283 | the loaded identity is recorded so it is not reloaded; the survey is presented with a fresh store and the cursor on the first question |
| SurveyTaker.SurveyTaker.LoadFoundNothing | force-app/main/default/lwc/surveyTaker/surveyTaker.js:253-282 | an empty result records the identity too and shows the not-found message |
| SurveyTaker.SurveyTaker.LoadRejected | force-app/main/default/lwc/surveyTaker/surveyTaker.js:284-287 | a rejection only sets the message, so the same identity can be loaded again |
| SurveyTaker.SurveyTaker.Present | force-app/main/default/lwc/surveyTaker/surveyTaker.js:259-278 | the survey's texts, anonymity and questions are taken and every answer is reset |
| SurveyTaker.SurveyTaker.InitializeResponses | force-app/main/default/lwc/surveyTaker/surveyTaker.js:290-308 | one blank entry per question, Multi-Select choices unchecked, cursor back to the start |
| SurveyTaker.SurveyTaker.HandleCurrentResponseChange | force-app/main/default/lwc/surveyTaker/surveyTaker.js:310-321 | the current question's text is set; with no current question nothing changes |
| SurveyTaker.SurveyTaker.HandleCheckboxChange | force-app/main/default/lwc/surveyTaker/surveyTaker.js:323-351 | the current question's list is toggled and its matching choice marked; the store stays keyed and the cursor valid |
| SurveyTaker.SurveyTaker.HandleResponseChange | force-app/main/default/lwc/surveyTaker/surveyTaker.js:386-410 | a Multi-Select detail toggles its list, any other sets its text |
| SurveyTaker.SurveyTaker.HandleNext | force-app/main/default/lwc/surveyTaker/surveyTaker.js:353-373 | Next is refused with a toast exactly when the current required question is unanswered; otherwise it advances, or on the last question opens the anonymity choice or submits exactly as HandleSubmit does (refused exactly when validation fails, with its message, else the current request is sent) |
| SurveyTaker.SurveyTaker.HandlePrevious | force-app/main/default/lwc/surveyTaker/surveyTaker.js:375-380 | the cursor steps back unless it is on the first question |
| SurveyTaker.SurveyTaker.HandleBackToLastQuestion | force-app/main/default/lwc/surveyTaker/surveyTaker.js:382-384 | the anonymity choice is closed |
| SurveyTaker.SurveyTaker.HandleAnonymousChange | force-app/main/default/lwc/surveyTaker/surveyTaker.js:412-414 | only the respondent's anonymity choice changes |
| SurveyTaker.SurveyTaker.HandleSubmit | force-app/main/default/lwc/surveyTaker/surveyTaker.js:416-446 | submit is refused with the validation message exactly when validation fails; otherwise the answered entries are sent |
| SurveyTaker.SurveyTaker.CompleteSubmit | force-app/main/default/lwc/surveyTaker/surveyTaker.js:448-462 | the form is unlocked; only a successful result marks the survey submitted, and one toast reports the outcome |
| LegacyTaker.ErrorMessage | force-app-lwc/main/default/lwc/surveyTaker/surveyTaker.js:146-155 | body message first, then the error's message, then a string error itself, then the fixed fallback |
| LegacyTaker.AnonymityDefaults | force-app-lwc/main/default/lwc/surveyTaker/surveyTaker.js:52-58 | a choice is offered exactly to internal users on a survey that is not all-anonymous, starting identified; otherwise the answer is anonymous |
| LegacyTaker.MissingRequired | force-app-lwc/main/default/lwc/surveyTaker/surveyTaker.js:103-111 | the missing list is no longer than the question list |
| LegacyTaker.MissingMembers | force-app-lwc/main/default/lwc/surveyTaker/surveyTaker.js:103-111 | a question is missing exactly when it is required and has neither text nor a checked value |
| LegacyTaker.NothingMissingIffAllAnswered | force-app-lwc/main/default/lwc/surveyTaker/surveyTaker.js:103-116 | nothing is missing exactly when every visible required question is answered, the same acceptance as the newer taker's Next check |
| LegacyTaker.CollectMissing | force-app-lwc/main/default/lwc/surveyTaker/surveyTaker.js:106-111 | the submit loop collects exactly the missing questions |
| LegacyTaker.LegacyTaker.constructor | force-app-lwc/main/default/lwc/surveyTaker/surveyTaker.js:7-28 | the component starts loading, empty and identified |
| LegacyTaker.LegacyTaker.LoadSurvey | force-app-lwc/main/default/lwc/surveyTaker/surveyTaker.js:34-42 | the read is sent for this record, case and contact |
| LegacyTaker.LegacyTaker.LoadSucceeded | force-app-lwc/main/default/lwc/surveyTaker/surveyTaker.js:43-61 | the texts and questions are taken, the visible ones kept, the anonymity defaults set; stored answers stay |
| LegacyTaker.LegacyTaker.LoadFailed | force-app-lwc/main/default/lwc/surveyTaker/surveyTaker.js:62-65 | the error message is shown and loading stops |
| LegacyTaker.LegacyTaker.HandleResponseChange | force-app-lwc/main/default/lwc/surveyTaker/surveyTaker.js:68-95 | a Multi-Select change toggles the entry's list, any other overwrites its text; keys stay unique |
| LegacyTaker.LegacyTaker.HandleAnonymousChange | force-app-lwc/main/default/lwc/surveyTaker/surveyTaker.js:97-99 | only the anonymity value changes |
| LegacyTaker.LegacyTaker.HandleSubmit | force-app-lwc/main/default/lwc/surveyTaker/surveyTaker.js:101-129 | submit is refused with one toast exactly when a visible required question is missing; otherwise every stored entry is sent |
| LegacyTaker.LegacyTaker.CompleteSubmit | force-app-lwc/main/default/lwc/surveyTaker/surveyTaker.js:130-143 | success marks the survey submitted and keeps the form locked; a refusal or rejection unlocks it with an error toast |
| SurveyQuestion.QuestionLabel | force-app/main/default/lwc/surveyQuestion/surveyQuestion.js:6-8 | the label is the order number, then ": ", then the question text |
| SurveyQuestion.LabelStartsWithNumber | force-app/main/default/lwc/surveyQuestion/surveyQuestion.js:6-8 | the text before the label's first colon is the order number |
| SurveyQuestion.AtMostOneKind | force-app/main/default/lwc/surveyQuestion/surveyQuestion.js:14-25 | a question renders at most one kind of input |
| SurveyQuestion.KindIgnoresPadding | force-app/main/default/lwc/surveyQuestion/surveyQuestion.js:14-25 | surrounding white space in the type does not change the kind of input |
| SurveyQuestion.ChangeDetail | force-app/main/default/lwc/surveyQuestion/surveyQuestion.js:31-45 | the event carries this question's id, its stored type, and the value and checked state given |
| SurveyQuestion.PaddedTypeReachesTakerUntrimmed | force-app/main/default/lwc/surveyQuestion/surveyQuestion.js:36-43 | a padded Multi-Select type renders check boxes, yet its event type differs from the one the takers test for |
| SurveyCreator.TrimmedNonEmpty | force-app/main/default/lwc/surveyCreator/surveyCreator.js:421-424 | no more choices than lines |
| SurveyCreator.TrimAll | force-app/main/default/lwc/surveyCreator/surveyCreator.js:423 | each line trimmed, in place |
| SurveyCreator.ChoicesAreClean | force-app/main/default/lwc/surveyCreator/surveyCreator.js:419-425 | every parsed choice is non-empty and already trimmed |
| SurveyCreator.ChoicesKeepLineOrder | force-app/main/default/lwc/surveyCreator/surveyCreator.js:419-425 | the choices are the trimmed lines in line order, and no non-blank line is lost |
| SurveyCreator.ParsedChoicesAreLines | force-app/main/default/lwc/surveyCreator/surveyCreator.js:419-425 | whatever was typed, no choice is empty, padded or spans two lines |
| SurveyCreator.QuestionsWithIndex | force-app/main/default/lwc/surveyCreator/surveyCreator.js:260-266 | each question is shown with its position and number position + 1, otherwise unchanged |
| SurveyCreator.PayloadFrom | force-app/main/default/lwc/surveyCreator/surveyCreator.js:481-487 | the payload keeps each question's fields and numbers them by position |
| SurveyCreator.PayloadMatchesDisplay | force-app/main/default/lwc/surveyCreator/surveyCreator.js:480-487 | the numbers sent on creation are the numbers the list shows |
| SurveyCreator.SurveyStatusText | force-app/main/default/lwc/surveyCreator/surveyCreator.js:222-227 | view mode reads Viewing; otherwise Saved exactly when the survey has an id |
| SurveyCreator.CreateButtonLabel | force-app/main/default/lwc/surveyCreator/surveyCreator.js:229-234 | view mode reads Edit; otherwise Update exactly when the survey has an id |
| SurveyCreator.QuestionFrom | force-app/main/default/lwc/surveyCreator/surveyCreator.js:427-434 | the saved question keeps the modal's text, type and flag, parses its choices, and keeps its id or takes the fresh one |
| SurveyCreator.SurveyCreator.constructor | force-app/main/default/lwc/surveyCreator/surveyCreator.js:10-39 | an unsaved survey with no questions and the modal closed |
| SurveyCreator.SurveyCreator.HandleNewSurvey | force-app/main/default/lwc/surveyCreator/surveyCreator.js:145-159 | every setting and question is forgotten and the build tab opens |
| SurveyCreator.SurveyCreator.HandleAddQuestion | force-app/main/default/lwc/surveyCreator/surveyCreator.js:342-352 | the modal opens on an empty Free Text question to append |
| SurveyCreator.SurveyCreator.HandleEditQuestion | force-app/main/default/lwc/surveyCreator/surveyCreator.js:354-367 | the modal opens on the chosen question, which a save replaces |
| SurveyCreator.SurveyCreator.HandleDuplicateQuestion | force-app/main/default/lwc/surveyCreator/surveyCreator.js:369-385 | one copy is appended with " (Copy)", numbered after the last; the original and the rest are untouched |
| SurveyCreator.SurveyCreator.HandleDeleteQuestion | force-app/main/default/lwc/surveyCreator/surveyCreator.js:387-391 | exactly the entry at the index is removed, the rest keep their order |
| SurveyCreator.SurveyCreator.HandleSaveQuestion | force-app/main/default/lwc/surveyCreator/surveyCreator.js:413-447 | blank text is refused with no change; otherwise only the edited index is replaced, or one question numbered length + 1 is appended |
| SurveyCreator.SurveyCreator.HandleCreateSurvey | force-app/main/default/lwc/surveyCreator/surveyCreator.js:458-475 | a blank name is refused with a toast; otherwise the settings are sent |
| SurveyCreator.SurveyCreator.CreateResolved | force-app/main/default/lwc/surveyCreator/surveyCreator.js:476-514 | a refusal stops creation; a created survey sends its questions numbered by position, or finishes at once when it has none |
| SurveyCreator.SurveyCreator.QuestionsCreated | force-app/main/default/lwc/surveyCreator/surveyCreator.js:493-499 | creation finishes and the survey is shown in view mode |
| SurveyCreator.SurveyCreator.CreateFailed | force-app/main/default/lwc/surveyCreator/surveyCreator.js:500-519 | one error toast names the failed step and creation stops |
| SurveyBuilderLwc.QuestionsWithIndex | force-app/main/default/lwc/surveyBuilderLwc/surveyBuilderLwc.js:64-70 | each question is shown with its position and number position + 1, otherwise unchanged |
| SurveyBuilderLwc.QuestionModalTitle | force-app/main/default/lwc/surveyBuilderLwc/surveyBuilderLwc.js:72-74 | Edit exactly when a question is being edited, else Add |
| SurveyBuilderLwc.ShowChoicesMatchesQuestionKinds | force-app/main/default/lwc/surveyBuilderLwc/surveyBuilderLwc.js:85-91 | the choices box shows exactly for the types rendered as radio buttons or check boxes, when the type is unpadded |
| SurveyBuilderLwc.SurveyBuilderLwc.constructor | force-app/main/default/lwc/surveyBuilderLwc/surveyBuilderLwc.js:4-25 | no questions and the modal closed |
| SurveyBuilderLwc.SurveyBuilderLwc.HandleAddQuestion | force-app/main/default/lwc/surveyBuilderLwc/surveyBuilderLwc.js:94-104 | the modal opens on an empty Free Text question to append |
| SurveyBuilderLwc.SurveyBuilderLwc.HandleEditQuestion | force-app/main/default/lwc/surveyBuilderLwc/surveyBuilderLwc.js:106-119 | the modal opens on the chosen question, which a save replaces |
| SurveyBuilderLwc.SurveyBuilderLwc.HandleDuplicateQuestion | force-app/main/default/lwc/surveyBuilderLwc/surveyBuilderLwc.js:121-135 | one copy is appended with " (Copy)" and no number; the rest are untouched |
| SurveyBuilderLwc.SurveyBuilderLwc.HandleDeleteQuestion | force-app/main/default/lwc/surveyBuilderLwc/surveyBuilderLwc.js:137-141 | exactly the entry at the index is removed, the rest keep their order |
| SurveyBuilderLwc.SurveyBuilderLwc.HandleSaveQuestion | force-app/main/default/lwc/surveyBuilderLwc/surveyBuilderLwc.js:163-188 | blank text is refused with no change; otherwise only the edited index is replaced, or one question numbered length + 1 is appended |
| SurveyBuilder.TypeLabel | force-app/main/default/lwc/surveyBuilder/surveyBuilder.js:108-116 | the select types get their short label and any other type is shown as it is |
| SurveyBuilder.NonBlank | force-app/main/default/lwc/surveyBuilder/surveyBuilder.js:120 | no more lines than were given |
| SurveyBuilder.NonBlankMembers | force-app/main/default/lwc/surveyBuilder/surveyBuilder.js:120 | exactly the non-blank lines are kept, untrimmed |
| SurveyBuilder.NonBlankInOrder | force-app/main/default/lwc/surveyBuilder/surveyBuilder.js:120 | the kept lines keep their order |
| SurveyBuilder.PreviewLines | force-app/main/default/lwc/surveyBuilder/surveyBuilder.js:118-125 | at most three lines are shown |
| SurveyBuilder.ChoicesPreview | force-app/main/default/lwc/surveyBuilder/surveyBuilder.js:118-125 | no choices text gives an empty preview |
| SurveyBuilder.PreviewStartsWithFirstLine | force-app/main/default/lwc/surveyBuilder/surveyBuilder.js:118-125 | the preview is empty exactly when there is no non-blank line, and otherwise starts with the first one |
| SurveyBuilder.PreviewShowsFirstThree | force-app/main/default/lwc/surveyBuilder/surveyBuilder.js:118-125 | the non-blank lines joined by ", " when there are at most three, else the first three joined and an ellipsis |
| SurveyBuilder.PreviewSingleLine | force-app/main/default/lwc/surveyBuilder/surveyBuilder.js:118-125 | the preview never spans two lines |
| SurveyBuilder.QuestionFormError | force-app/main/default/lwc/surveyBuilder/surveyBuilder.js:195-204 | the form passes exactly when the text is not blank and, for a type that needs choices, the choices are not blank |
| SurveyBuilder.PayloadOf | force-app/main/default/lwc/surveyBuilder/surveyBuilder.js:208-215 | the form is sent as entered, with the choices dropped for Free Text |
| SurveyBuilder.ValidPayload | force-app/main/default/lwc/surveyBuilder/surveyBuilder.js:195-215 | a payload that passed the form check has text, and choices unless it is Free Text |
| SurveyBuilder.Rows | force-app/main/default/lwc/surveyBuilder/surveyBuilder.js:79-84 | every loaded record is kept, numbered from 1 in load order |
| SurveyBuilder.FindIndex | force-app/main/default/lwc/surveyBuilder/surveyBuilder.js:314 | the first row with that id, or -1 exactly when there is none |
| SurveyBuilder.SwappedIds | force-app/main/default/lwc/surveyBuilder/surveyBuilder.js:328-333 | the id list with exactly the two positions exchanged, a permutation of the ids |
| SurveyBuilder.FailureText | force-app/main/default/lwc/surveyBuilder/surveyBuilder.js:91 | the server's body message, else the call's fallback |
| SurveyBuilder.SurveyBuilder.constructor | force-app/main/default/lwc/surveyBuilder/surveyBuilder.js:12-41 | loading, with no survey, no questions, and both modals closed |
| SurveyBuilder.SurveyBuilder.LoadSurveyData | force-app/main/default/lwc/surveyBuilder/surveyBuilder.js:72-76 | a load starts for this record |
| SurveyBuilder.SurveyBuilder.LoadSucceeded | force-app/main/default/lwc/surveyBuilder/surveyBuilder.js:77-89 | the rows are numbered from 1 and a loaded survey fills the settings form |
| SurveyBuilder.SurveyBuilder.LoadFailed | force-app/main/default/lwc/surveyBuilder/surveyBuilder.js:90-93 | the error is shown and loading stops |
| SurveyBuilder.SurveyBuilder.InitializeSurveySettings | force-app/main/default/lwc/surveyBuilder/surveyBuilder.js:96-106 | the settings form takes the loaded survey, if any |
| SurveyBuilder.SurveyBuilder.HandleAddQuestion | force-app/main/default/lwc/surveyBuilder/surveyBuilder.js:128-137 | a blank Free Text form numbered after the last question |
| SurveyBuilder.SurveyBuilder.HandleEditQuestion | force-app/main/default/lwc/surveyBuilder/surveyBuilder.js:139-152 | the form takes the first row with that id (missing type as Free Text, missing number as 1); an unknown id changes nothing |
| SurveyBuilder.SurveyBuilder.HandleCloseQuestionModal | force-app/main/default/lwc/surveyBuilder/surveyBuilder.js:170-173 | the modal closes and nothing is being edited |
| SurveyBuilder.SurveyBuilder.HandleSaveQuestion | force-app/main/default/lwc/surveyBuilder/surveyBuilder.js:195-241 | an invalid form is refused with its message; otherwise a create or an update of the edited question is sent |
| SurveyBuilder.SurveyBuilder.HandleDeleteQuestion | force-app/main/default/lwc/surveyBuilder/surveyBuilder.js:154-168 | a deletion is sent exactly when the user confirms |
| SurveyBuilder.SurveyBuilder.HandleOpenSettings | force-app/main/default/lwc/surveyBuilder/surveyBuilder.js:244-247 | the settings form is refreshed from the survey and opened |
| SurveyBuilder.SurveyBuilder.HandleCloseSettingsModal | force-app/main/default/lwc/surveyBuilder/surveyBuilder.js:249-251 | the settings modal closes |
| SurveyBuilder.SurveyBuilder.HandleSaveSettings | force-app/main/default/lwc/surveyBuilder/surveyBuilder.js:281-309 | a blank name is refused with a toast; otherwise the form is sent |
| SurveyBuilder.SurveyBuilder.HandleMoveUp | force-app/main/default/lwc/surveyBuilder/surveyBuilder.js:312-318 | a reorder is sent exactly when the question is not first: its id and its predecessor's exchanged, a permutation of the ids |
| SurveyBuilder.SurveyBuilder.HandleMoveDown | force-app/main/default/lwc/surveyBuilder/surveyBuilder.js:320-326 | a reorder is sent exactly when the question is not last: its id and its successor's exchanged, a permutation of the ids |
| SurveyBuilder.SurveyBuilder.SwapQuestions | force-app/main/default/lwc/surveyBuilder/surveyBuilder.js:328-344 | the ids with the two positions exchanged are sent, a permutation of the ids |
| SurveyBuilder.SurveyBuilder.CallSucceeded | force-app/main/default/lwc/surveyBuilder/surveyBuilder.js:219-223 | the call's toast, the call's modal closed, and a reload |
| SurveyBuilder.SurveyBuilder.CallFailed | force-app/main/default/lwc/surveyBuilder/surveyBuilder.js:224-227 | the call's error toast and the editor unlocked |
| Regeneration.DefaultSettingsNeedNoConfig | force-app/main/default/lwc/surveyRegeneration/surveyRegeneration.js:51-89 | without custom settings, proceeding needs only a record, a type and no load in flight |
| Regeneration.DefaultNamesAreConfigured | force-app/main/default/lwc/surveyRegeneration/surveyRegeneration.js:55-69 | the default API names pass both configuration checks |
| Regeneration.RecordPickerObjectApiName | force-app/main/default/lwc/surveyRegeneration/surveyRegeneration.js:106-111 | the picker uses the trimmed custom object name when there is one, else the training request |
| Regeneration.PickerAgreesWithParticipantSwitch | force-app/main/default/lwc/surveyRegeneration/surveyRegeneration.js:95-111 | the picker shows the training request exactly when the participant type is allowed |
| Regeneration.WithoutId | force-app/main/default/lwc/surveyRegeneration/surveyRegeneration.js:157 | removing never adds records |
| Regeneration.WithoutIdMembers | force-app/main/default/lwc/surveyRegeneration/surveyRegeneration.js:151-158 | exactly the records with other ids are kept |
| Regeneration.WithoutIdInOrder | force-app/main/default/lwc/surveyRegeneration/surveyRegeneration.js:151-158 | the kept records keep their order |
| Regeneration.WithoutIdKeepsUnique | force-app/main/default/lwc/surveyRegeneration/surveyRegeneration.js:151-158 | after a removal the id is gone and no id repeats |
| Regeneration.AppendKeepsUnique | force-app/main/default/lwc/surveyRegeneration/surveyRegeneration.js:135-149 | adding a record with a new id keeps ids unique |
| Regeneration.IdsOf | force-app/main/default/lwc/surveyRegeneration/surveyRegeneration.js:256 | the ids of the selection, in order |
| Regeneration.RequestFor | force-app/main/default/lwc/surveyRegeneration/surveyRegeneration.js:253-268 | the request names the selected ids in order and the types, and carries the API names exactly with custom settings |
| Regeneration.RequestIdsDistinct | force-app/main/default/lwc/surveyRegeneration/surveyRegeneration.js:253-268 | a request built from the page's selection names each record once |
| Regeneration.FailureDetails | force-app/main/default/lwc/surveyRegeneration/surveyRegeneration.js:301 | the body message, else the error's message, else 'Unknown error' when the error carries neither |
| Regeneration.SurveyRegeneration.constructor | force-app/main/default/lwc/surveyRegeneration/surveyRegeneration.js:5-35 | nothing selected, every type on, default names, no results |
| Regeneration.SurveyRegeneration.HandleRecordPickerChange | force-app/main/default/lwc/surveyRegeneration/surveyRegeneration.js:121-133 | the picked record becomes pending, named by its id when it has no name |
| Regeneration.SurveyRegeneration.HandleAddRecord | force-app/main/default/lwc/surveyRegeneration/surveyRegeneration.js:135-149 | the pending record is appended unless its id is already selected (then an info toast); ids stay unique |
| Regeneration.SurveyRegeneration.HandleRowAction | force-app/main/default/lwc/surveyRegeneration/surveyRegeneration.js:151-158 | only the remove action drops the records with that id; ids stay unique |
| Regeneration.SurveyRegeneration.HandleClearAll | force-app/main/default/lwc/surveyRegeneration/surveyRegeneration.js:160-164 | the selection, pending record and picker are cleared |
| Regeneration.SurveyRegeneration.HandleCustomSettingsToggle | force-app/main/default/lwc/surveyRegeneration/surveyRegeneration.js:178-191 | off restores the defaults, re-enables the participant type and clears the selection; on disables participant for a non-training object |
| Regeneration.SurveyRegeneration.HandleObjectApiNameChange | force-app/main/default/lwc/surveyRegeneration/surveyRegeneration.js:193-199 | a new object name clears the selection and turns participant off unless the object allows it |
| Regeneration.SurveyRegeneration.HandleNext | force-app/main/default/lwc/surveyRegeneration/surveyRegeneration.js:217-223 | the confirmation opens exactly when the page can proceed; otherwise one error toast |
| Regeneration.SurveyRegeneration.HandleBack | force-app/main/default/lwc/surveyRegeneration/surveyRegeneration.js:225-227 | the confirmation closes |
| Regeneration.SurveyRegeneration.HandleReset | force-app/main/default/lwc/surveyRegeneration/surveyRegeneration.js:233-251 | back to the initial choices; the run counts and the loading flag are kept |
| Regeneration.SurveyRegeneration.ExecuteRegeneration | force-app/main/default/lwc/surveyRegeneration/surveyRegeneration.js:253-268 | the run starts with the request for the current page |
| Regeneration.SurveyRegeneration.RegenerationResolved | force-app/main/default/lwc/surveyRegeneration/surveyRegeneration.js:271-294 | the first result, if any, is shown with a success or warning toast; the page unlocks |
| Regeneration.SurveyRegeneration.RegenerationFailed | force-app/main/default/lwc/surveyRegeneration/surveyRegeneration.js:295-303 | a failed summary with the error details and one error toast |
| RegenerationWizard.OnePrimaryButton | force-app/main/default/lwc/surveyRegenerationWizard/surveyRegenerationWizard.js:82-96 | every step shows exactly one of Next, Regenerate and Finish |
| RegenerationWizard.NextStep | force-app/main/default/lwc/surveyRegenerationWizard/surveyRegenerationWizard.js:232-242 | Next leaves Upload exactly with ids and Select exactly with a type and surveys; the last two steps stay |
| RegenerationWizard.PreviousStep | force-app/main/default/lwc/surveyRegenerationWizard/surveyRegenerationWizard.js:244-250 | Back goes one step back from Select and Confirm; Upload and Complete stay |
| RegenerationWizard.BackUndoesNext | force-app/main/default/lwc/surveyRegenerationWizard/surveyRegenerationWizard.js:232-250 | Back undoes every forward move |
| RegenerationWizard.NextEnabledIffItMoves | force-app/main/default/lwc/surveyRegenerationWizard/surveyRegenerationWizard.js:98-106 | where Next is shown and nothing is processing, it is enabled exactly when pressing it moves forward |
| RegenerationWizard.TypeList | force-app/main/default/lwc/surveyRegenerationWizard/surveyRegenerationWizard.js:202-205 | at most three types |
| RegenerationWizard.TypeListExact | force-app/main/default/lwc/surveyRegenerationWizard/surveyRegenerationWizard.js:202-205 | a type is requested exactly when it is checked, never twice, and none when nothing is checked |
| RegenerationWizard.CollectSelectedTypes | force-app/main/default/lwc/surveyRegenerationWizard/surveyRegenerationWizard.js:202-205 | the push sequence yields exactly the type list |
| RegenerationWizard.ParseOutcome | force-app/main/default/lwc/surveyRegenerationWizard/surveyRegenerationWizard.js:149-165 | both result shapes give their ids; an empty list gives the no-ids error; a failure gives its message or the fallback and no ids |
| RegenerationWizard.ParseIdsIffNoError | force-app/main/default/lwc/surveyRegenerationWizard/surveyRegenerationWizard.js:149-165 | a parse yields ids exactly when it leaves no upload error |
| RegenerationWizard.SurveyIds | force-app/main/default/lwc/surveyRegenerationWizard/surveyRegenerationWizard.js:255 | the surveys' ids, position by position |
| RegenerationWizard.SurveyTypes | force-app/main/default/lwc/surveyRegenerationWizard/surveyRegenerationWizard.js:256 | the surveys' types, position by position |
| RegenerationWizard.SurveyRegenerationWizard.constructor | force-app/main/default/lwc/surveyRegenerationWizard/surveyRegenerationWizard.js:14-34 | the Upload step with nothing entered or found |
| RegenerationWizard.SurveyRegenerationWizard.BeginReadFile | force-app/main/default/lwc/surveyRegenerationWizard/surveyRegenerationWizard.js:116-119 | reading marks processing and clears the upload error |
| RegenerationWizard.SurveyRegenerationWizard.ReadFailed | force-app/main/default/lwc/surveyRegenerationWizard/surveyRegenerationWizard.js:125-128 | an unreadable file shows the read error and stops processing |
| RegenerationWizard.SurveyRegenerationWizard.ParseFileContent | force-app/main/default/lwc/surveyRegenerationWizard/surveyRegenerationWizard.js:143-148 | the text is sent to be parsed and the old surveys are forgotten |
| RegenerationWizard.SurveyRegenerationWizard.HandleManualInput | force-app/main/default/lwc/surveyRegenerationWizard/surveyRegenerationWizard.js:132-141 | typed ids are sent to be parsed; clearing the box clears the ids, surveys and error |
| RegenerationWizard.SurveyRegenerationWizard.ParseResolved | force-app/main/default/lwc/surveyRegenerationWizard/surveyRegenerationWizard.js:149-166 | the ids and upload error become the parse outcome |
| RegenerationWizard.SurveyRegenerationWizard.ParseFailed | force-app/main/default/lwc/surveyRegenerationWizard/surveyRegenerationWizard.js:167-171 | no ids, and the server's message or the parse fallback |
| RegenerationWizard.SurveyRegenerationWizard.HandleSurveyTypeChange | force-app/main/default/lwc/surveyRegenerationWizard/surveyRegenerationWizard.js:174-193 | only the named type changes, then the surveys reload exactly when there are ids and a type; the loaded list is kept until the reload answers, and cleared when nothing is reloaded |
| RegenerationWizard.SurveyRegenerationWizard.LoadSurveysForRegeneration | force-app/main/default/lwc/surveyRegenerationWizard/surveyRegenerationWizard.js:195-210 | a request for the ids and checked types exactly when there are both; otherwise the list is cleared |
| RegenerationWizard.SurveyRegenerationWizard.SurveysLoaded | force-app/main/default/lwc/surveyRegenerationWizard/surveyRegenerationWizard.js:211-224 | a successful result's surveys are shown; otherwise none, with an error toast |
| RegenerationWizard.SurveyRegenerationWizard.SurveysFailed | force-app/main/default/lwc/surveyRegenerationWizard/surveyRegenerationWizard.js:225-229 | no surveys and one error toast |
| RegenerationWizard.SurveyRegenerationWizard.HandleNext | force-app/main/default/lwc/surveyRegenerationWizard/surveyRegenerationWizard.js:232-242 | the step becomes the next step for the current ids, types and surveys |
| RegenerationWizard.SurveyRegenerationWizard.HandleBack | force-app/main/default/lwc/surveyRegenerationWizard/surveyRegenerationWizard.js:244-250 | the step becomes the previous step |
| RegenerationWizard.SurveyRegenerationWizard.HandleRegenerate | force-app/main/default/lwc/surveyRegenerationWizard/surveyRegenerationWizard.js:252-258 | the ids and types of the surveys found are sent, position by position |
| RegenerationWizard.SurveyRegenerationWizard.RegenerationResolved | force-app/main/default/lwc/surveyRegenerationWizard/surveyRegenerationWizard.js:259-276 | the wizard completes with the result, its errors replacing the list only when there are some |
| RegenerationWizard.SurveyRegenerationWizard.RegenerationFailed | force-app/main/default/lwc/surveyRegenerationWizard/surveyRegenerationWizard.js:277-284 | the wizard completes as failed with one error message |
| RegenerationWizard.SurveyRegenerationWizard.HandleReset | force-app/main/default/lwc/surveyRegenerationWizard/surveyRegenerationWizard.js:287-301 | back to Upload with nothing entered; the survey-loading flag is kept |
| Invitations.StatusClass | force-app/main/default/lwc/surveyInvitations/surveyInvitations.js:92-99 | green for Completed, red for Expired, none otherwise |
| Invitations.Rows | force-app/main/default/lwc/surveyInvitations/surveyInvitations.js:79-83 | every invitation is kept, in order, with its status class |
| Invitations.CountStatus | force-app/main/default/lwc/surveyInvitations/surveyInvitations.js:58-64 | a status count never exceeds the number of invitations |
| Invitations.TwoStatusesWithinTotal | force-app/main/default/lwc/surveyInvitations/surveyInvitations.js:54-64 | two different statuses together never exceed the total |
| Invitations.PendingAndCompletedWithinTotal | force-app/main/default/lwc/surveyInvitations/surveyInvitations.js:54-64 | pending plus completed is at most the total |
| Invitations.Urls | force-app/main/default/lwc/surveyInvitations/surveyInvitations.js:159 | the links' URLs, in order |
| Invitations.CopyAllLinesAreUrls | force-app/main/default/lwc/surveyInvitations/surveyInvitations.js:158-161 | splitting the copied text at line breaks gives back the URLs |
| Invitations.SurveyInvitations.constructor | force-app/main/default/lwc/surveyInvitations/surveyInvitations.js:29-44 | loading, with ten links proposed and both modals closed |
| Invitations.SurveyInvitations.LoadInvitations | force-app/main/default/lwc/surveyInvitations/surveyInvitations.js:74-78 | a load hides the content and clears the error |
| Invitations.SurveyInvitations.InvitationsLoaded | force-app/main/default/lwc/surveyInvitations/surveyInvitations.js:79-85 | the rows of the result are shown |
| Invitations.SurveyInvitations.InvitationsFailed | force-app/main/default/lwc/surveyInvitations/surveyInvitations.js:86-89 | the error is shown and the content hidden |
| Invitations.SurveyInvitations.HandleOpenGenerateModal | force-app/main/default/lwc/surveyInvitations/surveyInvitations.js:106-109 | the modal opens on ten links |
| Invitations.SurveyInvitations.HandleCloseGenerateModal | force-app/main/default/lwc/surveyInvitations/surveyInvitations.js:111-113 | the modal closes |
| Invitations.SurveyInvitations.HandleLinkCountChange | force-app/main/default/lwc/surveyInvitations/surveyInvitations.js:115-117 | the parsed count, or none for a non-number |
| Invitations.SurveyInvitations.HandleGenerateLinks | force-app/main/default/lwc/surveyInvitations/surveyInvitations.js:119-127 | a request is sent exactly for a count from 1 to 200; otherwise an error toast |
| Invitations.SurveyInvitations.GenerateResolved | force-app/main/default/lwc/surveyInvitations/surveyInvitations.js:128-139 | success shows the links and reloads the list; otherwise only an error toast |
| Invitations.SurveyInvitations.GenerateFailed | force-app/main/default/lwc/surveyInvitations/surveyInvitations.js:140-143 | one error toast and generation stops |
| Invitations.SurveyInvitations.HandleCloseLinksModal | force-app/main/default/lwc/surveyInvitations/surveyInvitations.js:147-150 | the modal closes and the links are forgotten |
| Invitations.SurveyInvitations.CopyToClipboard | force-app/main/default/lwc/surveyInvitations/surveyInvitations.js:163-178 | the text is written when there is a clipboard; otherwise an error toast |
| Invitations.SurveyInvitations.ClipboardSettled | force-app/main/default/lwc/surveyInvitations/surveyInvitations.js:167-174 | a failure is always reported, a success only when asked for |
| Invitations.SurveyInvitations.HandleCopyLink | force-app/main/default/lwc/surveyInvitations/surveyInvitations.js:152-156 | the link is written and the success toast follows at once |
| Invitations.SurveyInvitations.HandleRowAction | force-app/main/default/lwc/surveyInvitations/surveyInvitations.js:182-190 | only the copy action copies its row's link |
| Invitations.SurveyInvitations.HandleCopyAllLinks | force-app/main/default/lwc/surveyInvitations/surveyInvitations.js:158-161 | every generated link is written, one per line |
| TemplateList.Compare | force-app/main/default/lwc/surveyTemplateList/surveyTemplateList.js:106-115 | equal keys compare equal, and the sign follows the direction |
| TemplateList.CompareAntisymmetric | force-app/main/default/lwc/surveyTemplateList/surveyTemplateList.js:113 | swapping the rows negates the comparison |
| TemplateList.SortedDirection | force-app/main/default/lwc/surveyTemplateList/surveyTemplateList.js:106-115 | a sorted column is non-decreasing ascending and non-increasing descending |
| TemplateList.DirectedKeyOrder | force-app/main/default/lwc/surveyTemplateList/surveyTemplateList.js:106-115 | the directed key orders rows exactly as the comparator does |
| TemplateList.InsertNext | force-app/main/default/lwc/surveyTemplateList/surveyTemplateList.js:102 | one insertion step extends the sorted prefix and keeps the rows a permutation |
| TemplateList.DirectedSorted | force-app/main/default/lwc/surveyTemplateList/surveyTemplateList.js:106-115 | sorted by the directed key means sorted for the comparator |
| TemplateList.SortSurveys | force-app/main/default/lwc/surveyTemplateList/surveyTemplateList.js:101-103 | the sorted copy is a permutation of the rows, in comparator order |
| TemplateList.WithNameUrls | force-app/main/default/lwc/surveyTemplateList/surveyTemplateList.js:79-82 | every row gets the link "/" + its id and is otherwise unchanged |
| TemplateList.SurveyTemplateList.constructor | force-app/main/default/lwc/surveyTemplateList/surveyTemplateList.js:35-54 | loading, sorted by creation date descending, modals closed |
| TemplateList.SurveyTemplateList.LoadSurveys | force-app/main/default/lwc/surveyTemplateList/surveyTemplateList.js:73-76 | a load starts and clears the error |
| TemplateList.SurveyTemplateList.SurveysLoaded | force-app/main/default/lwc/surveyTemplateList/surveyTemplateList.js:78-84 | the rows with their links are shown |
| TemplateList.SurveyTemplateList.SurveysFailed | force-app/main/default/lwc/surveyTemplateList/surveyTemplateList.js:85-88 | the error is shown and loading stops |
| TemplateList.SurveyTemplateList.HandleSort | force-app/main/default/lwc/surveyTemplateList/surveyTemplateList.js:96-104 | for a numeric column, the rows become a sorted permutation of themselves and the response total is unchanged |
| TemplateList.SurveyTemplateList.HandleRowAction | force-app/main/default/lwc/surveyTemplateList/surveyTemplateList.js:118-138 | edit and preview navigate, clone opens the clone modal, delete is sent only when confirmed |
| TemplateList.SurveyTemplateList.DeleteSucceeded | force-app/main/default/lwc/surveyTemplateList/surveyTemplateList.js:167-170 | a success toast and a reload |
| TemplateList.SurveyTemplateList.DeleteFailed | force-app/main/default/lwc/surveyTemplateList/surveyTemplateList.js:171-174 | an error toast and loading stops |
| TemplateList.SurveyTemplateList.HandleOpenCreateModal | force-app/main/default/lwc/surveyTemplateList/surveyTemplateList.js:179-182 | the create modal opens on an empty name |
| TemplateList.SurveyTemplateList.HandleCreateSurvey | force-app/main/default/lwc/surveyTemplateList/surveyTemplateList.js:192-200 | a blank name is refused with a toast; otherwise that name is sent |
| TemplateList.SurveyTemplateList.CreateResolved | force-app/main/default/lwc/surveyTemplateList/surveyTemplateList.js:201-210 | success closes the modal and opens the new survey; otherwise an error toast |
| TemplateList.SurveyTemplateList.CreateFailed | force-app/main/default/lwc/surveyTemplateList/surveyTemplateList.js:211-214 | an error toast and creation stops |
| TemplateList.SurveyTemplateList.OpenCloneModal | force-app/main/default/lwc/surveyTemplateList/surveyTemplateList.js:218-222 | the clone modal remembers the source and proposes "Copy of" + its name |
| TemplateList.SurveyTemplateList.HandleCloneSurvey | force-app/main/default/lwc/surveyTemplateList/surveyTemplateList.js:232-240 | a blank name is refused with a toast; otherwise the source is cloned under that name |
| TemplateList.SurveyTemplateList.CloneResolved | force-app/main/default/lwc/surveyTemplateList/surveyTemplateList.js:241-250 | success closes the modal and opens the clone; otherwise an error toast |
| TemplateList.SurveyTemplateList.CloneFailed | force-app/main/default/lwc/surveyTemplateList/surveyTemplateList.js:251-254 | an error toast and cloning stops |
| Dashboard.StalledIffAwaitingTooLong | force-app/main/default/lwc/surveyDashboard/surveyDashboard.js:217-224 | stalled means awaiting responses and created more than 14 days ago |
| Dashboard.CategoriesCover | force-app/main/default/lwc/surveyDashboard/surveyDashboard.js:31-57 | every survey is a draft, active, ready or stalled; ready and stalled exclude each other and the rest, so a draft with responses is in neither |
| Dashboard.CategoryListsCover | force-app/main/default/lwc/surveyDashboard/surveyDashboard.js:31-69 | every listed survey is in one of the four category lists |
| Dashboard.AwaitingIsReadyPlusStalled | force-app/main/default/lwc/surveyDashboard/surveyDashboard.js:47-65 | the surveys awaiting responses are exactly the ready plus the stalled ones, and so are their counts |
| Dashboard.FilteredSurveys | force-app/main/default/lwc/surveyDashboard/surveyDashboard.js:71-93 | a survey is kept exactly when it matches the search and the timeframe |
| Dashboard.FilteredInOrder | force-app/main/default/lwc/surveyDashboard/surveyDashboard.js:71-93 | the filter keeps load order, and with no search and all time it keeps everything |
| Dashboard.StatusOf | force-app/main/default/lwc/surveyDashboard/surveyDashboard.js:226-246 | Draft exactly for drafts, Stalled exactly for stalled surveys, Active exactly for non-drafts with responses |
| Dashboard.ReadyPillIffReady | force-app/main/default/lwc/surveyDashboard/surveyDashboard.js:226-246 | the Ready pill shows exactly on the ready-to-launch surveys |
| Dashboard.Decorate | force-app/main/default/lwc/surveyDashboard/surveyDashboard.js:226-246 | the survey is kept with the label and class of its status |
| Dashboard.DecoratedMembers | force-app/main/default/lwc/surveyDashboard/surveyDashboard.js:103 | every decorated entry is a listed survey with its own status label |
| Dashboard.NeedsAttentionShape | force-app/main/default/lwc/surveyDashboard/surveyDashboard.js:95-104 | five of the listed drafts and stalled surveys (all when fewer), oldest first, no candidate left out older than the last one shown, each with its Draft or Stalled pill |
| Dashboard.RecentShape | force-app/main/default/lwc/surveyDashboard/surveyDashboard.js:106-113 | five of the listed surveys (all when fewer), newest first, no survey left out newer than the last one shown |
| Dashboard.NoQuestionsIffAllDrafts | force-app/main/default/lwc/surveyDashboard/surveyDashboard.js:22-24 | the question total is never negative, and is zero exactly when every survey is a draft |
| AnalyticsDashboard.FilteredResponses | force-app/main/default/lwc/surveyAnalyticsDashboard/surveyAnalyticsDashboard.js:87-110 | a response is kept exactly when it matches the search and the timeframe |
| AnalyticsDashboard.FilteredInOrder | force-app/main/default/lwc/surveyAnalyticsDashboard/surveyAnalyticsDashboard.js:87-110 | the filter keeps load order, and with no search and all time it keeps everything |
| AnalyticsDashboard.WeeksPartitionFortnight | force-app/main/default/lwc/surveyAnalyticsDashboard/surveyAnalyticsDashboard.js:138-155 | the two weekly windows are disjoint and their counts add up to the last fourteen days |
| AnalyticsDashboard.Delta | force-app/main/default/lwc/surveyAnalyticsDashboard/surveyAnalyticsDashboard.js:166 | the percentage change rounded half up, bounded from both sides in exact arithmetic |
| AnalyticsDashboard.ResponseTrend | force-app/main/default/lwc/surveyAnalyticsDashboard/surveyAnalyticsDashboard.js:157-165 | no activity reads No change, activity only this week reads New activity |
| AnalyticsDashboard.TrendPositiveIffNoRealDecline | force-app/main/default/lwc/surveyAnalyticsDashboard/surveyAnalyticsDashboard.js:157-171 | the pill is positive exactly when the rounded change is not negative, and reads "+" whenever this week is not lower |
| AnalyticsDashboard.Contacts | force-app/main/default/lwc/surveyAnalyticsDashboard/surveyAnalyticsDashboard.js:173-176 | exactly the non-empty contact ids of the responses |
| AnalyticsDashboard.RespondentsAtMostResponses | force-app/main/default/lwc/surveyAnalyticsDashboard/surveyAnalyticsDashboard.js:173-179 | no more respondents than responses with a contact, and no more than responses |
| AnalyticsDashboard.Row | force-app/main/default/lwc/surveyAnalyticsDashboard/surveyAnalyticsDashboard.js:199-205 | the response is kept, shown Linked or Anonymous by contact and Linked or a dash by case |
| AnalyticsDashboard.ResponseRows | force-app/main/default/lwc/surveyAnalyticsDashboard/surveyAnalyticsDashboard.js:199-205 | one row per filtered response, in order |
| AnalyticsDashboard.LinkedCaseRowsMatchCount | force-app/main/default/lwc/surveyAnalyticsDashboard/surveyAnalyticsDashboard.js:178-205 | for the same list of responses, the rows show Linked in the case column exactly as often as the case-linked count counts; on the page the table lists the filtered responses while the count covers all of them, so the two agree only when no filter drops a linked response |
| AnalyticsDashboard.OptionalAreNotRequired | force-app/main/default/lwc/surveyAnalyticsDashboard/surveyAnalyticsDashboard.js:238-244 | the optional count is exactly the number of questions not required, between 0 and the total |
| AnalyticsDashboard.TallyCounts | force-app/main/default/lwc/surveyAnalyticsDashboard/surveyAnalyticsDashboard.js:224-228 | one tally step adds one to its type's count and to the total, and gives the type a row |
| AnalyticsDashboard.TallyDistinct | force-app/main/default/lwc/surveyAnalyticsDashboard/surveyAnalyticsDashboard.js:224-228 | tallying keeps one row per type |
| AnalyticsDashboard.GroupFromSummarises | force-app/main/default/lwc/surveyAnalyticsDashboard/surveyAnalyticsDashboard.js:224-228 | the reduce keeps the accumulator a tally of the questions seen so far |
| AnalyticsDashboard.SortKeepsDistinctTypes | force-app/main/default/lwc/surveyAnalyticsDashboard/surveyAnalyticsDashboard.js:230-231 | sorting the rows keeps the same types, once each |
| AnalyticsDashboard.QuestionSummaryMeaning | force-app/main/default/lwc/surveyAnalyticsDashboard/surveyAnalyticsDashboard.js:221-236 | one row per occurring type, each holding its count, adding up to the number of questions, largest first |
| HomeHero.FocusOf | force-app/main/default/lwc/surveyHomeHero/surveyHomeHero.js:15-31 | the first stage with surveys in the order drafts, ready, stalled, active, else nothing yet |
| HomeHero.Headline | force-app/main/default/lwc/surveyHomeHero/surveyHomeHero.js:10-32 | a welcome without data, and an invitation to create when nothing is there yet |
| HomeHero.HeadlineWording | force-app/main/default/lwc/surveyHomeHero/surveyHomeHero.js:19-28 | a stage headline starts with that stage's positive count, and reads singular exactly for one |
| HomeHero.SubheadlineFollowsHeadline | force-app/main/default/lwc/surveyHomeHero/surveyHomeHero.js:34-55 | two data sets get the same subheadline exactly when the headline has the same stage |
| HomeHero.PrimaryActionOf | force-app/main/default/lwc/surveyHomeHero/surveyHomeHero.js:57-75 | the action is always highlighted, and is Create without data |
| HomeHero.PrimaryActionFollowsFocus | force-app/main/default/lwc/surveyHomeHero/surveyHomeHero.js:57-75 | the action follows the headline's stage, with Create for active surveys and for nothing yet |
| HomeActionCenter.ActionFor | force-app/main/default/lwc/surveyHomeActionCenter/surveyHomeActionCenter.js:19-66 | the action built for an id has that id |
| HomeActionCenter.Actions | force-app/main/default/lwc/surveyHomeActionCenter/surveyHomeActionCenter.js:10-69 | the default pair without data; otherwise one to four actions |
| HomeActionCenter.NothingDropped | force-app/main/default/lwc/surveyHomeActionCenter/surveyHomeActionCenter.js:68 | at most three stage actions, so the cut to four drops nothing and the list is the stage ids then create |
| HomeActionCenter.CreateLast | force-app/main/default/lwc/surveyHomeActionCenter/surveyHomeActionCenter.js:58-66 | create is always last and is highlighted exactly when it is alone |
| HomeActionCenter.StageVariant | force-app/main/default/lwc/surveyHomeActionCenter/surveyHomeActionCenter.js:19-55 | every action before create is a stage action: drafts and links highlighted, the dashboard not |
| HomeActionCenter.ActionsInOrder | force-app/main/default/lwc/surveyHomeActionCenter/surveyHomeActionCenter.js:19-66 | drafts, links, dashboard, create, in that order, each at most once |
| HomeActionCenter.Ids | force-app/main/default/lwc/surveyHomeActionCenter/surveyHomeActionCenter.js:68 | the ids of the actions, in order |
| HomeActionCenter.ActionsPresent | force-app/main/default/lwc/surveyHomeActionCenter/surveyHomeActionCenter.js:19-66 | each stage action appears exactly when its count is positive; create always, templates never |
| HomeActionCenter.DraftsWording | force-app/main/default/lwc/surveyHomeActionCenter/surveyHomeActionCenter.js:19-29 | the drafts text starts with the count and is singular exactly for one |
| HomeActionCenter.LinksWording | force-app/main/default/lwc/surveyHomeActionCenter/surveyHomeActionCenter.js:32-42 | the links text starts with the count and is singular exactly for one |
| HomeActionCenter.DashboardWording | force-app/main/default/lwc/surveyHomeActionCenter/surveyHomeActionCenter.js:45-55 | the dashboard text starts with the count and is singular exactly for one |
| HomeGuidedResources.CurrentStage | force-app/main/default/lwc/surveyHomeGuidedResources/surveyHomeGuidedResources.js:147-165 | active beats ready, ready beats drafting, each exactly under its condition; no data is the default stage |
| HomeGuidedResources.Resources | force-app/main/default/lwc/surveyHomeGuidedResources/surveyHomeGuidedResources.js:106-145 | one suggestion, the getting-started guide without data |
| HomeGuidedResources.ResourcesFollowStage | force-app/main/default/lwc/surveyHomeGuidedResources/surveyHomeGuidedResources.js:106-145 | two data sets get the same suggestion exactly when they are in the same stage |
| HomeGuidedResources.Checklist | force-app/main/default/lwc/surveyHomeGuidedResources/surveyHomeGuidedResources.js:10-59 | the five steps, in order |
| HomeGuidedResources.ChecklistCompletion | force-app/main/default/lwc/surveyHomeGuidedResources/surveyHomeGuidedResources.js:17-58 | create is done with a survey; questions exactly when both the total and the draft count are present and the total exceeds the drafts (a missing count compares false); the rest with an active survey; nothing without data |
| HomeGuidedResources.ChecklistIcons | force-app/main/default/lwc/surveyHomeGuidedResources/surveyHomeGuidedResources.js:21-56 | each item shows the tick and the success colour exactly when it is done |
| HomeGuidedResources.HandleResourceKeyDown | force-app/main/default/lwc/surveyHomeGuidedResources/surveyHomeGuidedResources.js:176-182 | only Enter and Space open a resource, and they send its navigate event |
| HomeActivityFeed.IconFor | force-app/main/default/lwc/surveyHomeActivityFeed/surveyHomeActivityFeed.js:31-39 | a known type gets its own icon, anything else the info icon |
| HomeActivityFeed.VariantFor | force-app/main/default/lwc/surveyHomeActivityFeed/surveyHomeActivityFeed.js:41-49 | publishing and responses are successes, creating and linking warnings, anything else the default |
| HomeActivityFeed.FallbacksAgree | force-app/main/default/lwc/surveyHomeActivityFeed/surveyHomeActivityFeed.js:31-49 | an event gets the fallback icon exactly when it gets the fallback colour |
| HomeActivityFeed.AgoWording | force-app/main/default/lwc/surveyHomeActivityFeed/surveyHomeActivityFeed.js:66-70 | an age starts with its count and is singular exactly for one |
| HomeActivityFeed.FormatBuckets | force-app/main/default/lwc/surveyHomeActivityFeed/surveyHomeActivityFeed.js:58-71 | under a minute is Just now; then whole minutes 1-59, hours 1-23 and days 1-6, rounded down; a week or more shows the date |
| HomeActivityFeed.MissingTimestamp | force-app/main/default/lwc/surveyHomeActivityFeed/surveyHomeActivityFeed.js:52-54 | a missing or zero timestamp shows nothing |
| HomeActivityFeed.Activities | force-app/main/default/lwc/surveyHomeActivityFeed/surveyHomeActivityFeed.js:10-21 | empty without data or activities; otherwise one decorated entry per activity, in order |
| HomeActivityFeed.HasActivitiesIff | force-app/main/default/lwc/surveyHomeActivityFeed/surveyHomeActivityFeed.js:23-25 | the feed shows entries exactly when the data has a non-empty activity list |
| Common.Trim | force-app/main/default/lwc/surveyCreator/surveyCreator.js:423 | the result is the piece of the input that starts after its leading white space and leaves only white space behind it, and it neither starts nor ends with white space; white space is the full set JavaScript's `trim` removes |
| Common.LeadingSpaces | force-app/main/default/lwc/surveyCreator/surveyCreator.js:423 | the length of the longest white-space prefix of the input |
| Common.TrimIdempotent | force-app/main/default/lwc/surveyCreator/surveyCreator.js:423 | trimming twice is trimming once |
| Common.BlankIffTrimEmpty | force-app/main/default/lwc/surveyCreator/surveyCreator.js:414 | blank is exactly what trim empties |
| Common.SplitJoin | force-app/main/default/lwc/surveyCreator/surveyCreator.js:421 | splitting joined lines that hold no separator gives back the lines |
| Common.JoinSplit | force-app/main/default/lwc/surveyInvitations/surveyInvitations.js:159 | joining the pieces of a split gives back the text |
| Common.SortByKey | force-app/main/default/lwc/surveyDashboard/surveyDashboard.js:101 | the sorted list is a permutation of the input, ordered by the key |
| Common.SmallestFirst | force-app/main/default/lwc/surveyDashboard/surveyDashboard.js:100-103 | the first n after sorting by a key are taken from the list, n of them (all when fewer), and nothing left out has a smaller key than the last one taken |

## Left out

- Plain field setters are not modelled: they copy an input value into one field and hold no logic. They include the survey creator's setters (`surveyCreator.js` 317-339 and 393-407), the survey builder's form setters (175-191 and 253-279) and the regeneration page's type and field-name setters (166-176 and 201-215). The template list's name setters and modal closers are left out too, and so are the search, timeframe and view setters of both dashboards.
- surveyCreator: the initial loads (`loadInitialData`, `loadCreateModeData`, `loadExistingSurvey`), `handleEditSurvey`, `handleLoadSurvey` and `handlePreview` are not modelled. Neither are the share and results handlers (`handleCopyLink`, `handleComposeEmail`, `handleViewResults`) or the navigation helper. They only fetch records, navigate or set placeholders.
- SurveyCreator.SurveyCreator.HandleEditQuestion: requires the index to be a position of the list. The source would read an undefined entry and then fail.
- SurveyCreator.SurveyCreator.HandleDuplicateQuestion: requires the index to be a position of the list, for the same reason.
- SurveyBuilderLwc.SurveyBuilderLwc.HandleEditQuestion: requires the index to be a position of the list, for the same reason.
- SurveyBuilderLwc.SurveyBuilderLwc.HandleDuplicateQuestion: requires the index to be a position of the list, for the same reason.
- surveyBuilderLwc: the sample data that `connectedCallback` loads after a timer is not modelled, and neither is the placeholder `handleSaveSurvey`. The model starts from an empty question list.
- SurveyBuilder.SurveyBuilder.HandleMoveDown: requires the id to belong to a loaded question. With an unknown id, `findIndex` gives -1, and the source would then swap positions -1 and 0.
- SurveyBuilder.SurveyBuilder.HandleSaveQuestion: requires a question under edit when the form is not for a new question. The source would throw there.
- surveyBuilder: `handlePreviewSurvey` and `handleViewResponses` only navigate, so they are not modelled.
- The legacy taker's throw on a result without a survey is not modelled. The model treats that result as a failed load.
- JavaScript `null`, `undefined` and the empty string are all modelled as `""`. Object and map key order is modelled as insertion order.
- Clocks, generated ids and randomness become parameters. This covers `Date.now()` in `'temp_' + Date.now()` and every "now" used in date comparisons. Dates are whole milliseconds since the epoch.
- `setDate(getDate() - N)` is modelled as N days of 86 400 000 ms. Daylight-saving shifts are not modelled.
- Floating point is not modelled. This covers progress percentages, `lifecycleSummary`, `averageQuestionsPerSurvey`, the analytics bar widths and the trend percentage itself. The trend's rounded change is stated in exact arithmetic.
- Locale formatting (`toLocaleDateString`, `toLocaleString`) is left opaque. `toLowerCase` is modelled for ASCII letters only.
- The analytics `responsesByDate`, `lastResponseDate` and `responseWindowLabel` are not modelled. They are formatting of dates for display.
- The dashboard loader, the analytics loaders and the wired survey record are not modelled. Neither are `handleRefresh`, `handleExport` or the navigation handlers of both dashboards. They are server reads and page navigation.
- TemplateList.SortSurveys: only numeric columns are modelled. JavaScript's loose `>` on strings and mixed types is not. Sort stability is not claimed.
- TemplateList.SurveyTemplateList.HandleSort: the sortable Survey Name column (`nameUrl`, a string compared with `>`) has no sort field, so a sort by name is not modelled; only the Questions, Responses and created-date columns are.
- Common.SortByKey: stands in for `Array.prototype.sort` with a numeric comparator. It is a stable insertion sort, and the dashboards' order among equal keys is not claimed.
- Trivial getters with no logic beyond a length or a constant are not modelled: `hasSurveys`, `totalSurveys`, `timeframeOptions`, the view flags, `generatedCount`, `hasInvitations` and `emptyStateMessage`.
- The activity timestamp is taken as epoch milliseconds. Parsing a date string into one is not modelled.
- HomeGuidedResources.Resources: the `allResources[stage] ||` fallback is not modelled. Every stage is a key of the map, so it is never taken.
- HomeGuidedResources.HandleResourceKeyDown: only the key filter and the event detail are modelled. `handleResourceClick`, `handleActionClick` and HomeHero's `handlePrimaryAction` dispatch events that are not modelled.
- `showToast` is not modelled as a real toast. Each toast is appended to a `toasts` log on the component instead.
- The file reader, clipboard, `confirm` dialog and page navigation are outside the model. Their outcome is given as a parameter of the method that receives it.
- Concurrent interleavings of outstanding server calls are not modelled. Each call is a request, answered later by one method for success and one for failure.
- Components outside this core are not part of this model: `surveyForceHome`, `surveyResultsDashboard`, `gettingStarted`, `surveyHomeSnapshot`, `surveyShareLwc`, `surveyLandingPage`, `surveyResultsLwc` and the other `surveyCreator` copy. The constants of `surveyConstants` that the takers use are stated in the Questions module.

=== FILE: analytics_dashboard.dfy ===
/**
 * The results analytics of one survey (`surveyAnalyticsDashboard`
 * component): the search and timeframe filter over its responses, the two
 * weekly windows and the trend pill, respondent and case counts, the
 * response table rows, and the per-type question summary. Dates are
 * milliseconds since the epoch and the current time is a parameter.
 */
module AnalyticsDashboard {
  import opened Common
  import opened Questions

  const DAY_MS: int := 24 * 60 * 60 * 1000
  const OTHER_TYPE: string := "Other"
  const LINKED: string := "Linked"
  const NO_CASE: string := "—"

  /** A survey response; a missing `Name`, `Contact__c` or `Case__c` is `""`. */
  datatype SurveyResponse = SurveyResponse(id: string, name: string, createdDate: int, contactId: string, caseId: string)

  /** A row of the responses table. */
  datatype ResponseRow = ResponseRow(response: SurveyResponse, contactDisplay: string, caseDisplay: string)

  datatype Trend = Trend(text: string, className: string)

  /** A row of the question summary: a question type and how many questions have it. */
  datatype TypeCount = TypeCount(questionType: string, count: int)

  // Filtering

  /** The search box: empty matches everything, otherwise a case-insensitive substring of the name. */
  predicate MatchesSearch(r: SurveyResponse, searchTerm: string) {
    searchTerm == "" || Contains(ToLower(r.name), ToLower(searchTerm))
  }

  /**
   * How many days back the timeframe reaches: 7, 30 or 90 for the three
   * options, and 0 for any other value but `'all'` (the cutoff stays at now).
   */
  function TimeframeDays(timeframe: string): nat {
    if timeframe == "7days" then 7
    else if timeframe == "30days" then 30
    else if timeframe == "90days" then 90
    else 0
  }

  predicate InTimeframe(r: SurveyResponse, timeframe: string, now: int) {
    timeframe == "all" || r.createdDate >= now - TimeframeDays(timeframe) * DAY_MS
  }

  /** `filteredResponses`: the responses passing the search and the timeframe. */
  function FilteredResponses(rs: seq<SurveyResponse>, searchTerm: string, timeframe: string, now: int): (r: seq<SurveyResponse>)
    ensures forall x :: x in r <==> x in rs && MatchesSearch(x, searchTerm) && InTimeframe(x, timeframe, now)
  {
    Filter(rs, x => MatchesSearch(x, searchTerm) && InTimeframe(x, timeframe, now))
  }

  /** The filter keeps the loaded order, and with no search and `'all'` it keeps everything. */
  lemma FilteredInOrder(rs: seq<SurveyResponse>, searchTerm: string, timeframe: string, now: int)
    ensures IsSubsequence(FilteredResponses(rs, searchTerm, timeframe, now), rs)
    ensures searchTerm == "" && timeframe == "all" ==> FilteredResponses(rs, searchTerm, timeframe, now) == rs
  {
    FilterIsSubsequence(rs, x => MatchesSearch(x, searchTerm) && InTimeframe(x, timeframe, now));
    if searchTerm == "" && timeframe == "all" {
      FilterKeepsAll(rs, x => MatchesSearch(x, searchTerm) && InTimeframe(x, timeframe, now));
    }
  }

  // The weekly windows

  /** `responsesLastSevenDays` counts responses created at or after seven days ago. */
  predicate InLastWeek(r: SurveyResponse, now: int) {
    r.createdDate >= now - 7 * DAY_MS
  }

  /** `responsesPreviousSevenDays` counts responses created from fourteen up to (not including) seven days ago. */
  predicate InPreviousWeek(r: SurveyResponse, now: int) {
    now - 14 * DAY_MS <= r.createdDate < now - 7 * DAY_MS
  }

  predicate InLastTwoWeeks(r: SurveyResponse, now: int) {
    r.createdDate >= now - 14 * DAY_MS
  }

  function ResponsesLastSevenDays(rs: seq<SurveyResponse>, now: int): nat {
    if rs == [] then 0 else (if InLastWeek(rs[0], now) then 1 else 0) + ResponsesLastSevenDays(rs[1..], now)
  }

  function ResponsesPreviousSevenDays(rs: seq<SurveyResponse>, now: int): nat {
    if rs == [] then 0 else (if InPreviousWeek(rs[0], now) then 1 else 0) + ResponsesPreviousSevenDays(rs[1..], now)
  }

  function ResponsesLastTwoWeeks(rs: seq<SurveyResponse>, now: int): nat {
    if rs == [] then 0 else (if InLastTwoWeeks(rs[0], now) then 1 else 0) + ResponsesLastTwoWeeks(rs[1..], now)
  }

  /**
   * The two windows are disjoint and together cover the last fourteen days,
   * so the two weekly counts add up to the fortnight's count.
   */
  lemma {:induction false} WeeksPartitionFortnight(rs: seq<SurveyResponse>, now: int)
    ensures forall r :: !(InLastWeek(r, now) && InPreviousWeek(r, now))
    ensures ResponsesLastSevenDays(rs, now) + ResponsesPreviousSevenDays(rs, now) == ResponsesLastTwoWeeks(rs, now)
  {
    if rs != [] {
      WeeksPartitionFortnight(rs[1..], now);
    }
  }

  // The trend pill

  /**
   * `Math.round(((current - previous) / previous) * 100)` in exact
   * arithmetic: round half up of `100 (current - previous) / previous`.
   */
  function Delta(current: nat, previous: nat): (d: int)
    requires previous > 0
    ensures 2 * previous * d <= 200 * (current - previous) + previous < 2 * previous * (d + 1)
  {
    (200 * (current - previous) + previous) / (2 * previous)
  }

  /** `responseTrend`: the pill for the two weekly counts. */
  function ResponseTrend(previous: nat, current: nat): (t: Trend)
    ensures previous == 0 && current == 0 ==> t == Trend("No change", "trend-pill trend-neutral")
    ensures previous == 0 && current > 0 ==> t == Trend("New activity", "trend-pill trend-positive")
  {
    if previous == 0 && current == 0 then Trend("No change", "trend-pill trend-neutral")
    else if previous == 0 then Trend("New activity", "trend-pill trend-positive")
    else
      var delta := Delta(current, previous);
      Trend((if delta >= 0 then "+" else "") + IntToString(delta) + "% vs last week",
            if delta >= 0 then "trend-pill trend-positive" else "trend-pill trend-negative")
  }

  /**
   * With activity last-but-one week the pill is positive exactly when the
   * rounded change is not negative: when this week's count is at least the
   * previous one, or falls short of it by no more than half a percent.
   */
  lemma TrendPositiveIffNoRealDecline(previous: nat, current: nat)
    requires previous > 0
    ensures ResponseTrend(previous, current).className == "trend-pill trend-positive"
      <==> 200 * (current - previous) + previous >= 0
    ensures current >= previous ==> ResponseTrend(previous, current).text[0] == '+'
  {
    var n := 200 * (current - previous) + previous;
    assert Delta(current, previous) == n / (2 * previous);
    FloorDivSign(n, 2 * previous);
    assert "trend-pill trend-positive"[17] != "trend-pill trend-negative"[17];
  }

  /** Rounding down by a positive divisor keeps the sign. */
  lemma FloorDivSign(n: int, p: int)
    requires p > 0
    ensures n / p >= 0 <==> n >= 0
  {
    var q, r := n / p, n % p;
    assert n == q * p + r && 0 <= r < p;
    if q >= 0 {
      MulMonotone(0, q, p);
    } else {
      MulMonotone(q, -1, p);
    }
  }

  // Respondents and cases

  /** The distinct non-empty contact ids of the responses. */
  function Contacts(rs: seq<SurveyResponse>): (c: set<string>)
    ensures forall id :: id in c <==> id != "" && exists i :: 0 <= i < |rs| && rs[i].contactId == id
  {
    if rs == [] then {}
    else
      var rest := Contacts(rs[1..]);
      assert forall i :: 0 <= i < |rs[1..]| ==> rs[1..][i] == rs[i + 1];
      (if rs[0].contactId != "" then {rs[0].contactId} else {}) + rest
  }

  /** `uniqueRespondents`: the size of the set of contact ids. */
  function UniqueRespondents(rs: seq<SurveyResponse>): nat {
    |Contacts(rs)|
  }

  predicate HasContact(r: SurveyResponse) {
    r.contactId != ""
  }

  predicate HasCase(r: SurveyResponse) {
    r.caseId != ""
  }

  /** `caseLinkedResponses`: the responses with a case. */
  function CaseLinkedResponses(rs: seq<SurveyResponse>): nat {
    Count(rs, HasCase)
  }

  /** There are no more respondents than responses with a contact, and so no more than responses. */
  lemma {:induction false} RespondentsAtMostResponses(rs: seq<SurveyResponse>)
    ensures UniqueRespondents(rs) <= Count(rs, HasContact) <= |rs|
  {
    if rs != [] {
      RespondentsAtMostResponses(rs[1..]);
      var head: set<string> := if rs[0].contactId != "" then {rs[0].contactId} else {};
      assert Contacts(rs) == head + Contacts(rs[1..]);
      assert |head + Contacts(rs[1..])| <= |head| + |Contacts(rs[1..])|;
    }
  }

  // The response table

  function Row(r: SurveyResponse): (row: ResponseRow)
    ensures row.response == r
    ensures row.contactDisplay == (if HasContact(r) then LINKED else "Anonymous")
    ensures row.caseDisplay == (if HasCase(r) then LINKED else NO_CASE)
  {
    ResponseRow(r, if r.contactId != "" then LINKED else "Anonymous", if r.caseId != "" then LINKED else NO_CASE)
  }

  /** `responseRows`: one row per filtered response, in order. */
  function ResponseRows(filtered: seq<SurveyResponse>): (rows: seq<ResponseRow>)
    ensures |rows| == |filtered|
    ensures forall i :: 0 <= i < |filtered| ==> rows[i] == Row(filtered[i])
  {
    Map(filtered, Row)
  }

  predicate ShowsLinkedCase(row: ResponseRow) {
    row.caseDisplay == LINKED
  }

  /** The table shows "Linked" in the case column exactly as many times as the case-linked count of the same responses. */
  lemma {:induction false} LinkedCaseRowsMatchCount(rs: seq<SurveyResponse>)
    ensures Count(ResponseRows(rs), ShowsLinkedCase) == CaseLinkedResponses(rs)
  {
    if rs != [] {
      LinkedCaseRowsMatchCount(rs[1..]);
      assert ResponseRows(rs)[1..] == ResponseRows(rs[1..]);
      assert ResponseRows(rs)[0] == Row(rs[0]);
    }
  }

  // Question counts

  predicate IsRequired(q: Question) {
    q.required
  }

  predicate IsOptional(q: Question) {
    !q.required
  }

  /** `requiredQuestionsCount`. */
  function RequiredQuestionsCount(qs: seq<Question>): nat {
    Count(qs, IsRequired)
  }

  /** `optionalQuestionsCount`: all questions less the required ones. */
  function OptionalQuestionsCount(qs: seq<Question>): int {
    |qs| - RequiredQuestionsCount(qs)
  }

  /** The optional count is exactly the number of questions that are not required. */
  lemma {:induction false} OptionalAreNotRequired(qs: seq<Question>)
    ensures OptionalQuestionsCount(qs) == Count(qs, IsOptional)
    ensures 0 <= OptionalQuestionsCount(qs) <= |qs|
  {
    if qs != [] {
      OptionalAreNotRequired(qs[1..]);
      assert Filter(qs, IsRequired) == (if qs[0].required then [qs[0]] else []) + Filter(qs[1..], IsRequired);
      assert Filter(qs, IsOptional) == (if !qs[0].required then [qs[0]] else []) + Filter(qs[1..], IsOptional);
    }
  }

  // The question summary

  /** `question.questionType || 'Other'`. */
  function TypeOf(q: Question): string {
    Or(q.questionType, OTHER_TYPE)
  }

  /** The number of questions whose type is `t`. */
  function CountType(qs: seq<Question>, t: string): nat {
    if qs == [] then 0 else (if TypeOf(qs[0]) == t then 1 else 0) + CountType(qs[1..], t)
  }

  lemma {:induction false} CountTypeSnoc(qs: seq<Question>, q: Question, t: string)
    ensures CountType(qs + [q], t) == CountType(qs, t) + (if TypeOf(q) == t then 1 else 0)
  {
    if qs == [] {
      assert qs + [q] == [q];
    } else {
      assert (qs + [q])[1..] == qs[1..] + [q];
      CountTypeSnoc(qs[1..], q, t);
    }
  }

  /** A type occurs among the questions exactly when its count is positive. */
  lemma {:induction false} CountTypePositive(qs: seq<Question>, t: string)
    ensures CountType(qs, t) > 0 <==> exists q :: q in qs && TypeOf(q) == t
  {
    if qs != [] {
      CountTypePositive(qs[1..], t);
      assert forall q :: q in qs <==> q == qs[0] || q in qs[1..];
    }
  }

  /** The types that have a row. */
  function TypeSet(gs: seq<TypeCount>): set<string> {
    if gs == [] then {} else {gs[0].questionType} + TypeSet(gs[1..])
  }

  lemma {:induction false} TypeSetMembers(gs: seq<TypeCount>)
    ensures forall t :: t in TypeSet(gs) <==> exists g :: g in gs && g.questionType == t
  {
    if gs != [] {
      TypeSetMembers(gs[1..]);
      assert forall g :: g in gs <==> g == gs[0] || g in gs[1..];
    }
  }

  /** No type has two rows. */
  predicate DistinctTypes(gs: seq<TypeCount>) {
    gs == [] || (gs[0].questionType !in TypeSet(gs[1..]) && DistinctTypes(gs[1..]))
  }

  /** Distinct types, stated position by position. */
  lemma {:induction false} DistinctTypesByIndex(gs: seq<TypeCount>)
    requires DistinctTypes(gs)
    ensures forall i, j :: 0 <= i < j < |gs| ==> gs[i].questionType != gs[j].questionType
  {
    if gs != [] {
      DistinctTypesByIndex(gs[1..]);
      TypeSetMembers(gs[1..]);
      forall j | 0 < j < |gs|
        ensures gs[0].questionType != gs[j].questionType
      {
        assert gs[j] in gs[1..];
      }
      forall i, j | 0 <= i < j < |gs|
        ensures gs[i].questionType != gs[j].questionType
      {
        if i > 0 {
          assert gs[i] == gs[1..][i - 1] && gs[j] == gs[1..][j - 1];
        }
      }
    }
  }

  function CountOf(g: TypeCount): int {
    g.count
  }

  /** The count held for `t`: that of the first row of type `t`, or 0 when there is none (`grouped[t] || 0`). */
  function RowCount(gs: seq<TypeCount>, t: string): int {
    if gs == [] then 0 else if gs[0].questionType == t then gs[0].count else RowCount(gs[1..], t)
  }

  /** In a summary with distinct types, every row holds the count of its type. */
  lemma {:induction false} RowCountOfRow(gs: seq<TypeCount>, g: TypeCount)
    requires DistinctTypes(gs) && g in gs
    ensures RowCount(gs, g.questionType) == g.count
  {
    if gs[0] != g {
      assert g in gs[1..];
      TypeSetMembers(gs[1..]);
      RowCountOfRow(gs[1..], g);
    }
  }

  /** `acc[type] = (acc[type] || 0) + 1`: count one more of `t`, adding its row at the end the first time. */
  function Tally(gs: seq<TypeCount>, t: string): seq<TypeCount> {
    if gs == [] then [TypeCount(t, 1)]
    else if gs[0].questionType == t then [gs[0].(count := gs[0].count + 1)] + gs[1..]
    else [gs[0]] + Tally(gs[1..], t)
  }

  /** Tallying `t` adds one to the count of `t` and to the total, to no other count, and gives `t` a row. */
  lemma {:induction false} TallyCounts(gs: seq<TypeCount>, t: string)
    ensures forall u :: RowCount(Tally(gs, t), u) == RowCount(gs, u) + (if u == t then 1 else 0)
    ensures Sum(Tally(gs, t), CountOf) == Sum(gs, CountOf) + 1
    ensures TypeSet(Tally(gs, t)) == TypeSet(gs) + {t}
  {
    if gs != [] && gs[0].questionType != t {
      TallyCounts(gs[1..], t);
    }
  }

  /** Tallying keeps the types distinct. */
  lemma {:induction false} TallyDistinct(gs: seq<TypeCount>, t: string)
    requires DistinctTypes(gs)
    ensures DistinctTypes(Tally(gs, t))
  {
    if gs != [] && gs[0].questionType != t {
      TallyDistinct(gs[1..], t);
      TallyCounts(gs[1..], t);
      assert Tally(gs, t)[1..] == Tally(gs[1..], t);
    } else if gs != [] {
      assert Tally(gs, t)[1..] == gs[1..];
    }
  }

  /** `gs` is the tally of `done`: one row per type that occurs, holding how often it occurs. */
  ghost predicate Summarises(gs: seq<TypeCount>, done: seq<Question>) {
    && DistinctTypes(gs)
    && (forall u :: RowCount(gs, u) == CountType(done, u))
    && (forall u :: u in TypeSet(gs) <==> CountType(done, u) > 0)
    && Sum(gs, CountOf) == |done|
  }

  /** The reduce of `questionSummary`: tally the questions one by one into `acc`. */
  function GroupFrom(acc: seq<TypeCount>, qs: seq<Question>): seq<TypeCount>
    decreases qs
  {
    if qs == [] then acc else GroupFrom(Tally(acc, TypeOf(qs[0])), qs[1..])
  }

  /** Each step of the reduce keeps the accumulator a tally of the questions seen so far. */
  lemma {:induction false} GroupFromSummarises(acc: seq<TypeCount>, done: seq<Question>, rest: seq<Question>)
    requires Summarises(acc, done)
    ensures Summarises(GroupFrom(acc, rest), done + rest)
    decreases rest
  {
    if rest == [] {
      assert done + rest == done;
    } else {
      var q := rest[0];
      var next := Tally(acc, TypeOf(q));
      TallyCounts(acc, TypeOf(q));
      TallyDistinct(acc, TypeOf(q));
      forall u
        ensures CountType(done + [q], u) == CountType(done, u) + (if TypeOf(q) == u then 1 else 0)
      {
        CountTypeSnoc(done, q, u);
      }
      assert Summarises(next, done + [q]);
      GroupFromSummarises(next, done + [q], rest[1..]);
      assert done + [q] + rest[1..] == done + rest;
    }
  }

  /** The order `(a, b) => grouped[b] - grouped[a]` sorts by: larger counts first. */
  function MostFirstKey(g: TypeCount): int {
    -g.count
  }

  /** `questionSummary`: the type counts, largest first; no questions give no rows. */
  function QuestionSummary(qs: seq<Question>): seq<TypeCount> {
    if qs == [] then [] else SortByKey(GroupFrom([], qs), MostFirstKey)
  }

  /** Inserting a row of a new type keeps the types distinct and adds that type. */
  lemma {:induction false} InsertKeepsDistinctTypes(x: TypeCount, s: seq<TypeCount>)
    requires SortedByKey(s, MostFirstKey) && DistinctTypes(s) && x.questionType !in TypeSet(s)
    ensures DistinctTypes(InsertByKey(x, s, MostFirstKey))
    ensures TypeSet(InsertByKey(x, s, MostFirstKey)) == TypeSet(s) + {x.questionType}
  {
    if s == [] || MostFirstKey(x) <= MostFirstKey(s[0]) {
      assert ([x] + s)[1..] == s;
    } else {
      assert SortedByKey(s[1..], MostFirstKey);
      InsertKeepsDistinctTypes(x, s[1..]);
      var r := InsertByKey(x, s, MostFirstKey);
      assert r[1..] == InsertByKey(x, s[1..], MostFirstKey);
    }
  }

  /** Sorting keeps the types distinct and the same. */
  lemma {:induction false} SortKeepsDistinctTypes(s: seq<TypeCount>)
    requires DistinctTypes(s)
    ensures DistinctTypes(SortByKey(s, MostFirstKey))
    ensures TypeSet(SortByKey(s, MostFirstKey)) == TypeSet(s)
  {
    if s != [] {
      SortKeepsDistinctTypes(s[1..]);
      InsertKeepsDistinctTypes(s[0], SortByKey(s[1..], MostFirstKey));
    }
  }

  /**
   * The summary has one row per question type that occurs (a missing type
   * counted as 'Other'), each holding how many questions have that type;
   * the counts add up to the number of questions, and the rows run from the
   * largest count down.
   */
  lemma QuestionSummaryMeaning(qs: seq<Question>)
    ensures forall i, j :: 0 <= i < j < |QuestionSummary(qs)| ==>
      QuestionSummary(qs)[i].questionType != QuestionSummary(qs)[j].questionType
    ensures forall g :: g in QuestionSummary(qs) ==> g.count == CountType(qs, g.questionType) > 0
    ensures forall q :: q in qs ==> exists g :: g in QuestionSummary(qs) && g.questionType == TypeOf(q)
    ensures Sum(QuestionSummary(qs), CountOf) == |qs|
    ensures forall i, j :: 0 <= i < j < |QuestionSummary(qs)| ==>
      QuestionSummary(qs)[i].count >= QuestionSummary(qs)[j].count
  {
    if qs != [] {
      var grouped := GroupFrom([], qs);
      assert [] + qs == qs;
      GroupFromSummarises([], [], qs);
      var r := SortByKey(grouped, MostFirstKey);
      SortedMembers(grouped, MostFirstKey);
      SortKeepsDistinctTypes(grouped);
      DistinctTypesByIndex(r);
      SumPermutation(r, grouped, CountOf);
      TypeSetMembers(r);
      forall g | g in r
        ensures g.count == CountType(qs, g.questionType) > 0
      {
        RowCountOfRow(grouped, g);
        TypeSetMembers(grouped);
      }
      forall q | q in qs
        ensures TypeOf(q) in TypeSet(r)
      {
        CountTypePositive(qs, TypeOf(q));
      }
    }
  }
}

=== FILE: common.dfy ===
/**
 * Values and helpers shared by every component model: an Option type, the
 * JavaScript string operations the components rely on (`trim`, `split`,
 * `join`, `a || b` on strings, number-to-text), and order-preserving list
 * filters with their counts and sums.
 *
 * Convention: a JavaScript string that may be `null`, `undefined` or `''` is
 * modelled as a Dafny `string` where `""` stands for all three falsy values.
 */
module Common {

  datatype Option<T> = None | Some(value: T)

  /**
   * What a rejected remote call delivers to `.catch`: an error object with
   * `body.message` and `message` (either `""` when absent), or a bare string.
   */
  datatype Fault = ErrorObject(bodyMessage: string, message: string) | ErrorText(text: string)

  /** A `ShowToastEvent` as the components dispatch it. */
  datatype Toast = Toast(title: string, message: string, variant: string)

  /** `err.body?.message` (`""` when there is none). */
  function BodyMessage(f: Fault): (r: string)
    ensures f.ErrorText? ==> r == ""
  {
    if f.ErrorObject? then f.bodyMessage else ""
  }

  /** `err.message` (`""` when there is none). */
  function MessageOf(f: Fault): (r: string)
    ensures f.ErrorText? ==> r == ""
  {
    if f.ErrorObject? then f.message else ""
  }

  // ---------------------------------------------------------------------
  // Strings
  // ---------------------------------------------------------------------

  /**
   * White space removed by `String.prototype.trim`: the ECMAScript
   * WhiteSpace characters (tab, vertical tab, form feed, the byte order
   * mark and every space separator) and the LineTerminator characters.
   */
  predicate IsSpace(c: char) {
    c in SPACE_CHARS
  }

  const SPACE_CHARS: set<char> := {
    '\t', '\n', '\U{000B}', '\U{000C}', '\r', ' ', '\U{00A0}', '\U{1680}',
    '\U{2000}', '\U{2001}', '\U{2002}', '\U{2003}', '\U{2004}', '\U{2005}', '\U{2006}',
    '\U{2007}', '\U{2008}', '\U{2009}', '\U{200A}', '\U{2028}', '\U{2029}', '\U{202F}',
    '\U{205F}', '\U{3000}', '\U{FEFF}'
  }

  /** Every character of `s` is white space. */
  predicate AllSpace(s: string) {
    forall i :: 0 <= i < |s| ==> IsSpace(s[i])
  }

  function TrimStart(s: string): (r: string)
    ensures |r| <= |s| && r == s[|s| - |r|..]
    ensures r == [] || !IsSpace(r[0])
    ensures AllSpace(s[..|s| - |r|])
  {
    if s != [] && IsSpace(s[0]) then
      var r := TrimStart(s[1..]);
      assert s[..|s| - |r|] == [s[0]] + s[1..][..|s[1..]| - |r|];
      r
    else s
  }

  function TrimEnd(s: string): (r: string)
    ensures |r| <= |s| && r == s[..|r|]
    ensures r == [] || !IsSpace(r[|r| - 1])
    ensures AllSpace(s[|r|..])
  {
    if s != [] && IsSpace(s[|s| - 1]) then
      var r := TrimEnd(s[..|s| - 1]);
      assert s[|r|..] == s[..|s| - 1][|r|..] + [s[|s| - 1]];
      r
    else s
  }

  /** `s.trim()`: `s` without its leading and trailing white space. */
  function Trim(s: string): (r: string)
    ensures |r| <= |s|
    ensures r == [] || (!IsSpace(r[0]) && !IsSpace(r[|r| - 1]))
    ensures var k := LeadingSpaces(s);
      k + |r| <= |s| && r == s[k..k + |r|] && AllSpace(s[k + |r|..])
  {
    var t := TrimStart(s);
    var r := TrimEnd(t);
    assert s[|s| - |t| + |r|..] == t[|r|..];
    r
  }

  /** How many white-space characters `s` starts with. */
  function LeadingSpaces(s: string): (n: nat)
    ensures n <= |s| && AllSpace(s[..n])
    ensures n == |s| || !IsSpace(s[n])
  {
    |s| - |TrimStart(s)|
  }

  /** A string that neither starts nor ends with white space trims to itself. */
  lemma TrimUnpadded(s: string)
    requires s != [] && !IsSpace(s[0]) && !IsSpace(s[|s| - 1])
    ensures Trim(s) == s
  {
  }

  /** One leading space in front of an unpadded text is trimmed away. */
  lemma TrimOneLeadingSpace(s: string)
    requires s != [] && !IsSpace(s[0]) && !IsSpace(s[|s| - 1])
    ensures Trim(" " + s) == s
  {
    var padded := " " + s;
    assert padded[0] == ' ' && padded[1..] == s;
    assert TrimStart(padded) == TrimStart(s);
    TrimUnpadded(s);
  }

  /** Trimming twice is trimming once. */
  lemma TrimIdempotent(s: string)
    ensures Trim(Trim(s)) == Trim(s)
  {
    var r := Trim(s);
    assert TrimStart(r) == r;
    assert TrimEnd(r) == r;
  }

  /** `!s || s.trim() === ''` (also `!s.trim()`): nothing but white space. */
  predicate IsBlank(s: string) {
    AllSpace(s)
  }

  /** Blank is exactly what `trim` empties. */
  lemma BlankIffTrimEmpty(s: string)
    ensures IsBlank(s) <==> Trim(s) == ""
  {
    var t := TrimStart(s);
    var m := |s| - |t|;
    assert t == [] || t[0] == s[m];
    if !AllSpace(s) {
      var k :| 0 <= k < |s| && !IsSpace(s[k]);
      assert t[k - m] == s[k];
    }
  }

  /** JavaScript `a || b` on two strings. */
  function Or(a: string, b: string): (r: string)
    ensures a != "" ==> r == a
    ensures a == "" ==> r == b
  {
    if a != "" then a else b
  }

  /** `s.split(sep)` for a one-character separator. */
  function Split(s: string, sep: char): (r: seq<string>)
    ensures |r| >= 1
    ensures forall p :: p in r ==> sep !in p
  {
    if s == [] then [[]]
    else
      var rest := Split(s[1..], sep);
      if s[0] == sep then [[]] + rest
      else [[s[0]] + rest[0]] + rest[1..]
  }

  /** `parts.join(sep)`. */
  function Join(parts: seq<string>, sep: string): string {
    if |parts| == 0 then ""
    else if |parts| == 1 then parts[0]
    else parts[0] + sep + Join(parts[1..], sep)
  }

  /** A character found in neither the parts nor the separator is not in the joined string. */
  lemma {:induction false} JoinAvoids(parts: seq<string>, sep: string, c: char)
    requires c !in sep
    requires forall p :: p in parts ==> c !in p
    ensures c !in Join(parts, sep)
  {
    if |parts| > 1 {
      JoinAvoids(parts[1..], sep, c);
    }
  }

  /** The joined string starts with the first part. */
  lemma {:induction false} JoinStartsWithFirst(parts: seq<string>, sep: string)
    requires parts != []
    ensures parts[0] <= Join(parts, sep)
  {
  }

  lemma {:induction false} JoinSplit(s: string, sep: char)
    ensures Join(Split(s, sep), [sep]) == s
  {
    if s != [] {
      var rest := Split(s[1..], sep);
      JoinSplit(s[1..], sep);
      if s[0] == sep {
        assert Split(s, sep) == [[]] + rest;
        assert ([[]] + rest)[1..] == rest;
      } else if |rest| == 1 {
        assert Split(s, sep) == [[s[0]] + rest[0]];
      } else {
        var r := Split(s, sep);
        assert r == [[s[0]] + rest[0]] + rest[1..];
        assert r[1..] == rest[1..];
        assert s == [s[0]] + s[1..];
      }
    }
  }

  lemma {:induction false} SplitNoSeparator(p: string, sep: char)
    requires sep !in p
    ensures Split(p, sep) == [p]
  {
    if p != [] {
      SplitNoSeparator(p[1..], sep);
      assert [p[0]] + p[1..] == p;
    }
  }

  lemma {:induction false} SplitAfterPiece(p: string, sep: char, t: string)
    requires sep !in p
    ensures Split(p + [sep] + t, sep) == [p] + Split(t, sep)
  {
    if p == [] {
      assert p + [sep] + t == [sep] + t;
      assert ([sep] + t)[1..] == t;
    } else {
      var s := p + [sep] + t;
      assert s[1..] == p[1..] + [sep] + t;
      SplitAfterPiece(p[1..], sep, t);
      assert [p[0]] + p[1..] == p;
    }
  }

  lemma {:induction false} SplitJoin(parts: seq<string>, sep: char)
    requires |parts| >= 1
    requires forall p :: p in parts ==> sep !in p
    ensures Split(Join(parts, [sep]), sep) == parts
  {
    if |parts| == 1 {
      SplitNoSeparator(parts[0], sep);
    } else {
      assert parts[0] in parts;
      assert forall p :: p in parts[1..] ==> p in parts;
      SplitJoin(parts[1..], sep);
      SplitAfterPiece(parts[0], sep, Join(parts[1..], [sep]));
      assert [parts[0]] + parts[1..] == parts;
    }
  }

  function DigitChar(d: nat): (c: char)
    requires d < 10
    ensures '0' <= c <= '9'
  {
    ['0', '1', '2', '3', '4', '5', '6', '7', '8', '9'][d]
  }

  /** Decimal text of a non-negative number, as template literals print it. */
  function NatToString(n: nat): (r: string)
    ensures |r| >= 1
    ensures forall i :: 0 <= i < |r| ==> '0' <= r[i] <= '9'
    ensures (r[0] == '0') <==> (n == 0)
  {
    if n < 10 then [DigitChar(n)] else NatToString(n / 10) + [DigitChar(n % 10)]
  }

  /** Decimal text of any integer. */
  function IntToString(i: int): (r: string)
    ensures |r| >= 1
    ensures (r[0] == '-') <==> (i < 0)
    ensures forall k :: 0 <= k < |r| ==> r[k] == '-' || '0' <= r[k] <= '9'
  {
    if i < 0 then "-" + NatToString(-i) else NatToString(i)
  }

  /** Lower-case conversion of ASCII letters (`toLowerCase` restricted to ASCII). */
  function LowerChar(c: char): char {
    if 'A' <= c <= 'Z' then (c as int + 32) as char else c
  }

  function ToLower(s: string): (r: string)
    ensures |r| == |s|
    ensures forall i :: 0 <= i < |s| ==> r[i] == LowerChar(s[i])
  {
    if s == [] then [] else [LowerChar(s[0])] + ToLower(s[1..])
  }

  /** `s.includes(t)`. */
  predicate Contains(s: string, t: string) {
    exists i :: 0 <= i <= |s| && t <= s[i..]
  }

  // ---------------------------------------------------------------------
  // Lists
  // ---------------------------------------------------------------------

  /** `a` can be obtained from `b` by deleting elements: order is kept. */
  predicate IsSubsequence<T(==)>(a: seq<T>, b: seq<T>)
    decreases |b|
  {
    a == [] || (b != [] && ((a[0] == b[0] && IsSubsequence(a[1..], b[1..])) || IsSubsequence(a, b[1..])))
  }

  /** `s.filter(p)`. */
  function Filter<T>(s: seq<T>, p: T -> bool): (r: seq<T>)
    ensures |r| <= |s|
    ensures forall x :: x in r ==> x in s && p(x)
    ensures forall x :: x in s && p(x) ==> x in r
  {
    if s == [] then [] else (if p(s[0]) then [s[0]] else []) + Filter(s[1..], p)
  }

  lemma {:induction false} FilterIsSubsequence<T>(s: seq<T>, p: T -> bool)
    ensures IsSubsequence(Filter(s, p), s)
  {
    if s != [] {
      FilterIsSubsequence(s[1..], p);
      var rest := Filter(s[1..], p);
      if p(s[0]) {
        assert Filter(s, p) == [s[0]] + rest;
        assert ([s[0]] + rest)[1..] == rest;
      } else {
        assert Filter(s, p) == rest;
      }
    }
  }

  /** A filter every element passes returns the list itself. */
  lemma {:induction false} FilterKeepsAll<T>(s: seq<T>, p: T -> bool)
    requires forall x :: x in s ==> p(x)
    ensures Filter(s, p) == s
  {
    if s != [] {
      assert forall x :: x in s[1..] ==> x in s;
      FilterKeepsAll(s[1..], p);
    }
  }

  /** `s.filter(p).length`. */
  function Count<T>(s: seq<T>, p: T -> bool): nat {
    |Filter(s, p)|
  }

  lemma {:induction false} CountSplits<T>(s: seq<T>, p: T -> bool)
    ensures Count(s, p) + Count(s, x => !p(x)) == |s|
  {
    if s != [] {
      CountSplits(s[1..], p);
    }
  }

  /** `s.reduce((sum, x) => sum + f(x), 0)`. */
  function Sum<T>(s: seq<T>, f: T -> int): int {
    if s == [] then 0 else f(s[0]) + Sum(s[1..], f)
  }

  lemma {:induction false} SumNonNegative<T>(s: seq<T>, f: T -> int)
    requires forall x :: x in s ==> f(x) >= 0
    ensures Sum(s, f) >= 0
  {
    if s != [] {
      assert forall x :: x in s[1..] ==> x in s;
      SumNonNegative(s[1..], f);
    }
  }

  lemma {:induction false} SumAppend<T>(a: seq<T>, b: seq<T>, f: T -> int)
    ensures Sum(a + b, f) == Sum(a, f) + Sum(b, f)
  {
    if a == [] {
      assert a + b == b;
    } else {
      assert (a + b)[0] == a[0];
      assert (a + b)[1..] == a[1..] + b;
      SumAppend(a[1..], b, f);
    }
  }

  /** Reordering a list does not change its sum. */
  lemma {:induction false} SumPermutation<T>(a: seq<T>, b: seq<T>, f: T -> int)
    requires multiset(a) == multiset(b)
    ensures Sum(a, f) == Sum(b, f)
    decreases |a|
  {
    if a == [] {
      assert |b| == |multiset(b)| == 0;
    } else {
      assert a[0] in multiset(b);
      var k :| 0 <= k < |b| && b[k] == a[0];
      PermutationWithout(a, b, k);
      SumPermutation(a[1..], b[..k] + b[k + 1..], f);
      assert b == b[..k] + [b[k]] + b[k + 1..];
      SumAppend(b[..k] + [b[k]], b[k + 1..], f);
      SumAppend(b[..k], [b[k]], f);
      SumAppend(b[..k], b[k + 1..], f);
    }
  }

  /** `s.map(f)`. */
  function Map<T, U>(s: seq<T>, f: T -> U): (r: seq<U>)
    ensures |r| == |s|
    ensures forall i :: 0 <= i < |s| ==> r[i] == f(s[i])
  {
    if s == [] then [] else [f(s[0])] + Map(s[1..], f)
  }

  /** `s.filter((_, i) => i !== index)`: the list without the element at `index` (if any). */
  function RemoveAt<T>(s: seq<T>, index: int): (r: seq<T>)
    ensures 0 <= index < |s| ==> |r| == |s| - 1
    ensures !(0 <= index < |s|) ==> r == s
    ensures 0 <= index < |s| ==> forall j :: 0 <= j < |r| ==> r[j] == (if j < index then s[j] else s[j + 1])
  {
    if 0 <= index < |s| then s[..index] + s[index + 1..] else s
  }

  lemma RemoveAtMultiset<T>(s: seq<T>, index: int)
    requires 0 <= index < |s|
    ensures multiset(RemoveAt(s, index)) + multiset{s[index]} == multiset(s)
  {
    assert s == s[..index] + [s[index]] + s[index + 1..];
  }

  /** `s.slice(0, n)`. */
  function Take<T>(s: seq<T>, n: nat): (r: seq<T>)
    ensures |r| <= n && |r| <= |s|
    ensures |s| <= n ==> r == s
    ensures r == s[..|r|]
  {
    if |s| <= n then s else s[..n]
  }

  /** Taking the head of `a` and an equal element of `b` out of two permutations leaves permutations. */
  lemma PermutationWithout<T>(a: seq<T>, b: seq<T>, k: nat)
    requires a != [] && k < |b| && b[k] == a[0]
    requires multiset(a) == multiset(b)
    ensures multiset(a[1..]) == multiset(b[..k] + b[k + 1..])
  {
    assert a == [a[0]] + a[1..];
    assert b == b[..k] + [b[k]] + b[k + 1..];
    assert multiset(a) == multiset{a[0]} + multiset(a[1..]);
    assert multiset(b) == multiset(b[..k]) + multiset{b[k]} + multiset(b[k + 1..]);
    assert multiset(b[..k] + b[k + 1..]) == multiset(b[..k]) + multiset(b[k + 1..]);
    forall o
      ensures multiset(a[1..])[o] == multiset(b[..k] + b[k + 1..])[o]
    {
      assert multiset(a)[o] == multiset(b)[o];
    }
  }

  /** Exchanging two positions keeps the same elements. */
  lemma SwapMultiset<T>(s: seq<T>, i: nat, j: nat)
    requires i < |s| && j < |s|
    ensures multiset(s[i := s[j]][j := s[i]]) == multiset(s)
  {
  }

  /** Multiplying by a positive number keeps the order. */
  lemma MulMonotone(a: int, b: int, c: int)
    requires a <= b && c > 0
    ensures a * c <= b * c
  {
    assert b * c == a * c + (b - a) * c;
  }

  /** `${n} ${n === 1 ? singular : plural}`: a count followed by its noun phrase. */
  function Counted(n: int, singular: string, plural: string): string {
    IntToString(n) + " " + (if n == 1 then singular else plural)
  }

  /** The text starts with the count, and the singular wording follows exactly when the count is 1. */
  lemma CountedWording(n: int, singular: string, plural: string)
    requires singular != plural
    ensures IntToString(n) + " " <= Counted(n, singular, plural)
    ensures Counted(n, singular, plural)[|IntToString(n)| + 1..] == singular <==> n == 1
  {
    var prefix := IntToString(n) + " ";
    var r := Counted(n, singular, plural);
    assert r == prefix + (if n == 1 then singular else plural);
    assert r[|prefix|..] == (if n == 1 then singular else plural);
  }

  /**
   * Followed by any text, the counted phrase still reads as singular exactly
   * when the count is 1, as long as the singular is not how the plural begins.
   */
  lemma CountedThenText(n: int, singular: string, plural: string, tail: string, differAt: nat)
    requires differAt < |singular| <= |plural| && singular[differAt] != plural[differAt]
    ensures IntToString(n) + " " <= Counted(n, singular, plural) + tail
    ensures singular <= (Counted(n, singular, plural) + tail)[|IntToString(n)| + 1..] <==> n == 1
  {
    var k := |IntToString(n)| + 1;
    var c := Counted(n, singular, plural);
    assert c == IntToString(n) + " " + (if n == 1 then singular else plural);
    assert (c + tail)[k..] == (if n == 1 then singular else plural) + tail;
    if n != 1 {
      assert (plural + tail)[differAt] == plural[differAt];
    }
  }

  /** No value occurs twice. */
  predicate Distinct<T(==)>(s: seq<T>) {
    forall i, j :: 0 <= i < j < |s| ==> s[i] != s[j]
  }

  /** No pair of elements is out of order for `key`. */
  predicate SortedByKey<T>(s: seq<T>, key: T -> int) {
    forall i, j :: 0 <= i < j < |s| ==> key(s[i]) <= key(s[j])
  }

  /** A sorted list stays sorted under a head whose key is at most every key in it. */
  lemma SortedCons<T>(h: T, t: seq<T>, key: T -> int)
    requires SortedByKey(t, key)
    requires forall y :: y in t ==> key(h) <= key(y)
    ensures SortedByKey([h] + t, key)
  {
    var r := [h] + t;
    forall i, j | 0 <= i < j < |r|
      ensures key(r[i]) <= key(r[j])
    {
      if i == 0 {
        assert r[j] == t[j - 1];
      } else {
        assert r[i] == t[i - 1] && r[j] == t[j - 1];
      }
    }
  }

  /** Insert `x` before the first element with a key not below its own, after any equal keys' predecessors. */
  function InsertByKey<T>(x: T, s: seq<T>, key: T -> int): (r: seq<T>)
    requires SortedByKey(s, key)
    ensures multiset(r) == multiset(s) + multiset{x}
    ensures SortedByKey(r, key)
  {
    if s == [] || key(x) <= key(s[0]) then
      SortedCons(x, s, key);
      [x] + s
    else
      var rest := InsertByKey(x, s[1..], key);
      InsertedAfterHead(x, s, rest, key);
      assert s == [s[0]] + s[1..];
      [s[0]] + rest
  }

  /** When `x` goes after `s[0]`, `s[0]` still heads the rest with `x` inserted. */
  lemma InsertedAfterHead<T>(x: T, s: seq<T>, rest: seq<T>, key: T -> int)
    requires s != [] && key(s[0]) < key(x)
    requires SortedByKey(s, key) && SortedByKey(rest, key)
    requires multiset(rest) == multiset(s[1..]) + multiset{x}
    ensures SortedByKey([s[0]] + rest, key)
  {
    forall y | y in rest
      ensures key(s[0]) <= key(y)
    {
      assert y in multiset(rest);
      if y !in s[1..] {
        assert y in multiset{x};
      } else {
        var k :| 0 <= k < |s[1..]| && s[1..][k] == y;
        assert s[k + 1] == y;
      }
    }
    SortedCons(s[0], rest, key);
  }

  /**
   * `[...s].sort((a, b) => key(a) - key(b))`: a stable insertion sort, each
   * element inserted in front of the sorted rest before any element with an
   * equal key.
   */
  function SortByKey<T>(s: seq<T>, key: T -> int): (r: seq<T>)
    ensures multiset(r) == multiset(s)
    ensures SortedByKey(r, key)
  {
    if s == [] then []
    else
      assert s == [s[0]] + s[1..];
      InsertByKey(s[0], SortByKey(s[1..], key), key)
  }

  /** Sorting neither adds nor drops elements. */
  lemma SortedMembers<T>(s: seq<T>, key: T -> int)
    ensures |SortByKey(s, key)| == |s|
    ensures forall x :: x in SortByKey(s, key) <==> x in s
  {
    var r := SortByKey(s, key);
    assert |r| == |multiset(r)| == |multiset(s)| == |s|;
    forall x
      ensures x in r <==> x in s
    {
      assert x in r <==> x in multiset(r);
      assert x in s <==> x in multiset(s);
    }
  }

  /**
   * `sort(...).slice(0, n)`: the first `n` by key. They are taken from the
   * list, and nothing left out has a smaller key than the last one taken.
   */
  lemma SmallestFirst<T>(s: seq<T>, key: T -> int, n: nat)
    requires n > 0
    ensures var r := Take(SortByKey(s, key), n);
      && |r| == (if |s| < n then |s| else n)
      && multiset(r) <= multiset(s)
      && forall x :: x in multiset(s) - multiset(r) ==> |r| > 0 && key(r[|r| - 1]) <= key(x)
  {
    var t := SortByKey(s, key);
    var r := Take(t, n);
    var m := |r|;
    SortedMembers(s, key);
    PrefixRest(t, m);
    if m < |t| {
      SortedTailBound(t, key, m);
      assert r[m - 1] == t[m - 1];
    }
  }

  /** What a prefix leaves of a list is the rest of the list. */
  lemma PrefixRest<T>(t: seq<T>, m: nat)
    requires m <= |t|
    ensures multiset(t) - multiset(t[..m]) == multiset(t[m..])
  {
    assert t == t[..m] + t[m..];
  }

  /** In a sorted list no element after position `m` has a smaller key than the one before `m`. */
  lemma SortedTailBound<T>(t: seq<T>, key: T -> int, m: nat)
    requires SortedByKey(t, key) && 0 < m <= |t|
    ensures forall x :: x in multiset(t[m..]) ==> key(t[m - 1]) <= key(x)
  {
    forall x | x in multiset(t[m..])
      ensures key(t[m - 1]) <= key(x)
    {
      assert x in t[m..];
      var j :| 0 <= j < |t| - m && t[m..][j] == x;
      assert t[m + j] == x;
    }
  }
}

=== FILE: dashboard.dfy ===
/**
 * The survey operations dashboard (`surveyDashboard` component): lifecycle
 * categories over the loaded surveys, the search and timeframe filter, the
 * status pill of a survey, and the needs-attention and recent lists.
 * Dates are milliseconds since the epoch and the current time is a parameter.
 */
module Dashboard {
  import opened Common

  const DAY_MS: int := 24 * 60 * 60 * 1000
  /** A survey with questions and no response goes stale after 14 days. */
  const STALL_MS: int := 14 * DAY_MS
  /** The needs-attention and recent lists show at most this many surveys. */
  const LIST_LIMIT: nat := 5

  /** A survey as loaded; a missing count is `0`. */
  datatype DashboardSurvey = DashboardSurvey(
    id: string,
    name: string,
    questions: nat,
    completedSurveys: nat,
    createdDate: int)

  /** The status pill `decorateSurvey` attaches. */
  datatype Status = Draft | Stalled | Active | Ready

  datatype DecoratedSurvey = DecoratedSurvey(survey: DashboardSurvey, statusLabel: string, statusClass: string)

  predicate IsDraft(s: DashboardSurvey) {
    s.questions == 0
  }

  predicate HasResponses(s: DashboardSurvey) {
    s.completedSurveys > 0
  }

  /** `surveysAwaitingResponses`: questions but no response yet. */
  predicate IsAwaiting(s: DashboardSurvey) {
    s.questions > 0 && s.completedSurveys == 0
  }

  /**
   * `isSurveyStalled`: never for a survey with responses or without
   * questions; otherwise created more than 14 days before `now`.
   */
  predicate IsSurveyStalled(s: DashboardSurvey, now: int) {
    if HasResponses(s) || IsDraft(s) then false else s.createdDate < now - STALL_MS
  }

  /** `readyToLaunchSurveys`: awaiting responses and not stalled. */
  predicate IsReady(s: DashboardSurvey, now: int) {
    s.questions > 0 && s.completedSurveys == 0 && !IsSurveyStalled(s, now)
  }

  /** Stalled means awaiting responses for more than 14 days. */
  lemma StalledIffAwaitingTooLong(s: DashboardSurvey, now: int)
    ensures IsSurveyStalled(s, now) <==> IsAwaiting(s) && s.createdDate < now - STALL_MS
  {
  }

  /**
   * Every survey is a draft, active, ready or stalled; ready and stalled
   * exclude each other and the other two; only a draft with responses is in
   * two categories.
   */
  lemma CategoriesCover(s: DashboardSurvey, now: int)
    ensures IsDraft(s) || HasResponses(s) || IsReady(s, now) || IsSurveyStalled(s, now)
    ensures IsReady(s, now) ==> !IsSurveyStalled(s, now) && !IsDraft(s) && !HasResponses(s)
    ensures IsSurveyStalled(s, now) ==> !IsDraft(s) && !HasResponses(s)
    ensures IsDraft(s) && HasResponses(s) ==> !IsReady(s, now) && !IsSurveyStalled(s, now)
  {
  }

  function DraftSurveys(fs: seq<DashboardSurvey>): seq<DashboardSurvey> {
    Filter(fs, IsDraft)
  }

  function SurveysWithResponses(fs: seq<DashboardSurvey>): seq<DashboardSurvey> {
    Filter(fs, HasResponses)
  }

  function ReadyToLaunchSurveys(fs: seq<DashboardSurvey>, now: int): seq<DashboardSurvey> {
    Filter(fs, s => IsReady(s, now))
  }

  function StalledSurveys(fs: seq<DashboardSurvey>, now: int): seq<DashboardSurvey> {
    Filter(fs, s => IsSurveyStalled(s, now))
  }

  function SurveysAwaitingResponses(fs: seq<DashboardSurvey>): seq<DashboardSurvey> {
    Filter(fs, IsAwaiting)
  }

  /** Every listed survey is in one of the four category lists. */
  lemma CategoryListsCover(fs: seq<DashboardSurvey>, now: int)
    ensures forall s :: s in fs ==>
      s in DraftSurveys(fs) || s in SurveysWithResponses(fs) || s in ReadyToLaunchSurveys(fs, now)
      || s in StalledSurveys(fs, now)
  {
    forall s | s in fs
      ensures s in DraftSurveys(fs) || s in SurveysWithResponses(fs) || s in ReadyToLaunchSurveys(fs, now)
        || s in StalledSurveys(fs, now)
    {
      CategoriesCover(s, now);
    }
  }

  /**
   * The surveys awaiting responses are exactly the ready and the stalled
   * ones: as a set, and by count, so the awaiting count is the sum of the
   * other two.
   */
  lemma {:induction false} AwaitingIsReadyPlusStalled(fs: seq<DashboardSurvey>, now: int)
    ensures forall s :: s in SurveysAwaitingResponses(fs) <==> s in ReadyToLaunchSurveys(fs, now) || s in StalledSurveys(fs, now)
    ensures |SurveysAwaitingResponses(fs)| == |ReadyToLaunchSurveys(fs, now)| + |StalledSurveys(fs, now)|
  {
    if fs != [] {
      AwaitingIsReadyPlusStalled(fs[1..], now);
      assert SurveysAwaitingResponses(fs) == (if IsAwaiting(fs[0]) then [fs[0]] else []) + SurveysAwaitingResponses(fs[1..]);
      assert ReadyToLaunchSurveys(fs, now) == (if IsReady(fs[0], now) then [fs[0]] else []) + ReadyToLaunchSurveys(fs[1..], now);
      assert StalledSurveys(fs, now) == (if IsSurveyStalled(fs[0], now) then [fs[0]] else []) + StalledSurveys(fs[1..], now);
    }
  }

  /** The search box: empty matches everything, otherwise a case-insensitive substring of the name. */
  predicate MatchesSearch(s: DashboardSurvey, searchTerm: string) {
    searchTerm == "" || Contains(ToLower(s.name), ToLower(searchTerm))
  }

  /** The timeframe picker: `'7days'` and `'30days'` keep surveys created that recently, anything else keeps all. */
  predicate InTimeframe(s: DashboardSurvey, timeframe: string, now: int) {
    if timeframe == "7days" then s.createdDate >= now - 7 * DAY_MS
    else if timeframe == "30days" then s.createdDate >= now - 30 * DAY_MS
    else true
  }

  /** `filteredSurveys`: the surveys passing the search and the timeframe. */
  function FilteredSurveys(surveys: seq<DashboardSurvey>, searchTerm: string, timeframe: string, now: int): (r: seq<DashboardSurvey>)
    ensures forall s :: s in r <==> s in surveys && MatchesSearch(s, searchTerm) && InTimeframe(s, timeframe, now)
  {
    Filter(surveys, s => MatchesSearch(s, searchTerm) && InTimeframe(s, timeframe, now))
  }

  /** The filter keeps the loaded order, and with no search and `'all'` it keeps everything. */
  lemma FilteredInOrder(surveys: seq<DashboardSurvey>, searchTerm: string, timeframe: string, now: int)
    ensures IsSubsequence(FilteredSurveys(surveys, searchTerm, timeframe, now), surveys)
    ensures searchTerm == "" && timeframe == "all" ==> FilteredSurveys(surveys, searchTerm, timeframe, now) == surveys
  {
    FilterIsSubsequence(surveys, s => MatchesSearch(s, searchTerm) && InTimeframe(s, timeframe, now));
    if searchTerm == "" && timeframe == "all" {
      FilterKeepsAll(surveys, s => MatchesSearch(s, searchTerm) && InTimeframe(s, timeframe, now));
    }
  }

  /** `decorateSurvey`'s choice: Draft, then Stalled, then Active, else Ready. */
  function StatusOf(s: DashboardSurvey, now: int): (st: Status)
    ensures st == Draft <==> IsDraft(s)
    ensures st == Stalled <==> IsSurveyStalled(s, now)
    ensures st == Active <==> HasResponses(s) && !IsDraft(s)
  {
    if IsDraft(s) then Draft
    else if IsSurveyStalled(s, now) then Stalled
    else if HasResponses(s) then Active
    else Ready
  }

  /** The Ready pill is shown exactly on the ready-to-launch surveys. */
  lemma ReadyPillIffReady(s: DashboardSurvey, now: int)
    ensures StatusOf(s, now) == Ready <==> IsReady(s, now)
  {
  }

  function StatusLabel(st: Status): string {
    match st
    case Draft => "Draft"
    case Stalled => "Stalled"
    case Active => "Active"
    case Ready => "Ready"
  }

  function StatusClass(st: Status): string {
    match st
    case Draft => "status-pill status-draft"
    case Stalled => "status-pill status-stalled"
    case Active => "status-pill status-active"
    case Ready => "status-pill status-ready"
  }

  function Decorate(s: DashboardSurvey, now: int): (d: DecoratedSurvey)
    ensures d.survey == s
    ensures d.statusLabel == StatusLabel(StatusOf(s, now)) && d.statusClass == StatusClass(StatusOf(s, now))
  {
    DecoratedSurvey(s, StatusLabel(StatusOf(s, now)), StatusClass(StatusOf(s, now)))
  }

  /** Oldest first: the order of `new Date(a.CreatedDate) - new Date(b.CreatedDate)`. */
  function CreatedKey(s: DashboardSurvey): int {
    s.createdDate
  }

  /** Newest first: the order of `new Date(b.CreatedDate) - new Date(a.CreatedDate)`. */
  function NewestFirstKey(s: DashboardSurvey): int {
    -s.createdDate
  }

  /** A survey the needs-attention list may show: a draft or a stalled survey. */
  predicate NeedsAttention(s: DashboardSurvey, now: int) {
    IsDraft(s) || IsSurveyStalled(s, now)
  }

  /** The candidates of the needs-attention list, in load order. */
  function AttentionCandidates(fs: seq<DashboardSurvey>, now: int): seq<DashboardSurvey> {
    Filter(fs, s => NeedsAttention(s, now))
  }

  /** `needsAttentionSurveys`: the drafts and stalled surveys, oldest first, at most five, decorated. */
  function NeedsAttentionSurveys(fs: seq<DashboardSurvey>, now: int): seq<DecoratedSurvey> {
    Map(Take(SortByKey(AttentionCandidates(fs, now), CreatedKey), LIST_LIMIT), s => Decorate(s, now))
  }

  /** The surveys under a list of decorated entries. */
  function SurveysOf(ds: seq<DecoratedSurvey>): (r: seq<DashboardSurvey>)
    ensures |r| == |ds| && forall i :: 0 <= i < |ds| ==> r[i] == ds[i].survey
  {
    if ds == [] then [] else [ds[0].survey] + SurveysOf(ds[1..])
  }

  /** Decorating and taking the surveys back gives the list again. */
  lemma SurveysOfDecorated(top: seq<DashboardSurvey>, now: int)
    ensures SurveysOf(Map(top, s => Decorate(s, now))) == top
  {
  }

  /** `recentSurveys`: the surveys, newest first, at most five, decorated. */
  function RecentSurveys(fs: seq<DashboardSurvey>, now: int): seq<DecoratedSurvey> {
    Map(Take(SortByKey(fs, NewestFirstKey), LIST_LIMIT), s => Decorate(s, now))
  }

  /** Elements of a prefix are elements of the list. */
  lemma PrefixMembers<T>(s: seq<T>, n: nat)
    requires n <= |s|
    ensures forall x :: x in s[..n] ==> x in s
  {
  }

  /** The surveys `Decorate` maps onto the elements of a list are in that list. */
  lemma DecoratedMembers(top: seq<DashboardSurvey>, now: int)
    ensures forall d :: d in Map(top, s => Decorate(s, now)) ==> d.survey in top && d.statusLabel == StatusLabel(StatusOf(d.survey, now))
  {
  }

  /**
   * The needs-attention list: five of the drafts and stalled surveys (all
   * of them when fewer), oldest first, with no candidate left out that is
   * older than the last one shown, each with its Draft or Stalled pill.
   */
  lemma NeedsAttentionShape(fs: seq<DashboardSurvey>, now: int)
    ensures var shown, cands := NeedsAttentionSurveys(fs, now), AttentionCandidates(fs, now);
      && |shown| == (if |cands| < LIST_LIMIT then |cands| else LIST_LIMIT)
      && multiset(SurveysOf(shown)) <= multiset(cands)
      && (forall x :: x in multiset(cands) - multiset(SurveysOf(shown)) ==>
            |shown| > 0 && shown[|shown| - 1].survey.createdDate <= x.createdDate)
    ensures forall i, j :: 0 <= i < j < |NeedsAttentionSurveys(fs, now)| ==>
      NeedsAttentionSurveys(fs, now)[i].survey.createdDate <= NeedsAttentionSurveys(fs, now)[j].survey.createdDate
    ensures forall d :: d in NeedsAttentionSurveys(fs, now) ==>
      d.survey in fs && NeedsAttention(d.survey, now) && (d.statusLabel == "Draft" || d.statusLabel == "Stalled")
  {
    var attention := AttentionCandidates(fs, now);
    var sorted := SortByKey(attention, CreatedKey);
    var top := Take(sorted, LIST_LIMIT);
    var shown := NeedsAttentionSurveys(fs, now);
    assert shown == Map(top, s => Decorate(s, now));
    SurveysOfDecorated(top, now);
    assert SurveysOf(shown) == top;
    SmallestFirst(attention, CreatedKey, LIST_LIMIT);
    SortedMembers(attention, CreatedKey);
    PrefixMembers(sorted, |top|);
    DecoratedMembers(top, now);
    forall d | d in shown
      ensures d.survey in fs && NeedsAttention(d.survey, now) && (d.statusLabel == "Draft" || d.statusLabel == "Stalled")
    {
      assert d.survey in top;
      assert d.survey in attention;
    }
  }

  /**
   * The recent list: five of the surveys (all of them when fewer), newest
   * first, with no survey left out that is newer than the last one shown.
   */
  lemma RecentShape(fs: seq<DashboardSurvey>, now: int)
    ensures var shown := RecentSurveys(fs, now);
      && |shown| == (if |fs| < LIST_LIMIT then |fs| else LIST_LIMIT)
      && multiset(SurveysOf(shown)) <= multiset(fs)
      && (forall x :: x in multiset(fs) - multiset(SurveysOf(shown)) ==>
            |shown| > 0 && x.createdDate <= shown[|shown| - 1].survey.createdDate)
    ensures forall i, j :: 0 <= i < j < |RecentSurveys(fs, now)| ==>
      RecentSurveys(fs, now)[i].survey.createdDate >= RecentSurveys(fs, now)[j].survey.createdDate
  {
    SortedMembers(fs, NewestFirstKey);
    SmallestFirst(fs, NewestFirstKey, LIST_LIMIT);
    SurveysOfDecorated(Take(SortByKey(fs, NewestFirstKey), LIST_LIMIT), now);
  }

  function QuestionsOf(s: DashboardSurvey): int {
    s.questions
  }

  /** `totalQuestions`: the question counts added up. */
  function TotalQuestions(fs: seq<DashboardSurvey>): int {
    Sum(fs, QuestionsOf)
  }

  /** There are no questions at all exactly when every listed survey is a draft. */
  lemma {:induction false} NoQuestionsIffAllDrafts(fs: seq<DashboardSurvey>)
    ensures TotalQuestions(fs) >= 0
    ensures TotalQuestions(fs) == 0 <==> DraftSurveys(fs) == fs
  {
    if fs != [] {
      NoQuestionsIffAllDrafts(fs[1..]);
      assert DraftSurveys(fs) == (if IsDraft(fs[0]) then [fs[0]] else []) + DraftSurveys(fs[1..]);
      if !IsDraft(fs[0]) {
        assert |DraftSurveys(fs)| <= |fs[1..]| < |fs|;
      }
    }
  }
}

=== FILE: home_action_center.dfy ===
/**
 * The action center of the home page (`surveyHomeActionCenter` component):
 * one call-to-action per stage that has surveys (drafts, ready to launch,
 * active), then "Create New Survey", at most four in all.
 */
module HomeActionCenter {
  import opened Common
  import opened HomeData

  const ACTION_LIMIT: nat := 4

  /** The `id` of an action; its `action` (what `navigate` carries) is the same string. */
  datatype ActionId = Drafts | Links | Dashboard | Create | Templates

  function IdName(id: ActionId): string {
    match id
    case Drafts => "drafts"
    case Links => "links"
    case Dashboard => "dashboard"
    case Create => "create"
    case Templates => "templates"
  }

  datatype HomeAction = HomeAction(
    id: ActionId,
    title: string,
    description: string,
    icon: string,
    iconBg: string,
    variant: string)
  {
    function Action(): string {
      IdName(id)
    }
  }

  /** "Create New Survey", highlighted with `variant` when it is the only call-to-action. */
  function CreateAction(variant: string): HomeAction {
    HomeAction(Create, "Create New Survey", "Build a new survey from scratch",
      "utility:add", "slds-icon-standard-survey", variant)
  }

  function TemplatesAction(): HomeAction {
    HomeAction(Templates, "Manage Templates", "View and manage survey templates",
      "utility:layers", "slds-icon-standard-survey", "neutral")
  }

  /** `defaultActions`: create (highlighted) and templates. */
  function DefaultActions(): seq<HomeAction> {
    [CreateAction("brand"), TemplatesAction()]
  }

  function DraftsAction(drafts: int): HomeAction {
    HomeAction(Drafts, "Complete Draft Surveys", Counted(drafts, "survey needs", "surveys need") + " questions",
      "utility:edit", "slds-icon-standard-drafts", "brand")
  }

  function LinksAction(readyToLaunch: int): HomeAction {
    HomeAction(Links, "Generate Survey Links", Counted(readyToLaunch, "survey is", "surveys are") + " ready to share",
      "utility:link", "slds-icon-standard-link", "brand")
  }

  function DashboardAction(active: int): HomeAction {
    HomeAction(Dashboard, "View Survey Dashboard", Counted(active, "survey is", "surveys are") + " collecting responses",
      "utility:list", "slds-icon-standard-survey", "neutral")
  }

  /** The object `actions` pushes for an id, given the variant of the create action. */
  function ActionFor(d: HomeData, id: ActionId, createVariant: string): (a: HomeAction)
    ensures a.id == id
  {
    match id
    case Drafts => DraftsAction(OrZero(d.drafts))
    case Links => LinksAction(OrZero(d.readyToLaunch))
    case Dashboard => DashboardAction(OrZero(d.active))
    case Create => CreateAction(createVariant)
    case Templates => TemplatesAction()
  }

  /** The ids of the conditional pushes of `actions`, before "Create New Survey". */
  function StageIds(d: HomeData): seq<ActionId> {
    (if OrZero(d.drafts) > 0 then [Drafts] else [])
    + (if OrZero(d.readyToLaunch) > 0 then [Links] else [])
    + (if OrZero(d.active) > 0 then [Dashboard] else [])
  }

  /**
   * The whole `actionList`: the stage actions, then create, highlighted when
   * nothing was pushed before it.
   */
  function ActionList(d: HomeData): seq<HomeAction> {
    var createVariant := if |StageIds(d)| == 0 then "brand" else "neutral";
    Map(StageIds(d) + [Create], id => ActionFor(d, id, createVariant))
  }

  /** `actions`: the default pair without data, else the action list cut to four. */
  function Actions(homeData: Option<HomeData>): (r: seq<HomeAction>)
    ensures homeData.None? ==> r == DefaultActions()
    ensures homeData.None? ==>
      |r| == 2 && r[0].Action() == "create" && r[0].variant == "brand"
      && r[1].Action() == "templates" && r[1].variant == "neutral"
    ensures 1 <= |r| <= ACTION_LIMIT
  {
    match homeData
    case None => DefaultActions()
    case Some(d) => Take(ActionList(d), ACTION_LIMIT)
  }

  /** The fixed order of the calls-to-action. */
  function Rank(id: ActionId): nat {
    match id
    case Drafts => 0
    case Links => 1
    case Dashboard => 2
    case Create => 3
    case Templates => 4
  }

  /** With data there are at most three stage actions, so the cut to four never drops one. */
  lemma NothingDropped(d: HomeData)
    ensures |StageIds(d)| <= 3
    ensures Actions(Some(d)) == ActionList(d)
    ensures Ids(Actions(Some(d))) == StageIds(d) + [Create]
  {
  }

  /**
   * Create is always present and always last, and it is highlighted exactly
   * when it is the only action.
   */
  lemma CreateLast(d: HomeData)
    ensures var r := Actions(Some(d));
      && r[|r| - 1].id == Create
      && (r[|r| - 1].variant == "brand" <==> |r| == 1)
      && (r[|r| - 1].variant == "neutral" <==> |r| > 1)
  {
    NothingDropped(d);
    assert "brand"[0] != "neutral"[0];
  }

  /** Every action before the last is a stage action: drafts and links are highlighted, the dashboard is not. */
  lemma StageVariant(d: HomeData, i: nat)
    requires i < |Actions(Some(d))| - 1
    ensures var a := Actions(Some(d))[i];
      a.id != Create && a.variant == (if a.id == Dashboard then "neutral" else "brand")
  {
    NothingDropped(d);
    var ids := StageIds(d);
    assert Actions(Some(d))[i].id == ids[i];
    assert ids[i] in ids;
  }

  /** The actions come in the fixed order drafts, links, dashboard, create, each at most once. */
  lemma ActionsInOrder(d: HomeData)
    ensures var r := Actions(Some(d));
      forall i, j :: 0 <= i < j < |r| ==> Rank(r[i].id) < Rank(r[j].id)
  {
    NothingDropped(d);
    ListedIds(d);
  }

  /** The ids of a list of actions, in order. */
  function Ids(r: seq<HomeAction>): (ids: seq<ActionId>)
    ensures |ids| == |r|
    ensures forall i :: 0 <= i < |r| ==> ids[i] == r[i].id
  {
    if r == [] then [] else [r[0].id] + Ids(r[1..])
  }

  /** An action of the list, found by its id, is the one built for that stage. */
  lemma ActionById(d: HomeData, i: nat)
    requires i < |Actions(Some(d))|
    ensures var a := Actions(Some(d))[i];
      && (a.id == Drafts ==> a == DraftsAction(OrZero(d.drafts)))
      && (a.id == Links ==> a == LinksAction(OrZero(d.readyToLaunch)))
      && (a.id == Dashboard ==> a == DashboardAction(OrZero(d.active)))
  {
    NothingDropped(d);
  }

  /** Each stage action appears exactly when its count is positive; templates only appears without data. */
  lemma ActionsPresent(d: HomeData)
    ensures var ids := Ids(Actions(Some(d)));
      && (Drafts in ids <==> OrZero(d.drafts) > 0)
      && (Links in ids <==> OrZero(d.readyToLaunch) > 0)
      && (Dashboard in ids <==> OrZero(d.active) > 0)
      && Create in ids
      && Templates !in ids
  {
    NothingDropped(d);
    ListedIds(d);
  }

  /** The same facts about the ids alone. */
  lemma ListedIds(d: HomeData)
    ensures var ids := StageIds(d) + [Create];
      && (Drafts in ids <==> OrZero(d.drafts) > 0)
      && (Links in ids <==> OrZero(d.readyToLaunch) > 0)
      && (Dashboard in ids <==> OrZero(d.active) > 0)
      && Create in ids
      && Templates !in ids
      && (forall i, j :: 0 <= i < j < |ids| ==> Rank(ids[i]) < Rank(ids[j]))
  {
  }

  /** The drafts description starts with the number of drafts and is singular exactly when there is one. */
  lemma DraftsWording(d: HomeData, i: nat)
    requires i < |Actions(Some(d))| && Actions(Some(d))[i].id == Drafts
    ensures var text := Actions(Some(d))[i].description;
      && IntToString(OrZero(d.drafts)) + " " <= text
      && ("survey needs" <= text[|IntToString(OrZero(d.drafts))| + 1..] <==> OrZero(d.drafts) == 1)
  {
    ActionById(d, i);
    assert "survey needs"[6] != "surveys need"[6];
    CountedThenText(OrZero(d.drafts), "survey needs", "surveys need", " questions", 6);
  }

  /** The links description starts with the number of surveys ready to launch, singular exactly for one. */
  lemma LinksWording(d: HomeData, i: nat)
    requires i < |Actions(Some(d))| && Actions(Some(d))[i].id == Links
    ensures var text := Actions(Some(d))[i].description;
      && IntToString(OrZero(d.readyToLaunch)) + " " <= text
      && ("survey is" <= text[|IntToString(OrZero(d.readyToLaunch))| + 1..] <==> OrZero(d.readyToLaunch) == 1)
  {
    ActionById(d, i);
    assert "survey is"[6] != "surveys are"[6];
    CountedThenText(OrZero(d.readyToLaunch), "survey is", "surveys are", " ready to share", 6);
  }

  /** The dashboard description starts with the number of active surveys, singular exactly for one. */
  lemma DashboardWording(d: HomeData, i: nat)
    requires i < |Actions(Some(d))| && Actions(Some(d))[i].id == Dashboard
    ensures var text := Actions(Some(d))[i].description;
      && IntToString(OrZero(d.active)) + " " <= text
      && ("survey is" <= text[|IntToString(OrZero(d.active))| + 1..] <==> OrZero(d.active) == 1)
  {
    ActionById(d, i);
    assert "survey is"[6] != "surveys are"[6];
    CountedThenText(OrZero(d.active), "survey is", "surveys are", " collecting responses", 6);
  }
}

=== FILE: home_activity_feed.dfy ===
/**
 * The activity feed of the home page (`surveyHomeActivityFeed` component):
 * each recent event with an icon and a colour for its type and its age in
 * words. The current time is a parameter.
 */
module HomeActivityFeed {
  import opened Common
  import opened HomeData

  const MINUTE_MS: int := 60000
  const HOUR_MS: int := 3600000
  const DAY_MS: int := 86400000

  /** The activity types the icon and colour maps know. */
  const KNOWN_TYPES: set<string> := {"created", "published", "response", "link"}

  /** `getIconForActivityType`: the icon of a known type, `utility:info` for anything else. */
  function IconFor(activityType: string): (r: string)
    ensures activityType !in KNOWN_TYPES ==> r == "utility:info"
    ensures activityType in KNOWN_TYPES ==> r != "utility:info"
  {
    if activityType == "created" then "utility:new"
    else if activityType == "published" then "utility:publish"
    else if activityType == "response" then "utility:success"
    else if activityType == "link" then "utility:link"
    else "utility:info"
  }

  /**
   * `getVariantForActivityType`: publishing and responses are successes,
   * creating and linking are warnings, anything else is the default colour.
   */
  function VariantFor(activityType: string): (r: string)
    ensures activityType !in KNOWN_TYPES ==> r == "default"
    ensures activityType == "published" || activityType == "response" ==> r == "success"
    ensures activityType == "created" || activityType == "link" ==> r == "warning"
  {
    if activityType == "created" then "warning"
    else if activityType == "published" then "success"
    else if activityType == "response" then "success"
    else if activityType == "link" then "warning"
    else "default"
  }

  /** The two maps know the same types: an event gets the fallback icon exactly when it gets the fallback colour. */
  lemma FallbacksAgree(activityType: string)
    ensures IconFor(activityType) == "utility:info" <==> VariantFor(activityType) == "default"
  {
    if activityType in KNOWN_TYPES {
      assert "warning"[0] != "default"[0] && "success"[0] != "default"[0];
    }
  }

  /** What `formatTimestamp` returns: a text, or the date in the viewer's locale. */
  datatype FormattedTime = Label(text: string) | LocaleDate(timestamp: int)

  /** `${n} ${n === 1 ? unit : unit + 's'} ago`. */
  function Ago(n: int, unit: string): string {
    Counted(n, unit + " ago", unit + "s ago")
  }

  /** An age starts with its count and reads `<unit> ago` exactly when the count is 1. */
  lemma AgoWording(n: int, unit: string)
    ensures IntToString(n) + " " <= Ago(n, unit)
    ensures Ago(n, unit)[|IntToString(n)| + 1..] == unit + " ago" <==> n == 1
  {
    assert |unit + " ago"| != |unit + "s ago"|;
    CountedWording(n, unit + " ago", unit + "s ago");
  }

  /**
   * `formatTimestamp`: a missing (or zero) timestamp shows nothing; the
   * age in whole minutes, hours or days, rounded down, picks the wording.
   */
  function FormatTimestamp(timestamp: Option<int>, now: int): FormattedTime {
    if timestamp.None? || timestamp.value == 0 then Label("")
    else
      var diffMs := now - timestamp.value;
      var diffMins := diffMs / MINUTE_MS;
      var diffHours := diffMs / HOUR_MS;
      var diffDays := diffMs / DAY_MS;
      if diffMins < 1 then Label("Just now")
      else if diffMins < 60 then Label(Ago(diffMins, "minute"))
      else if diffHours < 24 then Label(Ago(diffHours, "hour"))
      else if diffDays < 7 then Label(Ago(diffDays, "day"))
      else LocaleDate(timestamp.value)
  }

  /**
   * The buckets by elapsed time: under a minute (including a time in the
   * future) is "Just now", under an hour counts 1 to 59 minutes, under a
   * day 1 to 23 hours, under a week 1 to 6 days, and anything older shows
   * the date. Each count is the number of whole units elapsed.
   */
  lemma FormatBuckets(timestamp: int, now: int)
    requires timestamp != 0
    ensures var e, r := now - timestamp, FormatTimestamp(Some(timestamp), now);
      && (e < MINUTE_MS ==> r == Label("Just now"))
      && (MINUTE_MS <= e < HOUR_MS ==>
        var n := e / MINUTE_MS;
        r == Label(Ago(n, "minute")) && 1 <= n < 60 && n * MINUTE_MS <= e < (n + 1) * MINUTE_MS)
      && (HOUR_MS <= e < DAY_MS ==>
        var n := e / HOUR_MS;
        r == Label(Ago(n, "hour")) && 1 <= n < 24 && n * HOUR_MS <= e < (n + 1) * HOUR_MS)
      && (DAY_MS <= e < 7 * DAY_MS ==>
        var n := e / DAY_MS;
        r == Label(Ago(n, "day")) && 1 <= n < 7 && n * DAY_MS <= e < (n + 1) * DAY_MS)
      && (e >= 7 * DAY_MS ==> r == LocaleDate(timestamp))
  {
    var e := now - timestamp;
    BucketBounds(e, MINUTE_MS, 60);
    BucketBounds(e, HOUR_MS, 24);
    BucketBounds(e, DAY_MS, 7);
  }

  /** Rounding down by a positive unit: the count is below `limit` exactly when the time is below `limit` units. */
  lemma BucketBounds(e: int, unit: int, limit: int)
    requires unit > 0
    ensures e / unit < 1 <==> e < unit
    ensures e / unit < limit <==> e < limit * unit
    ensures (e / unit) * unit <= e < (e / unit + 1) * unit
  {
    var q, m := e / unit, e % unit;
    assert e == q * unit + m && 0 <= m < unit;
    assert (q + 1) * unit == q * unit + unit;
    if q < limit {
      MulMonotone(q, limit - 1, unit);
      assert (limit - 1) * unit == limit * unit - unit;
    } else {
      MulMonotone(limit, q, unit);
    }
    if q < 1 {
      MulMonotone(q, 0, unit);
    } else {
      MulMonotone(1, q, unit);
    }
  }

  /** A missing or zero timestamp shows an empty text. */
  lemma MissingTimestamp(timestamp: Option<int>, now: int)
    requires timestamp.None? || timestamp.value == 0
    ensures FormatTimestamp(timestamp, now) == Label("")
  {
  }

  /** An activity with its icon, colour and age, as the feed shows it. */
  datatype FeedEntry = FeedEntry(activity: Activity, iconName: string, iconVariant: string, formattedTime: FormattedTime)

  function Decorate(a: Activity, now: int): FeedEntry {
    FeedEntry(a, IconFor(a.activityType), VariantFor(a.activityType), FormatTimestamp(a.timestamp, now))
  }

  /** `activities`: nothing without data or without an activity list, else every activity decorated, in order. */
  function Activities(homeData: Option<HomeData>, now: int): (r: seq<FeedEntry>)
    ensures homeData.None? || homeData.value.activities.None? ==> r == []
    ensures homeData.Some? && homeData.value.activities.Some? ==>
      var acts := homeData.value.activities.value;
      && |r| == |acts|
      && forall i :: 0 <= i < |acts| ==>
        && r[i].activity == acts[i]
        && r[i].iconName == IconFor(acts[i].activityType)
        && r[i].iconVariant == VariantFor(acts[i].activityType)
        && r[i].formattedTime == FormatTimestamp(acts[i].timestamp, now)
  {
    match homeData
    case None => []
    case Some(d) =>
      match d.activities
      case None => []
      case Some(acts) => Map(acts, a => Decorate(a, now))
  }

  /** `hasActivities`. */
  function HasActivities(homeData: Option<HomeData>, now: int): bool {
    |Activities(homeData, now)| > 0
  }

  /** The feed shows entries exactly when the data carries a non-empty activity list. */
  lemma HasActivitiesIff(homeData: Option<HomeData>, now: int)
    ensures HasActivities(homeData, now) <==>
      homeData.Some? && homeData.value.activities.Some? && |homeData.value.activities.value| > 0
  {
  }
}

=== FILE: home_data.dfy ===
/**
 * The `homeData` object the home page hands to its cards: survey counts by
 * lifecycle stage and the recent activity list.
 */
module HomeData {
  import opened Common

  /** An activity event; `timestamp` is in milliseconds since the epoch, `None` when missing. */
  datatype Activity = Activity(id: string, title: string, activityType: string, timestamp: Option<int>)

  /** Each count and the activity list may be missing (`None`). */
  datatype HomeData = HomeData(
    totalSurveys: Option<int>,
    drafts: Option<int>,
    readyToLaunch: Option<int>,
    active: Option<int>,
    stalled: Option<int>,
    activities: Option<seq<Activity>>)

  /**
   * A count where the cards only compare it with zero: a missing count reads
   * as `0`, which is no more greater than zero than `undefined` is.
   */
  function OrZero(c: Option<int>): (n: int)
    ensures n > 0 <==> c.Some? && c.value > 0
    ensures c.Some? ==> n == c.value
  {
    if c.Some? then c.value else 0
  }
}

=== FILE: home_guided_resources.dfy ===
/**
 * The guided-resources card of the home page
 * (`surveyHomeGuidedResources` component): a five-step onboarding
 * checklist ticked off by the survey counts, and one reading suggestion for
 * the stage the organisation is in.
 */
module HomeGuidedResources {
  import opened Common
  import opened HomeData

  /** The keys of `allResources`, as `getCurrentStage` returns them. */
  datatype Stage = Drafting | Ready | ActiveStage | DefaultStage

  /** `getCurrentStage`: active beats ready, ready beats drafting; no data is the default stage. */
  function CurrentStage(homeData: Option<HomeData>): (s: Stage)
    ensures homeData.None? ==> s == DefaultStage
    ensures homeData.Some? ==> var d := homeData.value;
      && (s == ActiveStage <==> OrZero(d.active) > 0)
      && (s == Ready <==> OrZero(d.active) <= 0 && OrZero(d.readyToLaunch) > 0)
      && (s == Drafting <==> OrZero(d.active) <= 0 && OrZero(d.readyToLaunch) <= 0 && OrZero(d.drafts) > 0)
      && (s == DefaultStage <==> OrZero(d.active) <= 0 && OrZero(d.readyToLaunch) <= 0 && OrZero(d.drafts) <= 0)
  {
    match homeData
    case None => DefaultStage
    case Some(d) =>
      if OrZero(d.active) > 0 then ActiveStage
      else if OrZero(d.readyToLaunch) > 0 then Ready
      else if OrZero(d.drafts) > 0 then Drafting
      else DefaultStage
  }

  datatype Resource = Resource(id: string, title: string, description: string, icon: string)

  /** The one entry `allResources` holds under a stage. */
  function ResourceFor(s: Stage): Resource {
    match s
    case Drafting => Resource("tips-questions", "Writing Effective Questions",
      "Learn best practices for creating clear, unbiased survey questions", "utility:knowledge_base")
    case Ready => Resource("tips-distribution", "Survey Distribution Tips",
      "Strategies for reaching your target audience", "utility:knowledge_base")
    case ActiveStage => Resource("tips-analytics", "Analyzing Survey Results",
      "Make the most of your survey data", "utility:knowledge_base")
    case DefaultStage => Resource("getting-started", "Getting Started Guide",
      "Learn the basics of Survey Force", "utility:knowledge_base")
  }

  /**
   * `resources`: the list stored under the current stage. Every stage is a
   * key of `allResources`, so the fallback to the default list is never
   * taken.
   */
  function Resources(homeData: Option<HomeData>): (r: seq<Resource>)
    ensures |r| == 1
    ensures homeData.None? ==> r[0].id == "getting-started"
  {
    [ResourceFor(CurrentStage(homeData))]
  }

  /** The sixth letter of each resource id tells the stages apart. */
  lemma ResourceIdLetter(s: Stage)
    ensures |ResourceFor(s).id| > 5
    ensures ResourceFor(s).id[5] == match s
      case Drafting => 'q'
      case Ready => 'd'
      case ActiveStage => 'a'
      case DefaultStage => 'n'
  {
    var id := ResourceFor(s).id;
    match s
    case Drafting => assert id == "tips-questions";
    case Ready => assert id == "tips-distribution";
    case ActiveStage => assert id == "tips-analytics";
    case DefaultStage => assert id == "getting-started";
  }

  /** Two data sets get the same suggestion exactly when they are in the same stage. */
  lemma ResourcesFollowStage(h: Option<HomeData>, h': Option<HomeData>)
    ensures Resources(h) == Resources(h') <==> CurrentStage(h) == CurrentStage(h')
  {
    ResourceIdLetter(CurrentStage(h));
    ResourceIdLetter(CurrentStage(h'));
    if Resources(h) == Resources(h') {
      assert Resources(h)[0].id[5] == Resources(h')[0].id[5];
    }
  }

  /** The five onboarding steps; the item `id` of each is its `Id()`. */
  datatype Step = CreateStep | QuestionsStep | LinksStep | ResponsesStep | AnalyticsStep
  {
    function Id(): string {
      match this
      case CreateStep => "create"
      case QuestionsStep => "questions"
      case LinksStep => "links"
      case ResponsesStep => "responses"
      case AnalyticsStep => "analytics"
    }

    /** The item's `label`. */
    function Text(): string {
      match this
      case CreateStep => "Create your first survey"
      case QuestionsStep => "Add questions to a survey"
      case LinksStep => "Generate survey links"
      case ResponsesStep => "Collect survey responses"
      case AnalyticsStep => "Review survey analytics"
    }

    function Description(): string {
      match this
      case CreateStep => "Build a survey with our intuitive creator"
      case QuestionsStep => "Design meaningful questions for your audience"
      case LinksStep => "Create unique links to share with participants"
      case ResponsesStep => "Share your survey and gather feedback"
      case AnalyticsStep => "Analyze results and gain insights"
    }
  }

  /** The checklist order. */
  const STEPS: seq<Step> := [CreateStep, QuestionsStep, LinksStep, ResponsesStep, AnalyticsStep]

  datatype ChecklistItem = ChecklistItem(step: Step, completed: bool, iconName: string, iconVariant: string)

  /** A checklist entry: a tick and the success colour when done, a chevron otherwise. */
  function Item(step: Step, completed: bool): ChecklistItem {
    ChecklistItem(step, completed,
      if completed then "utility:check" else "utility:chevronright",
      if completed then "success" else "default")
  }

  /** Whether the counts show a step as done. */
  function StepDone(d: HomeData, step: Step): bool {
    match step
    case CreateStep => OrZero(d.totalSurveys) > 0
    case QuestionsStep => d.totalSurveys.Some? && d.drafts.Some? && d.totalSurveys.value > d.drafts.value
    case _ => OrZero(d.active) > 0
  }

  /** `checklist`, with `defaultChecklist` (nothing done) when there is no data. */
  function Checklist(homeData: Option<HomeData>): (r: seq<ChecklistItem>)
    ensures |r| == |STEPS| == 5
    ensures forall i :: 0 <= i < |r| ==> r[i].step == STEPS[i]
  {
    match homeData
    case None => Map(STEPS, step => Item(step, false))
    case Some(d) => Map(STEPS, step => Item(step, StepDone(d, step)))
  }

  /**
   * Creating is done once there is a survey, adding questions once both the
   * total and the draft count are present and some survey is not a draft (a
   * comparison with a missing count is false), and the last three steps once
   * a survey is active; without data nothing is done.
   */
  lemma ChecklistCompletion(homeData: Option<HomeData>)
    ensures var r := Checklist(homeData);
      homeData.None? ==> forall i :: 0 <= i < 5 ==> !r[i].completed
    ensures var r := Checklist(homeData);
      homeData.Some? ==>
        var d := homeData.value;
        && (r[0].completed <==> OrZero(d.totalSurveys) > 0)
        && (r[1].completed <==> d.totalSurveys.Some? && d.drafts.Some? && d.totalSurveys.value > d.drafts.value)
        && (r[2].completed <==> OrZero(d.active) > 0)
        && (r[3].completed <==> OrZero(d.active) > 0)
        && (r[4].completed <==> OrZero(d.active) > 0)
  {
  }

  /** Every item shows the tick and the success colour exactly when it is done. */
  lemma ChecklistIcons(homeData: Option<HomeData>, i: nat)
    requires i < 5
    ensures var item := Checklist(homeData)[i];
      && (item.iconName == "utility:check" <==> item.completed)
      && (item.iconVariant == "success" <==> item.completed)
  {
    assert |"utility:check"| != |"utility:chevronright"|;
    assert "success"[0] != "default"[0];
  }

  /** The detail of the `navigate` event a resource click sends. */
  datatype Navigate = Navigate(action: string, resourceId: string)

  /** `handleResourceKeyDown`: only Enter and Space open a resource. */
  function HandleResourceKeyDown(key: string, resourceId: string): (r: Option<Navigate>)
    ensures r.Some? <==> key == "Enter" || key == " "
    ensures r.Some? ==> r.value == Navigate("gettingstarted", resourceId)
  {
    if key == "Enter" || key == " " then Some(Navigate("gettingstarted", resourceId)) else None
  }
}

=== FILE: home_hero.dfy ===
/**
 * The hero banner of the home page (`surveyHomeHero` component): a
 * headline, a subheadline and one primary action chosen by the first stage
 * that has surveys.
 */
module HomeHero {
  import opened Common
  import opened HomeData

  /** The stage the banner talks about. */
  datatype Focus = DraftsFocus | ReadyFocus | StalledFocus | ActiveFocus | NothingYet

  datatype PrimaryAction = PrimaryAction(text: string, variant: string, action: string)

  /** The first stage with surveys, in the order drafts, ready to launch, stalled, active. */
  function FocusOf(d: HomeData): (f: Focus)
    ensures f == DraftsFocus <==> OrZero(d.drafts) > 0
    ensures f == ReadyFocus <==> OrZero(d.drafts) <= 0 && OrZero(d.readyToLaunch) > 0
    ensures f == StalledFocus <==> OrZero(d.drafts) <= 0 && OrZero(d.readyToLaunch) <= 0 && OrZero(d.stalled) > 0
    ensures f == ActiveFocus <==> OrZero(d.drafts) <= 0 && OrZero(d.readyToLaunch) <= 0 && OrZero(d.stalled) <= 0 && OrZero(d.active) > 0
    ensures f == NothingYet <==> OrZero(d.drafts) <= 0 && OrZero(d.readyToLaunch) <= 0 && OrZero(d.stalled) <= 0 && OrZero(d.active) <= 0
  {
    if OrZero(d.drafts) > 0 then DraftsFocus
    else if OrZero(d.readyToLaunch) > 0 then ReadyFocus
    else if OrZero(d.stalled) > 0 then StalledFocus
    else if OrZero(d.active) > 0 then ActiveFocus
    else NothingYet
  }

  /** The singular and plural wording after the count, and the rest of the headline, for a stage. */
  function Phrases(f: Focus): (string, string, string) {
    match f
    case DraftsFocus => ("survey needs", "surveys need", " questions")
    case ReadyFocus => ("survey is", "surveys are", " ready to launch")
    case StalledFocus => ("survey needs", "surveys need", " attention")
    case ActiveFocus => ("survey is", "surveys are", " collecting responses")
    case NothingYet => ("", "", "")
  }

  /** The count the headline reports. */
  function FocusCount(d: HomeData): int {
    match FocusOf(d)
    case DraftsFocus => OrZero(d.drafts)
    case ReadyFocus => OrZero(d.readyToLaunch)
    case StalledFocus => OrZero(d.stalled)
    case ActiveFocus => OrZero(d.active)
    case NothingYet => 0
  }

  /** `headline`. */
  function Headline(homeData: Option<HomeData>): (r: string)
    ensures homeData.None? ==> r == "Welcome to Survey Force"
    ensures homeData.Some? && FocusOf(homeData.value) == NothingYet ==> r == "Create your first survey"
  {
    match homeData
    case None => "Welcome to Survey Force"
    case Some(d) =>
      var f := FocusOf(d);
      if f == NothingYet then "Create your first survey"
      else Counted(FocusCount(d), Phrases(f).0, Phrases(f).1) + Phrases(f).2
  }

  /**
   * A headline about a stage starts with that stage's (positive) count, and
   * uses the singular wording exactly when the count is 1.
   */
  lemma HeadlineWording(d: HomeData)
    requires FocusOf(d) != NothingYet
    ensures FocusCount(d) > 0
    ensures IntToString(FocusCount(d)) + " " <= Headline(Some(d))
    ensures Phrases(FocusOf(d)).0 <= Headline(Some(d))[|IntToString(FocusCount(d))| + 1..] <==> FocusCount(d) == 1
  {
    var f := FocusOf(d);
    assert Phrases(f).0[6] == ' ' && Phrases(f).1[6] == 's';
    CountedThenText(FocusCount(d), Phrases(f).0, Phrases(f).1, Phrases(f).2, 6);
  }

  function SubheadlineFor(f: Focus): string {
    match f
    case DraftsFocus => "Add questions to publish your surveys"
    case ReadyFocus => "Generate links to start collecting responses"
    case StalledFocus => "These surveys have had no activity for over 30 days"
    case ActiveFocus => "View analytics and manage your surveys"
    case NothingYet => "Build surveys quickly with our intuitive creator"
  }

  /** `subheadline`: chosen by the same stage as the headline. */
  function Subheadline(homeData: Option<HomeData>): string {
    match homeData
    case None => "Create, distribute, and analyze surveys with ease"
    case Some(d) => SubheadlineFor(FocusOf(d))
  }

  /**
   * The subheadline follows the headline: two data sets with the same
   * headline stage get the same subheadline, and different stages get
   * different ones.
   */
  lemma SubheadlineFollowsHeadline(d: HomeData, e: HomeData)
    ensures Subheadline(Some(d)) == Subheadline(Some(e)) <==> FocusOf(d) == FocusOf(e)
  {
    SubheadlineLength(FocusOf(d));
    SubheadlineLength(FocusOf(e));
  }

  /** The five subheadlines have five different lengths, so no two stages share one. */
  lemma SubheadlineLength(f: Focus)
    ensures |SubheadlineFor(f)| == match f
      case DraftsFocus => 37
      case ReadyFocus => 44
      case StalledFocus => 51
      case ActiveFocus => 38
      case NothingYet => 48
  {
  }

  /** `primaryAction`. */
  function PrimaryActionOf(homeData: Option<HomeData>): (a: PrimaryAction)
    ensures a.variant == "brand"
    ensures homeData.None? ==> a == PrimaryAction("Create Survey", "brand", "create")
  {
    match homeData
    case None => PrimaryAction("Create Survey", "brand", "create")
    case Some(d) =>
      if OrZero(d.drafts) > 0 then PrimaryAction("Review Drafts", "brand", "drafts")
      else if OrZero(d.readyToLaunch) > 0 then PrimaryAction("Generate Links", "brand", "links")
      else if OrZero(d.stalled) > 0 then PrimaryAction("Review Surveys", "brand", "dashboard")
      else PrimaryAction("Create Survey", "brand", "create")
  }

  /**
   * The primary action follows the headline's stage, except that a banner
   * about active surveys (and one with nothing yet) offers to create one.
   */
  lemma PrimaryActionFollowsFocus(d: HomeData)
    ensures PrimaryActionOf(Some(d)).action == "drafts" <==> FocusOf(d) == DraftsFocus
    ensures PrimaryActionOf(Some(d)).action == "links" <==> FocusOf(d) == ReadyFocus
    ensures PrimaryActionOf(Some(d)).action == "dashboard" <==> FocusOf(d) == StalledFocus
    ensures PrimaryActionOf(Some(d)).action == "create" <==> FocusOf(d) == ActiveFocus || FocusOf(d) == NothingYet
  {
  }
}

=== FILE: invitations.dfy ===
/**
 * The invitation list of a survey (`surveyInvitations` component): load the
 * invitations, generate a batch of 1 to 200 personal links, and copy links
 * to the clipboard.
 */
module Invitations {
  import opened Common

  const MAX_LINKS: int := 200
  const DEFAULT_LINK_COUNT: int := 10
  const SUCCESS_CLASS: string := "slds-text-color_success"
  const ERROR_CLASS: string := "slds-text-color_error"
  const BAD_COUNT_MESSAGE: string := "Please enter a valid number between 1 and 200"

  /** An invitation as loaded. */
  datatype Invitation = Invitation(id: string, name: string, participantName: string, email: string, status: string, surveyUrl: string)

  /** A loaded invitation with its status colour. */
  datatype InvitationRow = InvitationRow(invitation: Invitation, statusClass: string)

  /** A freshly generated link. */
  datatype GeneratedLink = GeneratedLink(name: string, surveyUrl: string)

  /** `getStatusClass`: green for Completed, red for Expired, nothing otherwise. */
  function StatusClass(status: string): (r: string)
    ensures status == "Completed" ==> r == SUCCESS_CLASS
    ensures status == "Expired" ==> r == ERROR_CLASS
    ensures status != "Completed" && status != "Expired" ==> r == ""
  {
    if status == "Completed" then SUCCESS_CLASS else if status == "Expired" then ERROR_CLASS else ""
  }

  /** The rows of a load: each invitation kept, in order, with its status class. */
  function Rows(invs: seq<Invitation>): (r: seq<InvitationRow>)
    ensures |r| == |invs|
    ensures forall i :: 0 <= i < |invs| ==> r[i].invitation == invs[i] && r[i].statusClass == StatusClass(invs[i].status)
  {
    if invs == [] then [] else [InvitationRow(invs[0], StatusClass(invs[0].status))] + Rows(invs[1..])
  }

  /** `invitations.filter((inv) => inv.status === status).length`. */
  function CountStatus(rows: seq<InvitationRow>, status: string): (n: nat)
    ensures n <= |rows|
  {
    if rows == [] then 0 else (if rows[0].invitation.status == status then 1 else 0) + CountStatus(rows[1..], status)
  }

  /** Counts of two different statuses never add up to more than the invitations there are. */
  lemma {:induction false} TwoStatusesWithinTotal(rows: seq<InvitationRow>, s1: string, s2: string)
    requires s1 != s2
    ensures CountStatus(rows, s1) + CountStatus(rows, s2) <= |rows|
  {
    if rows != [] {
      TwoStatusesWithinTotal(rows[1..], s1, s2);
    }
  }

  /** Pending plus completed is at most the total. */
  lemma PendingAndCompletedWithinTotal(rows: seq<InvitationRow>)
    ensures CountStatus(rows, "Pending") + CountStatus(rows, "Completed") <= |rows|
  {
    TwoStatusesWithinTotal(rows, "Pending", "Completed");
  }

  /** `!linkCount || linkCount < 1 || linkCount > 200` fails; `None` is an empty or non-numeric entry. */
  predicate ValidLinkCount(linkCount: Option<int>) {
    linkCount.Some? && 1 <= linkCount.value <= MAX_LINKS
  }

  function Urls(links: seq<GeneratedLink>): (r: seq<string>)
    ensures |r| == |links|
    ensures forall i :: 0 <= i < |links| ==> r[i] == links[i].surveyUrl
  {
    if links == [] then [] else [links[0].surveyUrl] + Urls(links[1..])
  }

  /** The text Copy All puts on the clipboard: one URL per line, in list order. */
  function CopyAllText(links: seq<GeneratedLink>): string {
    Join(Urls(links), "\n")
  }

  /** Splitting the copied text at line breaks gives back the URLs. */
  lemma CopyAllLinesAreUrls(links: seq<GeneratedLink>)
    requires links != []
    requires forall l :: l in links ==> '\n' !in l.surveyUrl
    ensures Split(CopyAllText(links), '\n') == Urls(links)
  {
    forall u | u in Urls(links)
      ensures '\n' !in u
    {
      var i :| 0 <= i < |Urls(links)| && Urls(links)[i] == u;
      assert links[i] in links;
    }
    SplitJoin(Urls(links), '\n');
  }

  class SurveyInvitations {
    const recordId: string
    var isLoading: bool
    /** `""` for `null`. */
    var error: string
    var invitations: seq<InvitationRow>
    var showGenerateModal: bool
    var linkCount: Option<int>
    var isGenerating: bool
    var showLinksModal: bool
    var generatedLinks: seq<GeneratedLink>
    var toasts: seq<Toast>

    /** `showContent`. */
    predicate ShowContent()
      reads this`isLoading, this`error
    {
      !isLoading && error == ""
    }

    constructor (recordId: string)
      ensures this.recordId == recordId && isLoading && error == "" && invitations == []
      ensures !showGenerateModal && linkCount == Some(DEFAULT_LINK_COUNT) && !isGenerating
      ensures !showLinksModal && generatedLinks == [] && toasts == []
    {
      this.recordId := recordId;
      isLoading, error, invitations := true, "", [];
      showGenerateModal, linkCount, isGenerating := false, Some(DEFAULT_LINK_COUNT), false;
      showLinksModal, generatedLinks, toasts := false, [], [];
    }

    /** `loadInvitations` (also `handleRefresh`): the content is hidden while loading. */
    method LoadInvitations() returns (surveyId: string)
      modifies this`isLoading, this`error
      ensures isLoading && error == "" && !ShowContent() && surveyId == recordId
    {
      isLoading, error := true, "";
      surveyId := recordId;
    }

    method InvitationsLoaded(result: seq<Invitation>)
      modifies this`invitations, this`isLoading
      ensures invitations == Rows(result) && !isLoading
      ensures ShowContent() <==> error == ""
    {
      invitations, isLoading := Rows(result), false;
    }

    method InvitationsFailed(f: Fault)
      modifies this`error, this`isLoading
      ensures error == Or(BodyMessage(f), "Error loading invitations") && !isLoading && !ShowContent()
    {
      error, isLoading := Or(BodyMessage(f), "Error loading invitations"), false;
    }

    /** Opening the generate modal always starts from ten links. */
    method HandleOpenGenerateModal()
      modifies this`linkCount, this`showGenerateModal
      ensures linkCount == Some(DEFAULT_LINK_COUNT) && showGenerateModal
    {
      linkCount, showGenerateModal := Some(DEFAULT_LINK_COUNT), true;
    }

    method HandleCloseGenerateModal()
      modifies this`showGenerateModal
      ensures !showGenerateModal
    {
      showGenerateModal := false;
    }

    /** `parseInt(value, 10)`, with `None` for a value that is not a number. */
    method HandleLinkCountChange(parsed: Option<int>)
      modifies this`linkCount
      ensures linkCount == parsed
    {
      linkCount := parsed;
    }

    /** Refuse a missing or out-of-range count with a toast; otherwise ask for that many links. */
    method HandleGenerateLinks() returns (request: Option<(string, int)>)
      modifies this`toasts, this`isGenerating
      ensures request.Some? <==> ValidLinkCount(linkCount)
      ensures request.None? ==>
        toasts == old(toasts) + [Toast("Error", BAD_COUNT_MESSAGE, "error")] && isGenerating == old(isGenerating)
      ensures request.Some? ==>
        request.value == (recordId, linkCount.value) && 1 <= request.value.1 <= MAX_LINKS
        && isGenerating && toasts == old(toasts)
    {
      if !ValidLinkCount(linkCount) {
        toasts := toasts + [Toast("Error", BAD_COUNT_MESSAGE, "error")];
        return None;
      }
      isGenerating := true;
      request := Some((recordId, linkCount.value));
    }

    /**
     * The batch resolves. On success the links are shown in their own modal
     * and the list is reloaded; otherwise only an error toast.
     */
    method GenerateResolved(success: bool, links: seq<GeneratedLink>, message: string) returns (reload: Option<string>)
      modifies this`generatedLinks, this`showGenerateModal, this`showLinksModal, this`isLoading, this`error
      modifies this`toasts, this`isGenerating
      ensures !isGenerating
      ensures success ==>
        generatedLinks == links && !showGenerateModal && showLinksModal && isLoading && error == ""
        && reload == Some(recordId) && toasts == old(toasts) + [Toast("Success", message, "success")]
      ensures !success ==>
        generatedLinks == old(generatedLinks) && showGenerateModal == old(showGenerateModal)
        && showLinksModal == old(showLinksModal) && isLoading == old(isLoading) && error == old(error)
        && reload.None? && toasts == old(toasts) + [Toast("Error", message, "error")]
    {
      if success {
        generatedLinks, showGenerateModal, showLinksModal := links, false, true;
        var surveyId := LoadInvitations();
        reload := Some(surveyId);
        toasts := toasts + [Toast("Success", message, "success")];
      } else {
        toasts := toasts + [Toast("Error", message, "error")];
        reload := None;
      }
      isGenerating := false;
    }

    method GenerateFailed(f: Fault)
      modifies this`toasts, this`isGenerating
      ensures !isGenerating
      ensures toasts == old(toasts) + [Toast("Error", Or(BodyMessage(f), "Error generating links"), "error")]
    {
      toasts := toasts + [Toast("Error", Or(BodyMessage(f), "Error generating links"), "error")];
      isGenerating := false;
    }

    /** Closing the links modal forgets the generated links. */
    method HandleCloseLinksModal()
      modifies this`showLinksModal, this`generatedLinks
      ensures !showLinksModal && generatedLinks == []
    {
      showLinksModal, generatedLinks := false, [];
    }

    /**
     * `copyToClipboard`: without a clipboard an error toast at once;
     * otherwise the text to write.
     */
    method CopyToClipboard(text: string, clipboardAvailable: bool) returns (write: Option<string>)
      modifies this`toasts
      ensures clipboardAvailable ==> write == Some(text) && toasts == old(toasts)
      ensures !clipboardAvailable ==>
        write.None? && toasts == old(toasts) + [Toast("Error", "Clipboard not supported in this browser", "error")]
    {
      if clipboardAvailable {
        write := Some(text);
      } else {
        toasts := toasts + [Toast("Error", "Clipboard not supported in this browser", "error")];
        write := None;
      }
    }

    /** The clipboard write settles: a failure is always reported, a success only when asked for. */
    method ClipboardSettled(ok: bool, showSuccessToast: bool)
      modifies this`toasts
      ensures ok && showSuccessToast ==> toasts == old(toasts) + [Toast("Success", "All links copied to clipboard", "success")]
      ensures ok && !showSuccessToast ==> toasts == old(toasts)
      ensures !ok ==> toasts == old(toasts) + [Toast("Error", "Failed to copy to clipboard. Please copy manually.", "error")]
    {
      if ok {
        if showSuccessToast {
          toasts := toasts + [Toast("Success", "All links copied to clipboard", "success")];
        }
      } else {
        toasts := toasts + [Toast("Error", "Failed to copy to clipboard. Please copy manually.", "error")];
      }
    }

    /**
     * Copy one link (`handleCopyLink`, and the `copy` row action): the
     * success toast follows at once, whatever the clipboard later does.
     */
    method HandleCopyLink(url: string, clipboardAvailable: bool) returns (write: Option<string>)
      modifies this`toasts
      ensures clipboardAvailable ==>
        write == Some(url) && toasts == old(toasts) + [Toast("Success", "Link copied to clipboard", "success")]
      ensures !clipboardAvailable ==>
        write.None? && toasts == old(toasts) + [Toast("Error", "Clipboard not supported in this browser", "error"),
                                  Toast("Success", "Link copied to clipboard", "success")]
    {
      write := CopyToClipboard(url, clipboardAvailable);
      toasts := toasts + [Toast("Success", "Link copied to clipboard", "success")];
    }

    /** Only the `copy` row action copies its row's link. */
    method HandleRowAction(actionName: string, url: string, clipboardAvailable: bool) returns (write: Option<string>)
      modifies this`toasts
      ensures actionName != "copy" ==> write.None? && toasts == old(toasts)
      ensures actionName == "copy" && clipboardAvailable ==>
        write == Some(url) && toasts == old(toasts) + [Toast("Success", "Link copied to clipboard", "success")]
      ensures actionName == "copy" && !clipboardAvailable ==>
        write.None? && toasts == old(toasts) + [Toast("Error", "Clipboard not supported in this browser", "error"),
                                  Toast("Success", "Link copied to clipboard", "success")]
    {
      if actionName == "copy" {
        write := HandleCopyLink(url, clipboardAvailable);
      } else {
        write := None;
      }
    }

    /** Copy every generated link, one per line. */
    method HandleCopyAllLinks(clipboardAvailable: bool) returns (write: Option<string>)
      modifies this`toasts
      ensures clipboardAvailable ==> write == Some(CopyAllText(generatedLinks)) && toasts == old(toasts)
      ensures !clipboardAvailable ==>
        write.None? && toasts == old(toasts) + [Toast("Error", "Clipboard not supported in this browser", "error")]
    {
      write := CopyToClipboard(CopyAllText(generatedLinks), clipboardAvailable);
    }
  }
}

=== FILE: legacy_taker.dfy ===
/**
 * The older, single-page survey taker (`force-app-lwc` `surveyTaker`
 * component): every visible question on one page, answers kept in a `Map`
 * from question id to entry, one required-answer check on submit, and every
 * stored entry submitted as it stands.
 */
module LegacyTaker {
  import opened Common
  import opened Questions
  import opened ResponseStore
  import T = SurveyTaker

  const UNEXPECTED_ERROR: string := "An unexpected error occurred"
  const ANONYMOUS: string := "Anonymous"
  const IDENTIFIED: string := "User"

  /** The toast a submission with unanswered required questions shows. */
  const MISSING_TOAST: Toast := Toast("Error", "Please answer all required questions", "error")

  /** `data.survey`: `Name`, `Survey_Header__c`, `Hide_Survey_Name__c`, `All_Responses_Anonymous__c`. */
  datatype LegacySurvey = LegacySurvey(name: string, header: string, hideName: bool, allAnonymous: bool)

  /** What `getSurveyData` resolves with. */
  datatype LegacyPayload = LegacyPayload(survey: LegacySurvey, questions: seq<Question>, isInternal: bool)

  /**
   * `getErrorMessage`: `body.message`, else `message`, else the error itself
   * when it is a string, else the fixed fallback.
   */
  function ErrorMessage(f: Fault): (r: string)
    ensures BodyMessage(f) != "" ==> r == BodyMessage(f)
    ensures BodyMessage(f) == "" && MessageOf(f) != "" ==> r == MessageOf(f)
    ensures f.ErrorText? ==> r == f.text
    ensures f.ErrorObject? && f.bodyMessage == "" && f.message == "" ==> r == UNEXPECTED_ERROR
  {
    match f
    case ErrorObject(body, message) => if body != "" then body else if message != "" then message else UNEXPECTED_ERROR
    case ErrorText(text) => text
  }

  /** The anonymity defaults a load sets: a choice, starting identified, only for internal users on a survey that is not all-anonymous. */
  function AnonymityDefaults(isInternal: bool, allAnonymous: bool): (r: (bool, string))
    ensures r.0 <==> isInternal && !allAnonymous
    ensures r.1 == (if r.0 then IDENTIFIED else ANONYMOUS)
  {
    if isInternal && !allAnonymous then (true, IDENTIFIED) else (false, ANONYMOUS)
  }

  /** The visible required questions of `qs` whose entry has neither text nor a checked value, in order. */
  function MissingRequired(qs: seq<Question>, store: Store): (r: seq<Question>)
    ensures |r| <= |qs|
  {
    if qs == [] then []
    else
      (if qs[0].required && !T.StepAnswered(Get(store, qs[0].id)) then [qs[0]] else [])
      + MissingRequired(qs[1..], store)
  }

  /** A question is missing exactly when it is required and unanswered. */
  lemma {:induction false} MissingMembers(qs: seq<Question>, store: Store)
    ensures forall q :: q in MissingRequired(qs, store) <==> q in qs && q.required && !T.StepAnswered(Get(store, q.id))
  {
    if qs != [] {
      MissingMembers(qs[1..], store);
      assert forall q :: q in qs <==> q == qs[0] || q in qs[1..];
    }
  }

  /**
   * Nothing is missing exactly when every visible required question is
   * answered: the submit check of this component and the per-step check of
   * the newer taker accept the same answers.
   */
  lemma NothingMissingIffAllAnswered(qs: seq<Question>, store: Store)
    ensures MissingRequired(VisibleQuestions(qs), store) == [] <==> T.AllRequiredAnswered(qs, store)
  {
    MissingMembers(VisibleQuestions(qs), store);
    if MissingRequired(VisibleQuestions(qs), store) != [] {
      assert MissingRequired(VisibleQuestions(qs), store)[0] in MissingRequired(VisibleQuestions(qs), store);
    }
  }

  /** The loop of `handleSubmit` that collects the required questions without an answer. */
  method CollectMissing(visible: seq<Question>, store: Store) returns (missing: seq<Question>)
    ensures missing == MissingRequired(visible, store)
  {
    missing := [];
    var i := |visible|;
    while i > 0
      invariant 0 <= i <= |visible|
      invariant missing == MissingRequired(visible[i..], store)
    {
      i := i - 1;
      var q := visible[i];
      assert visible[i..][1..] == visible[i + 1..];
      if q.required && !T.StepAnswered(Get(store, q.id)) {
        missing := [q] + missing;
      }
    }
  }

  class LegacyTaker {
    var recordId: string
    var caseId: string
    var contactId: string
    var surveyName: string
    var surveyHeader: string
    var showSurveyName: bool
    var questions: seq<Question>
    var visibleQuestions: seq<Question>
    var thankYouText: string
    var isLoading: bool
    var isSubmitting: bool
    var isSubmitted: bool
    var error: string
    /** The `Map`, in key-insertion order. */
    var responses: Store
    var canChooseAnonymous: bool
    var anonymousValue: string
    var toasts: seq<Toast>

    predicate Valid()
      reads this`responses
    {
      Keyed(responses)
    }

    constructor (recordId: string, caseId: string, contactId: string)
      ensures Valid()
      ensures this.recordId == recordId && this.caseId == caseId && this.contactId == contactId
      ensures isLoading && !isSubmitting && !isSubmitted && error == ""
      ensures questions == [] && visibleQuestions == [] && responses == [] && toasts == []
      ensures !canChooseAnonymous && anonymousValue == IDENTIFIED && showSurveyName
    {
      this.recordId, this.caseId, this.contactId := recordId, caseId, contactId;
      surveyName, surveyHeader, showSurveyName := "", "", true;
      questions, visibleQuestions, thankYouText := [], [], "";
      isLoading, isSubmitting, isSubmitted, error := true, false, false, "";
      responses, canChooseAnonymous, anonymousValue, toasts := [], false, IDENTIFIED, [];
    }

    /** `loadSurvey`: start the read for this survey. */
    method LoadSurvey() returns (request: T.LoadRequest)
      modifies this`isLoading, this`error
      ensures isLoading && error == ""
      ensures request == T.LoadByIdentity(recordId, caseId, contactId)
    {
      isLoading := true;
      error := "";
      request := T.LoadByIdentity(recordId, caseId, contactId);
    }

    /**
     * The read resolves: take the survey texts and questions, keep the
     * visible ones, and set the anonymity defaults. Answers already stored
     * are kept.
     */
    method LoadSucceeded(data: LegacyPayload)
      modifies this`surveyName, this`surveyHeader, this`showSurveyName, this`questions
      modifies this`visibleQuestions, this`canChooseAnonymous, this`anonymousValue, this`isLoading
      ensures surveyName == data.survey.name && surveyHeader == data.survey.header
      ensures showSurveyName == !data.survey.hideName
      ensures questions == data.questions && visibleQuestions == VisibleQuestions(data.questions)
      ensures canChooseAnonymous <==> data.isInternal && !data.survey.allAnonymous
      ensures anonymousValue == (if canChooseAnonymous then IDENTIFIED else ANONYMOUS)
      ensures !isLoading
    {
      surveyName, surveyHeader, showSurveyName := data.survey.name, data.survey.header, !data.survey.hideName;
      questions := data.questions;
      visibleQuestions := VisibleQuestions(data.questions);
      var defaults := AnonymityDefaults(data.isInternal, data.survey.allAnonymous);
      canChooseAnonymous, anonymousValue := defaults.0, defaults.1;
      isLoading := false;
    }

    method LoadFailed(fault: Fault)
      modifies this`error, this`isLoading
      ensures error == ErrorMessage(fault) && !isLoading
    {
      error := ErrorMessage(fault);
      isLoading := false;
    }

    /**
     * Create the entry `{ response: '', responses: [] }` on the first change
     * for a question; a Multi-Select change toggles the value in its list,
     * any other change overwrites its text.
     */
    method HandleResponseChange(detail: ResponseDetail)
      requires Valid()
      modifies this`responses
      ensures Valid()
      ensures detail.questionType == MULTI_SELECT_VERTICAL ==>
        responses == ToggleAnswer(old(responses), detail.questionId, detail.value, detail.checked)
      ensures detail.questionType != MULTI_SELECT_VERTICAL ==>
        responses == SetAnswer(old(responses), detail.questionId, detail.value, Some([]))
    {
      if detail.questionType == MULTI_SELECT_VERTICAL {
        responses := ToggleAnswer(responses, detail.questionId, detail.value, detail.checked);
      } else {
        responses := SetAnswer(responses, detail.questionId, detail.value, Some([]));
      }
    }

    method HandleAnonymousChange(value: string)
      modifies this`anonymousValue
      ensures anonymousValue == value
    {
      anonymousValue := value;
    }

    /**
     * Refuse with one toast when a visible required question is unanswered;
     * otherwise mark the survey as submitting and send every stored entry.
     */
    method HandleSubmit() returns (request: Option<T.SubmitRequest>)
      modifies this`toasts, this`isSubmitting
      ensures request.None? <==> MissingRequired(visibleQuestions, responses) != []
      ensures request.None? ==> toasts == old(toasts) + [MISSING_TOAST] && isSubmitting == old(isSubmitting)
      ensures request.Some? ==> toasts == old(toasts) && isSubmitting
      ensures request.Some? ==>
        request.value == T.SubmitResponses(recordId, responses, caseId, contactId, anonymousValue == ANONYMOUS)
    {
      var missing := CollectMissing(visibleQuestions, responses);
      if |missing| > 0 {
        toasts := toasts + [MISSING_TOAST];
        return None;
      }
      isSubmitting := true;
      request := Some(T.SubmitResponses(recordId, responses, caseId, contactId, anonymousValue == ANONYMOUS));
    }

    /**
     * The submission settles. Success keeps `isSubmitting` set (the form
     * stays locked); a refusal or a rejection clears it.
     */
    method CompleteSubmit(outcome: T.SubmitOutcome)
      modifies this`isSubmitted, this`thankYouText, this`toasts, this`isSubmitting
      ensures outcome.Submitted? && outcome.success ==>
        isSubmitted && thankYouText == outcome.thankYouText && isSubmitting == old(isSubmitting)
        && toasts == old(toasts) + [Toast("Success", outcome.message, "success")]
      ensures outcome.Submitted? && !outcome.success ==>
        isSubmitted == old(isSubmitted) && thankYouText == old(thankYouText) && !isSubmitting
        && toasts == old(toasts) + [Toast("Error", outcome.message, "error")]
      ensures outcome.SubmitFailed? ==>
        isSubmitted == old(isSubmitted) && thankYouText == old(thankYouText) && !isSubmitting
        && toasts == old(toasts) + [Toast("Error", ErrorMessage(outcome.fault), "error")]
    {
      match outcome {
        case Submitted(success, text, message) =>
          if success {
            isSubmitted := true;
            thankYouText := text;
            toasts := toasts + [Toast("Success", message, "success")];
          } else {
            toasts := toasts + [Toast("Error", message, "error")];
            isSubmitting := false;
          }
        case SubmitFailed(f) =>
          toasts := toasts + [Toast("Error", ErrorMessage(f), "error")];
          isSubmitting := false;
      }
    }
  }
}

=== FILE: questions.dfy ===
/**
 * The question record the survey-taking components receive from the remote
 * layer, the four question-type strings of surveyConstants.js, and the event
 * detail a question component sends to its parent.
 */
module Questions {
  import opened Common

  const FREE_TEXT: string := "Free Text"
  const SINGLE_SELECT_VERTICAL: string := "Single Select--Vertical"
  const SINGLE_SELECT_HORIZONTAL: string := "Single Select--Horizontal"
  const MULTI_SELECT_VERTICAL: string := "Multi-Select--Vertical"

  /** One choice of a select question; `text` is its `label`, `checked` the checkbox projection. */
  datatype Choice = Choice(text: string, value: string, checked: bool)

  /**
   * A question as loaded. A missing `questionType` is `""`; a missing
   * `choices` list is `[]`.
   */
  datatype Question = Question(
    id: string,
    orderNumber: int,
    question: string,
    questionType: string,
    required: bool,
    choices: seq<Choice>,
    hideOnSurvey: bool)

  /** The `detail` of the `responsechange` event. */
  datatype ResponseDetail = ResponseDetail(questionId: string, value: string, checked: bool, questionType: string)

  /** `questions.filter((q) => !q.hideOnSurvey)`. */
  function VisibleQuestions(qs: seq<Question>): (r: seq<Question>)
    ensures |r| <= |qs|
  {
    if qs == [] then [] else (if qs[0].hideOnSurvey then [] else [qs[0]]) + VisibleQuestions(qs[1..])
  }

  /** A question is visible exactly when it was loaded and is not hidden. */
  lemma {:induction false} VisibleMembers(qs: seq<Question>)
    ensures forall q :: q in VisibleQuestions(qs) <==> q in qs && !q.hideOnSurvey
  {
    if qs != [] {
      VisibleMembers(qs[1..]);
      assert forall q :: q in qs <==> q == qs[0] || q in qs[1..];
    }
  }

  /** The visible questions keep the order they were loaded in. */
  lemma {:induction false} VisibleInOrder(qs: seq<Question>)
    ensures IsSubsequence(VisibleQuestions(qs), qs)
  {
    if qs != [] {
      VisibleInOrder(qs[1..]);
      var rest := VisibleQuestions(qs[1..]);
      if !qs[0].hideOnSurvey {
        assert ([qs[0]] + rest)[1..] == rest;
      } else {
        assert VisibleQuestions(qs) == rest;
      }
    }
  }

  /** Position in `qs` of the `k`-th visible question (the object `visible[k]` refers to). */
  function VisiblePosition(qs: seq<Question>, k: nat): (p: nat)
    requires k < |VisibleQuestions(qs)|
    ensures p < |qs| && qs[p] == VisibleQuestions(qs)[k]
    decreases |qs|
  {
    if qs[0].hideOnSurvey then 1 + VisiblePosition(qs[1..], k)
    else if k == 0 then 0
    else 1 + VisiblePosition(qs[1..], k - 1)
  }

  /** Changing anything but the hidden flags keeps the number of visible questions. */
  lemma {:induction false} VisibleCountKept(qs: seq<Question>, qs': seq<Question>)
    requires |qs| == |qs'|
    requires forall i :: 0 <= i < |qs| ==> qs[i].hideOnSurvey == qs'[i].hideOnSurvey
    ensures |VisibleQuestions(qs)| == |VisibleQuestions(qs')|
  {
    if qs != [] {
      VisibleCountKept(qs[1..], qs'[1..]);
    }
  }

  /** `choice.checked = false` for every choice. */
  function UncheckAll(cs: seq<Choice>): (r: seq<Choice>)
    ensures |r| == |cs|
    ensures forall i :: 0 <= i < |cs| ==> r[i] == cs[i].(checked := false)
  {
    if cs == [] then [] else [cs[0].(checked := false)] + UncheckAll(cs[1..])
  }

  /**
   * What `initializeResponses` does to a question object: a Multi-Select
   * question has every choice unchecked, any other question is left alone.
   */
  function ResetChoices(q: Question): (r: Question)
    ensures r.id == q.id && r.questionType == q.questionType && r.hideOnSurvey == q.hideOnSurvey
    ensures r.required == q.required && |r.choices| == |q.choices|
    ensures q.questionType == MULTI_SELECT_VERTICAL ==> forall c :: c in r.choices ==> !c.checked
    ensures q.questionType != MULTI_SELECT_VERTICAL ==> r == q
  {
    if q.questionType == MULTI_SELECT_VERTICAL then q.(choices := UncheckAll(q.choices)) else q
  }

  /** `ResetChoices` on every question, in place. */
  function ResetQuestions(qs: seq<Question>): (r: seq<Question>)
    ensures |r| == |qs|
    ensures forall i :: 0 <= i < |qs| ==> r[i] == ResetChoices(qs[i])
  {
    if qs == [] then [] else [ResetChoices(qs[0])] + ResetQuestions(qs[1..])
  }

  /** `choices.find((c) => c.value === value)` then `choice.checked = checked`. */
  function MarkChoice(cs: seq<Choice>, value: string, checked: bool): (r: seq<Choice>)
    ensures |r| == |cs|
    ensures forall i :: 0 <= i < |cs| ==> r[i].text == cs[i].text && r[i].value == cs[i].value
    ensures forall i :: 0 <= i < |cs| && (forall j :: 0 <= j < i ==> cs[j].value != value) && cs[i].value == value
              ==> r[i].checked == checked
    ensures forall i :: 0 <= i < |cs| && (cs[i].value != value || exists j :: 0 <= j < i && cs[j].value == value)
              ==> r[i] == cs[i]
  {
    if cs == [] then []
    else if cs[0].value == value then [cs[0].(checked := checked)] + cs[1..]
    else [cs[0]] + MarkChoice(cs[1..], value, checked)
  }
}

=== FILE: regeneration.dfy ===
/**
 * The survey-link regeneration page (`surveyRegeneration` component): pick
 * training-request records one at a time, choose which survey types to
 * regenerate and, optionally, custom object and field API names, confirm,
 * and send one regeneration request.
 */
module Regeneration {
  import opened Common

  const TRAINING_REQUEST: string := "Training_Request__c"

  /** A picked record: `name` falls back to the id. */
  datatype RecordRef = RecordRef(id: string, name: string)

  /** Which of the three survey links to regenerate. */
  datatype SurveyTypes = SurveyTypes(participant: bool, customer: bool, trainer: bool)

  /** The five configurable API names. */
  datatype ApiNames = ApiNames(
    objectName: string,
    participantField: string,
    customerField: string,
    trainerField: string,
    trainingTypeField: string)

  const DEFAULT_API_NAMES: ApiNames :=
    ApiNames(TRAINING_REQUEST, "Participant_Survey__c", "Customer_Survey__c", "Trainer_Survey__c", "Training_Type__c")

  const ALL_TYPES: SurveyTypes := SurveyTypes(true, true, true)

  /**
   * The request sent to `regenerateSurveyLinks`; `apiNames` is `None` when
   * all five API-name fields are sent as `null`.
   */
  datatype RegenerationRequest = RegenerationRequest(ids: seq<string>, types: SurveyTypes, apiNames: Option<ApiNames>)

  /** One result of the call, and the summary the page shows. */
  datatype RunSummary = RunSummary(
    success: bool,
    message: string,
    totalProcessed: int,
    totalSuccess: int,
    totalFailed: int,
    participantLinks: int,
    customerLinks: int,
    trainerLinks: int,
    errorDetails: string)

  const EMPTY_SUMMARY: RunSummary := RunSummary(false, "", 0, 0, 0, 0, 0, 0, "")

  const NOT_READY_MESSAGE: string :=
    "Please select records, choose at least one survey type, and complete the required configuration."

  // ---------------------------------------------------------------------
  // The proceed predicate and its parts
  // ---------------------------------------------------------------------

  /** `value && value.trim().length > 0`. */
  predicate HasText(value: string) {
    !IsBlank(value)
  }

  predicate AnyTypeSelected(types: SurveyTypes) {
    types.participant || types.customer || types.trainer
  }

  predicate HasObjectApiName(useCustomSettings: bool, names: ApiNames) {
    !useCustomSettings || HasText(names.objectName)
  }

  /** Each selected type has a field name, when custom settings are on. */
  predicate HasRequiredFieldConfig(useCustomSettings: bool, types: SurveyTypes, names: ApiNames) {
    !useCustomSettings
    || ((!types.participant || HasText(names.participantField))
        && (!types.customer || HasText(names.customerField))
        && (!types.trainer || HasText(names.trainerField)))
  }

  predicate CanProceed(selected: seq<RecordRef>, types: SurveyTypes, useCustomSettings: bool, names: ApiNames, isLoading: bool) {
    |selected| > 0 && AnyTypeSelected(types) && HasObjectApiName(useCustomSettings, names)
    && HasRequiredFieldConfig(useCustomSettings, types, names) && !isLoading
  }

  /** Without custom settings only the selection, the types and the loading flag matter. */
  lemma DefaultSettingsNeedNoConfig(selected: seq<RecordRef>, types: SurveyTypes, names: ApiNames, isLoading: bool)
    ensures CanProceed(selected, types, false, names, isLoading) <==>
      |selected| > 0 && AnyTypeSelected(types) && !isLoading
  {
  }

  /** The default API names satisfy the configuration checks even with custom settings on. */
  lemma DefaultNamesAreConfigured(types: SurveyTypes)
    ensures HasObjectApiName(true, DEFAULT_API_NAMES)
    ensures HasRequiredFieldConfig(true, types, DEFAULT_API_NAMES)
  {
    assert !IsSpace(DEFAULT_API_NAMES.objectName[0]);
    assert !IsSpace(DEFAULT_API_NAMES.participantField[0]);
    assert !IsSpace(DEFAULT_API_NAMES.customerField[0]);
    assert !IsSpace(DEFAULT_API_NAMES.trainerField[0]);
  }

  /** `isTrainingRequestObject`: always with default settings, else when the trimmed object name is the training request. */
  predicate IsTrainingRequestObject(useCustomSettings: bool, objectName: string) {
    !useCustomSettings || Trim(objectName) == TRAINING_REQUEST
  }

  /** `recordPickerObjectApiName`: the trimmed custom object name when there is one, else the training request. */
  function RecordPickerObjectApiName(useCustomSettings: bool, objectName: string): (r: string)
    ensures !useCustomSettings || IsBlank(objectName) ==> r == TRAINING_REQUEST
    ensures useCustomSettings && !IsBlank(objectName) ==> r == Trim(objectName) && !IsBlank(r)
  {
    if !useCustomSettings then TRAINING_REQUEST
    else if HasText(objectName) then
      BlankIffTrimEmpty(objectName);
      Trim(objectName)
    else TRAINING_REQUEST
  }

  /** The picker shows the training request exactly when the participant type is allowed (for a non-blank name). */
  lemma PickerAgreesWithParticipantSwitch(useCustomSettings: bool, objectName: string)
    requires !IsBlank(objectName)
    ensures RecordPickerObjectApiName(useCustomSettings, objectName) == TRAINING_REQUEST
      <==> IsTrainingRequestObject(useCustomSettings, objectName)
  {
  }

  // ---------------------------------------------------------------------
  // The selection
  // ---------------------------------------------------------------------

  /** `records.some((r) => r.id === id)`. */
  predicate HasId(records: seq<RecordRef>, id: string) {
    exists i :: 0 <= i < |records| && records[i].id == id
  }

  /** No two selected records share an id. */
  predicate UniqueIds(records: seq<RecordRef>) {
    forall i, j :: 0 <= i < j < |records| ==> records[i].id != records[j].id
  }

  /** `records.filter((r) => r.id !== id)`. */
  function WithoutId(records: seq<RecordRef>, id: string): (r: seq<RecordRef>)
    ensures |r| <= |records|
  {
    if records == [] then []
    else (if records[0].id == id then [] else [records[0]]) + WithoutId(records[1..], id)
  }

  /** Removing an id keeps exactly the other records. */
  lemma {:induction false} WithoutIdMembers(records: seq<RecordRef>, id: string)
    ensures forall x :: x in WithoutId(records, id) <==> x in records && x.id != id
  {
    if records != [] {
      WithoutIdMembers(records[1..], id);
      assert forall x :: x in records <==> x == records[0] || x in records[1..];
    }
  }

  /** Removing an id keeps the order of the other records. */
  lemma {:induction false} WithoutIdInOrder(records: seq<RecordRef>, id: string)
    ensures IsSubsequence(WithoutId(records, id), records)
  {
    if records != [] {
      WithoutIdInOrder(records[1..], id);
      var rest := WithoutId(records[1..], id);
      if records[0].id != id {
        assert ([records[0]] + rest)[1..] == rest;
      } else {
        assert WithoutId(records, id) == rest;
      }
    }
  }

  /** A sub-list of a list without repeated ids has none either. */
  lemma {:induction false} SubsequenceKeepsUnique(a: seq<RecordRef>, b: seq<RecordRef>)
    requires IsSubsequence(a, b) && UniqueIds(b)
    ensures UniqueIds(a)
    ensures forall x :: x in a ==> x in b
    decreases |b|
  {
    if a != [] {
      if a[0] == b[0] && IsSubsequence(a[1..], b[1..]) {
        SubsequenceKeepsUnique(a[1..], b[1..]);
        forall j | 0 < j < |a|
          ensures a[0].id != a[j].id
        {
          assert a[1..][j - 1] in b[1..];
          var k :| 0 <= k < |b[1..]| && b[1..][k] == a[j];
          assert b[k + 1] == a[j];
        }
        assert forall x :: x in a ==> x == a[0] || x in a[1..];
      } else {
        SubsequenceKeepsUnique(a, b[1..]);
      }
    }
  }

  /** After a removal the id is gone and no id is repeated. */
  lemma WithoutIdKeepsUnique(records: seq<RecordRef>, id: string)
    requires UniqueIds(records)
    ensures UniqueIds(WithoutId(records, id))
    ensures !HasId(WithoutId(records, id), id)
  {
    WithoutIdInOrder(records, id);
    SubsequenceKeepsUnique(WithoutId(records, id), records);
    WithoutIdMembers(records, id);
    var r := WithoutId(records, id);
    forall i | 0 <= i < |r|
      ensures r[i].id != id
    {
      assert r[i] in r;
    }
  }

  /** Appending a record whose id is new keeps the ids unique. */
  lemma AppendKeepsUnique(records: seq<RecordRef>, x: RecordRef)
    requires UniqueIds(records) && !HasId(records, x.id)
    ensures UniqueIds(records + [x])
  {
  }

  /** `selectedRecords.map((r) => r.id)`. */
  function IdsOf(records: seq<RecordRef>): (r: seq<string>)
    ensures |r| == |records|
    ensures forall i :: 0 <= i < |records| ==> r[i] == records[i].id
  {
    if records == [] then [] else [records[0].id] + IdsOf(records[1..])
  }

  /** The request: the selected ids in order, and the API names only with custom settings. */
  function RequestFor(selected: seq<RecordRef>, types: SurveyTypes, useCustomSettings: bool, names: ApiNames)
    : (r: RegenerationRequest)
    ensures r.ids == IdsOf(selected) && r.types == types
    ensures r.apiNames.Some? <==> useCustomSettings
    ensures useCustomSettings ==> r.apiNames.value == names
  {
    RegenerationRequest(IdsOf(selected), types, if useCustomSettings then Some(names) else None)
  }

  /** A request built from a unique selection names each record once. */
  lemma RequestIdsDistinct(selected: seq<RecordRef>, types: SurveyTypes, useCustomSettings: bool, names: ApiNames)
    requires UniqueIds(selected)
    ensures Distinct(RequestFor(selected, types, useCustomSettings, names).ids)
  {
  }

  /** `error.body?.message || error.message || 'Unknown error'`. */
  function FailureDetails(f: Fault): (r: string)
    ensures BodyMessage(f) != "" ==> r == BodyMessage(f)
    ensures BodyMessage(f) == "" && MessageOf(f) != "" ==> r == MessageOf(f)
    ensures BodyMessage(f) == "" && MessageOf(f) == "" ==> r == "Unknown error"
  {
    Or(BodyMessage(f), Or(MessageOf(f), "Unknown error"))
  }

  class SurveyRegeneration {
    var selectedRecords: seq<RecordRef>
    var pendingRecord: Option<RecordRef>
    /** `""` for `null`. */
    var recordPickerValue: string
    var types: SurveyTypes
    var useCustomSettings: bool
    var apiNames: ApiNames
    var isLoading: bool
    var showConfirmation: bool
    var showResults: bool
    var summary: RunSummary
    var toasts: seq<Toast>

    predicate Valid()
      reads this`selectedRecords
    {
      UniqueIds(selectedRecords)
    }

    constructor ()
      ensures Valid()
      ensures selectedRecords == [] && pendingRecord.None? && recordPickerValue == ""
      ensures types == ALL_TYPES && !useCustomSettings && apiNames == DEFAULT_API_NAMES
      ensures !isLoading && !showConfirmation && !showResults && summary == EMPTY_SUMMARY && toasts == []
    {
      selectedRecords, pendingRecord, recordPickerValue := [], None, "";
      types, useCustomSettings, apiNames := ALL_TYPES, false, DEFAULT_API_NAMES;
      isLoading, showConfirmation, showResults := false, false, false;
      summary, toasts := EMPTY_SUMMARY, [];
    }

    /** The picker's selection becomes the pending record (named by its id when it has no name). */
    method HandleRecordPickerChange(recordId: string, recordName: string)
      modifies this`pendingRecord, this`recordPickerValue
      ensures recordId != "" ==> pendingRecord == Some(RecordRef(recordId, Or(recordName, recordId)))
      ensures recordId == "" ==> pendingRecord.None?
      ensures recordPickerValue == recordId
    {
      if recordId != "" {
        pendingRecord := Some(RecordRef(recordId, Or(recordName, recordId)));
      } else {
        pendingRecord := None;
      }
      recordPickerValue := recordId;
    }

    /** Add the pending record unless its id is already selected (then only an info toast). */
    method HandleAddRecord()
      requires Valid()
      modifies this`selectedRecords, this`pendingRecord, this`recordPickerValue, this`toasts
      ensures Valid()
      ensures old(pendingRecord).None? ==>
        selectedRecords == old(selectedRecords) && pendingRecord.None? && recordPickerValue == old(recordPickerValue)
        && toasts == old(toasts)
      ensures old(pendingRecord).Some? && HasId(old(selectedRecords), old(pendingRecord).value.id) ==>
        selectedRecords == old(selectedRecords) && pendingRecord == old(pendingRecord)
        && recordPickerValue == old(recordPickerValue)
        && toasts == old(toasts) + [Toast("Info", "That record is already in the list.", "info")]
      ensures old(pendingRecord).Some? && !HasId(old(selectedRecords), old(pendingRecord).value.id) ==>
        selectedRecords == old(selectedRecords) + [old(pendingRecord).value]
        && pendingRecord.None? && recordPickerValue == "" && toasts == old(toasts)
    {
      if pendingRecord.None? {
        return;
      }
      var record := pendingRecord.value;
      if HasId(selectedRecords, record.id) {
        toasts := toasts + [Toast("Info", "That record is already in the list.", "info")];
        return;
      }
      AppendKeepsUnique(selectedRecords, record);
      selectedRecords := selectedRecords + [record];
      pendingRecord, recordPickerValue := None, "";
    }

    /** The `remove` row action drops the records with that id; any other action does nothing. */
    method HandleRowAction(actionName: string, rowId: string)
      requires Valid()
      modifies this`selectedRecords
      ensures Valid()
      ensures actionName == "remove" ==> selectedRecords == WithoutId(old(selectedRecords), rowId)
      ensures actionName != "remove" ==> selectedRecords == old(selectedRecords)
    {
      if actionName != "remove" {
        return;
      }
      WithoutIdKeepsUnique(selectedRecords, rowId);
      selectedRecords := WithoutId(selectedRecords, rowId);
    }

    method HandleClearAll()
      modifies this`selectedRecords, this`pendingRecord, this`recordPickerValue
      ensures Valid()
      ensures selectedRecords == [] && pendingRecord.None? && recordPickerValue == ""
    {
      selectedRecords, pendingRecord, recordPickerValue := [], None, "";
    }

    /**
     * Turning custom settings off restores the default names, re-enables the
     * participant type and clears the selection; turning them on disables the
     * participant type when the object is not the training request.
     */
    method HandleCustomSettingsToggle(checked: bool)
      requires Valid()
      modifies this`useCustomSettings, this`apiNames, this`types
      modifies this`selectedRecords, this`pendingRecord, this`recordPickerValue
      ensures Valid()
      ensures useCustomSettings == checked
      ensures !checked ==>
        apiNames == DEFAULT_API_NAMES && types == old(types).(participant := true)
        && selectedRecords == [] && pendingRecord.None? && recordPickerValue == ""
      ensures checked ==>
        apiNames == old(apiNames) && selectedRecords == old(selectedRecords)
        && pendingRecord == old(pendingRecord) && recordPickerValue == old(recordPickerValue)
        && types == (if IsTrainingRequestObject(true, apiNames.objectName) then old(types) else old(types).(participant := false))
    {
      useCustomSettings := checked;
      if !checked {
        apiNames := DEFAULT_API_NAMES;
        types := types.(participant := true);
        HandleClearAll();
      } else if !IsTrainingRequestObject(true, apiNames.objectName) {
        types := types.(participant := false);
      }
    }

    /** A new object name always clears the selection, and turns the participant type off unless it allows it. */
    method HandleObjectApiNameChange(value: string)
      modifies this`apiNames, this`types, this`selectedRecords, this`pendingRecord, this`recordPickerValue
      ensures Valid()
      ensures apiNames == old(apiNames).(objectName := value)
      ensures types == (if IsTrainingRequestObject(useCustomSettings, value) then old(types) else old(types).(participant := false))
      ensures selectedRecords == [] && pendingRecord.None? && recordPickerValue == ""
    {
      var allowed := IsTrainingRequestObject(useCustomSettings, value);
      apiNames := apiNames.(objectName := value);
      if !allowed {
        types := types.(participant := false);
      }
      selectedRecords, pendingRecord, recordPickerValue := [], None, "";
    }

    /** Show the confirmation only when the page can proceed; otherwise one error toast. */
    method HandleNext()
      modifies this`showConfirmation, this`toasts
      ensures CanProceed(selectedRecords, types, useCustomSettings, apiNames, isLoading) ==>
        showConfirmation && toasts == old(toasts)
      ensures !CanProceed(selectedRecords, types, useCustomSettings, apiNames, isLoading) ==>
        showConfirmation == old(showConfirmation) && toasts == old(toasts) + [Toast("Error", NOT_READY_MESSAGE, "error")]
    {
      if !CanProceed(selectedRecords, types, useCustomSettings, apiNames, isLoading) {
        toasts := toasts + [Toast("Error", NOT_READY_MESSAGE, "error")];
        return;
      }
      showConfirmation := true;
    }

    method HandleBack()
      modifies this`showConfirmation
      ensures !showConfirmation
    {
      showConfirmation := false;
    }

    /** Back to the initial choices; the run counts and the loading flag are kept. */
    method HandleReset()
      modifies this`selectedRecords, this`pendingRecord, this`recordPickerValue, this`types, this`useCustomSettings
      modifies this`apiNames, this`showConfirmation, this`showResults, this`summary
      ensures Valid()
      ensures selectedRecords == [] && pendingRecord.None? && recordPickerValue == ""
      ensures types == ALL_TYPES && !useCustomSettings && apiNames == DEFAULT_API_NAMES
      ensures !showConfirmation && !showResults
      ensures summary == old(summary).(success := false, message := "", errorDetails := "")
    {
      selectedRecords, pendingRecord, recordPickerValue := [], None, "";
      types, useCustomSettings, apiNames := ALL_TYPES, false, DEFAULT_API_NAMES;
      showConfirmation, showResults := false, false;
      summary := summary.(success := false, message := "", errorDetails := "");
    }

    /** `handleConfirm` / `executeRegeneration`: start the run for the current selection. */
    method ExecuteRegeneration() returns (request: RegenerationRequest)
      modifies this`isLoading
      ensures isLoading
      ensures request == RequestFor(selectedRecords, types, useCustomSettings, apiNames)
    {
      isLoading := true;
      request := RequestFor(selectedRecords, types, useCustomSettings, apiNames);
    }

    /** The run resolves: show the first result, if any, and unlock. */
    method RegenerationResolved(results: seq<RunSummary>)
      modifies this`summary, this`showConfirmation, this`showResults, this`toasts, this`isLoading
      ensures !isLoading
      ensures results == [] ==>
        summary == old(summary) && showConfirmation == old(showConfirmation)
        && showResults == old(showResults) && toasts == old(toasts)
      ensures results != [] ==> summary == results[0] && !showConfirmation && showResults
      ensures results != [] && results[0].success ==>
        toasts == old(toasts) + [Toast("Success", "Survey links regenerated successfully", "success")]
      ensures results != [] && !results[0].success ==>
        toasts == old(toasts) + [Toast("Warning", "Regeneration completed with errors", "warning")]
    {
      if results != [] {
        summary := results[0];
        showConfirmation, showResults := false, true;
        if summary.success {
          toasts := toasts + [Toast("Success", "Survey links regenerated successfully", "success")];
        } else {
          toasts := toasts + [Toast("Warning", "Regeneration completed with errors", "warning")];
        }
      }
      isLoading := false;
    }

    /** The run is rejected: show a failed summary (the counts stay as they were) and an error toast. */
    method RegenerationFailed(f: Fault)
      modifies this`summary, this`showConfirmation, this`showResults, this`toasts, this`isLoading
      ensures !isLoading && !showConfirmation && showResults
      ensures summary == old(summary).(success := false, message := "Error executing regeneration",
                                       errorDetails := FailureDetails(f))
      ensures toasts == old(toasts) + [Toast("Error", "Error regenerating survey links: " + FailureDetails(f), "error")]
    {
      isLoading, showConfirmation, showResults := false, false, true;
      summary := summary.(success := false, message := "Error executing regeneration", errorDetails := FailureDetails(f));
      toasts := toasts + [Toast("Error", "Error regenerating survey links: " + summary.errorDetails, "error")];
    }
  }
}

=== FILE: regeneration_wizard.dfy ===
/**
 * The four-step regeneration wizard (`surveyRegenerationWizard` component):
 * upload or type training-request ids, choose survey types and review the
 * surveys found, confirm, and see the outcome.
 */
module RegenerationWizard {
  import opened Common

  datatype Step = Upload | Select | Confirm | Complete

  /** The three survey-type checkboxes. */
  datatype TypeSelection = TypeSelection(customer: bool, trainer: bool, participant: bool)

  const NO_TYPES: TypeSelection := TypeSelection(false, false, false)

  /** A survey found for regeneration. */
  datatype SurveyInfo = SurveyInfo(surveyId: string, surveyName: string, surveyType: string, trainingRequestName: string)

  /** What `parseTrainingRequestIds` resolves with: a bare id list, a wrapper object, or nothing. */
  datatype ParseResult =
    | IdList(ids: seq<string>)
    | ParseWrapper(success: bool, trainingRequestIds: seq<string>, message: string)
    | NoParseResult

  /** What `getSurveysForRegeneration` resolves with. */
  datatype SurveysResult = SurveysResult(success: bool, surveys: seq<SurveyInfo>, message: string)

  /** What `regenerateSurveyInvitations` resolves with. */
  datatype RegenerationResult = RegenerationResult(
    success: bool,
    message: string,
    errors: seq<string>,
    successCount: int,
    failureCount: int)

  const NO_IDS_ERROR: string := "No valid Training Request IDs found in the file."
  const PARSE_ERROR: string := "Error parsing file content."

  predicate NoSurveyTypesSelected(sel: TypeSelection) {
    !sel.customer && !sel.trainer && !sel.participant
  }

  // ---------------------------------------------------------------------
  // Steps and buttons
  // ---------------------------------------------------------------------

  predicate ShowBackButton(step: Step) { step == Select || step == Confirm }
  predicate ShowNextButton(step: Step) { step == Upload || step == Select }
  predicate ShowRegenerateButton(step: Step) { step == Confirm }
  predicate ShowFinishButton(step: Step) { step == Complete }

  /** Every step shows exactly one of Next, Regenerate and Finish. */
  lemma OnePrimaryButton(step: Step)
    ensures ShowNextButton(step) || ShowRegenerateButton(step) || ShowFinishButton(step)
    ensures !(ShowNextButton(step) && ShowRegenerateButton(step))
    ensures !(ShowNextButton(step) && ShowFinishButton(step))
    ensures !(ShowRegenerateButton(step) && ShowFinishButton(step))
  {
  }

  /** `handleNext`: forward from Upload with ids, from Select with a type and surveys; otherwise stay. */
  function NextStep(step: Step, hasIds: bool, typesSelected: bool, hasSurveys: bool): (r: Step)
    ensures step == Upload ==> (r == Select <==> hasIds) && (r == Upload <==> !hasIds)
    ensures step == Select ==> (r == Confirm <==> typesSelected && hasSurveys) && (r == Select <==> !(typesSelected && hasSurveys))
    ensures step == Confirm || step == Complete ==> r == step
  {
    match step
    case Upload => if hasIds then Select else Upload
    case Select => if typesSelected && hasSurveys then Confirm else Select
    case _ => step
  }

  /** `handleBack`: one step back from Select and Confirm; Upload and Complete stay. */
  function PreviousStep(step: Step): (r: Step)
    ensures step == Select ==> r == Upload
    ensures step == Confirm ==> r == Select
    ensures step == Upload || step == Complete ==> r == step
  {
    match step
    case Select => Upload
    case Confirm => Select
    case _ => step
  }

  /** Back undoes a forward move. */
  lemma BackUndoesNext(step: Step, hasIds: bool, typesSelected: bool, hasSurveys: bool)
    requires NextStep(step, hasIds, typesSelected, hasSurveys) != step
    ensures PreviousStep(NextStep(step, hasIds, typesSelected, hasSurveys)) == step
  {
  }

  /** `isNextDisabled`. */
  predicate IsNextDisabled(step: Step, parsedIds: seq<string>, sel: TypeSelection, surveys: seq<SurveyInfo>, isProcessing: bool) {
    if step == Upload then parsedIds == [] || isProcessing
    else if step == Select then NoSurveyTypesSelected(sel) || surveys == [] || isProcessing
    else false
  }

  /**
   * Where Next is shown and nothing is processing, it is enabled exactly when
   * pressing it moves the wizard forward.
   */
  lemma NextEnabledIffItMoves(step: Step, parsedIds: seq<string>, sel: TypeSelection, surveys: seq<SurveyInfo>)
    requires ShowNextButton(step)
    ensures !IsNextDisabled(step, parsedIds, sel, surveys, false)
      <==> NextStep(step, parsedIds != [], !NoSurveyTypesSelected(sel), surveys != []) != step
  {
  }

  // ---------------------------------------------------------------------
  // Survey types
  // ---------------------------------------------------------------------

  /** The checked types, in the order Customer, Trainer, Participant. */
  function TypeList(sel: TypeSelection): (r: seq<string>)
    ensures |r| <= 3
  {
    (if sel.customer then ["Customer"] else []) + (if sel.trainer then ["Trainer"] else [])
    + (if sel.participant then ["Participant"] else [])
  }

  /** A type is requested exactly when it is checked, never twice, and nothing is requested with no type checked. */
  lemma TypeListExact(sel: TypeSelection)
    ensures "Customer" in TypeList(sel) <==> sel.customer
    ensures "Trainer" in TypeList(sel) <==> sel.trainer
    ensures "Participant" in TypeList(sel) <==> sel.participant
    ensures forall t :: t in TypeList(sel) ==> t == "Customer" || t == "Trainer" || t == "Participant"
    ensures Distinct(TypeList(sel))
    ensures TypeList(sel) == [] <==> NoSurveyTypesSelected(sel)
  {
  }

  /** The `selectedTypes.push` sequence of `loadSurveysForRegeneration`. */
  method CollectSelectedTypes(sel: TypeSelection) returns (types: seq<string>)
    ensures types == TypeList(sel)
  {
    types := [];
    if sel.customer {
      types := types + ["Customer"];
    }
    if sel.trainer {
      types := types + ["Trainer"];
    }
    if sel.participant {
      types := types + ["Participant"];
    }
  }

  /** The parsed ids and the upload error a resolved parse leaves. */
  function ParseOutcome(result: ParseResult): (r: (seq<string>, string))
    ensures result.IdList? ==> r.0 == result.ids
    ensures result.ParseWrapper? && result.success ==> r.0 == result.trainingRequestIds
    ensures (result.IdList? || (result.ParseWrapper? && result.success)) ==> (r.1 == NO_IDS_ERROR <==> r.0 == [])
    ensures (result.IdList? || (result.ParseWrapper? && result.success)) && r.0 != [] ==> r.1 == ""
    ensures result.NoParseResult? || (result.ParseWrapper? && !result.success) ==>
      r.0 == [] && r.1 == (if result.ParseWrapper? && result.message != "" then result.message else PARSE_ERROR)
  {
    match result
    case IdList(ids) => (ids, if ids == [] then NO_IDS_ERROR else "")
    case ParseWrapper(success, ids, message) =>
      if success then (ids, if ids == [] then NO_IDS_ERROR else "")
      else ([], if message != "" then message else PARSE_ERROR)
    case NoParseResult => ([], PARSE_ERROR)
  }

  /** A parse yields ids exactly when it leaves no upload error. */
  lemma ParseIdsIffNoError(result: ParseResult)
    ensures ParseOutcome(result).0 != [] <==> ParseOutcome(result).1 == ""
  {
  }

  function SurveyIds(surveys: seq<SurveyInfo>): (r: seq<string>)
    ensures |r| == |surveys|
    ensures forall i :: 0 <= i < |surveys| ==> r[i] == surveys[i].surveyId
  {
    if surveys == [] then [] else [surveys[0].surveyId] + SurveyIds(surveys[1..])
  }

  function SurveyTypes(surveys: seq<SurveyInfo>): (r: seq<string>)
    ensures |r| == |surveys|
    ensures forall i :: 0 <= i < |surveys| ==> r[i] == surveys[i].surveyType
  {
    if surveys == [] then [] else [surveys[0].surveyType] + SurveyTypes(surveys[1..])
  }

  class SurveyRegenerationWizard {
    var currentStep: Step
    var manualIds: string
    var parsedIds: seq<string>
    var uploadError: string
    var isProcessing: bool
    var isLoadingSurveys: bool
    var selection: TypeSelection
    var surveys: seq<SurveyInfo>
    var regenerationResult: Option<RegenerationResult>
    var regenerationSuccess: bool
    var regenerationMessage: string
    var errorMessages: seq<string>
    var toasts: seq<Toast>

    constructor ()
      ensures currentStep == Upload && manualIds == "" && parsedIds == [] && uploadError == ""
      ensures !isProcessing && !isLoadingSurveys && selection == NO_TYPES && surveys == []
      ensures regenerationResult.None? && !regenerationSuccess && regenerationMessage == "" && errorMessages == []
      ensures toasts == []
    {
      currentStep, manualIds, parsedIds, uploadError := Upload, "", [], "";
      isProcessing, isLoadingSurveys, selection, surveys := false, false, NO_TYPES, [];
      regenerationResult, regenerationSuccess, regenerationMessage, errorMessages := None, false, "", [];
      toasts := [];
    }

    /** `readFileContent`: reading the uploaded file starts. */
    method BeginReadFile()
      modifies this`isProcessing, this`uploadError
      ensures isProcessing && uploadError == ""
    {
      isProcessing, uploadError := true, "";
    }

    /** The file could not be read. */
    method ReadFailed()
      modifies this`isProcessing, this`uploadError
      ensures !isProcessing && uploadError == "Error reading file. Please try again."
    {
      isProcessing, uploadError := false, "Error reading file. Please try again.";
    }

    /** `parseFileContent`: send the text to be parsed, forgetting the surveys found for the old ids. */
    method ParseFileContent(content: string) returns (request: string)
      modifies this`isProcessing, this`uploadError, this`surveys
      ensures isProcessing && uploadError == "" && surveys == [] && request == content
    {
      isProcessing, uploadError, surveys := true, "", [];
      request := content;
    }

    /** Typed ids are parsed; clearing the box clears the ids, the surveys and the error. */
    method HandleManualInput(value: string) returns (request: Option<string>)
      modifies this`manualIds, this`isProcessing, this`uploadError, this`surveys, this`parsedIds
      ensures manualIds == value && surveys == [] && uploadError == ""
      ensures value != "" ==> request == Some(value) && isProcessing && parsedIds == old(parsedIds)
      ensures value == "" ==> request.None? && parsedIds == [] && isProcessing == old(isProcessing)
    {
      manualIds := value;
      if value != "" {
        var content := ParseFileContent(value);
        request := Some(content);
      } else {
        parsedIds, surveys, uploadError := [], [], "";
        request := None;
      }
    }

    method ParseResolved(result: ParseResult)
      modifies this`parsedIds, this`uploadError, this`isProcessing
      ensures (parsedIds, uploadError) == ParseOutcome(result) && !isProcessing
    {
      var outcome := ParseOutcome(result);
      parsedIds, uploadError, isProcessing := outcome.0, outcome.1, false;
    }

    method ParseFailed(f: Fault)
      modifies this`parsedIds, this`uploadError, this`isProcessing
      ensures parsedIds == [] && uploadError == Or(BodyMessage(f), PARSE_ERROR) && !isProcessing
    {
      parsedIds, uploadError, isProcessing := [], Or(BodyMessage(f), PARSE_ERROR), false;
    }

    /** Toggle one type (an unknown name changes none) and reload the surveys when there are ids. */
    method HandleSurveyTypeChange(surveyType: string, checked: bool) returns (request: Option<(seq<string>, seq<string>)>)
      modifies this`selection, this`surveys, this`isLoadingSurveys
      ensures selection == (if surveyType == "Customer" then old(selection).(customer := checked)
                            else if surveyType == "Trainer" then old(selection).(trainer := checked)
                            else if surveyType == "Participant" then old(selection).(participant := checked)
                            else old(selection))
      ensures request.Some? <==> parsedIds != [] && !NoSurveyTypesSelected(selection)
      ensures request.Some? ==> request.value == (parsedIds, TypeList(selection)) && isLoadingSurveys
      ensures request.Some? ==> surveys == old(surveys)
      ensures request.None? ==> surveys == [] && isLoadingSurveys == old(isLoadingSurveys)
    {
      if surveyType == "Customer" {
        selection := selection.(customer := checked);
      } else if surveyType == "Trainer" {
        selection := selection.(trainer := checked);
      } else if surveyType == "Participant" {
        selection := selection.(participant := checked);
      }
      if |parsedIds| > 0 {
        request := LoadSurveysForRegeneration();
      } else {
        surveys := [];
        request := None;
      }
    }

    /** Ask for the surveys of the parsed ids and checked types; with neither, just clear the list. */
    method LoadSurveysForRegeneration() returns (request: Option<(seq<string>, seq<string>)>)
      modifies this`surveys, this`isLoadingSurveys
      ensures request.Some? <==> parsedIds != [] && !NoSurveyTypesSelected(selection)
      ensures request.Some? ==> request.value == (parsedIds, TypeList(selection)) && isLoadingSurveys
      ensures request.Some? ==> surveys == old(surveys)
      ensures request.None? ==> surveys == [] && isLoadingSurveys == old(isLoadingSurveys)
    {
      if NoSurveyTypesSelected(selection) || |parsedIds| == 0 {
        surveys := [];
        return None;
      }
      isLoadingSurveys := true;
      var types := CollectSelectedTypes(selection);
      request := Some((parsedIds, types));
    }

    method SurveysLoaded(result: SurveysResult)
      modifies this`surveys, this`toasts, this`isLoadingSurveys
      ensures !isLoadingSurveys
      ensures result.success ==> surveys == result.surveys && toasts == old(toasts)
      ensures !result.success ==> surveys == [] && toasts == old(toasts) + [Toast("Error", result.message, "error")]
    {
      if result.success {
        surveys := result.surveys;
      } else {
        toasts := toasts + [Toast("Error", result.message, "error")];
        surveys := [];
      }
      isLoadingSurveys := false;
    }

    method SurveysFailed(f: Fault)
      modifies this`surveys, this`toasts, this`isLoadingSurveys
      ensures !isLoadingSurveys && surveys == []
      ensures toasts == old(toasts) + [Toast("Error", Or(BodyMessage(f), "Error loading surveys"), "error")]
    {
      toasts := toasts + [Toast("Error", Or(BodyMessage(f), "Error loading surveys"), "error")];
      surveys, isLoadingSurveys := [], false;
    }

    method HandleNext()
      modifies this`currentStep
      ensures currentStep == NextStep(old(currentStep), parsedIds != [], !NoSurveyTypesSelected(selection), surveys != [])
    {
      if currentStep == Upload {
        if |parsedIds| > 0 {
          currentStep := Select;
        }
      } else if currentStep == Select {
        if !NoSurveyTypesSelected(selection) && |surveys| > 0 {
          currentStep := Confirm;
        }
      }
    }

    method HandleBack()
      modifies this`currentStep
      ensures currentStep == PreviousStep(old(currentStep))
    {
      if currentStep == Select {
        currentStep := Upload;
      } else if currentStep == Confirm {
        currentStep := Select;
      }
    }

    /** Send the ids and types of the surveys found, position by position. */
    method HandleRegenerate() returns (surveyIds: seq<string>, surveyTypes: seq<string>)
      modifies this`isProcessing
      ensures isProcessing
      ensures surveyIds == SurveyIds(surveys) && surveyTypes == SurveyTypes(surveys)
    {
      isProcessing := true;
      surveyIds, surveyTypes := SurveyIds(surveys), SurveyTypes(surveys);
    }

    /** The run resolves: record it and finish; errors replace the old list only when there are some. */
    method RegenerationResolved(result: RegenerationResult)
      modifies this`regenerationResult, this`regenerationSuccess, this`regenerationMessage, this`errorMessages
      modifies this`currentStep, this`isProcessing, this`toasts
      ensures currentStep == Complete && !isProcessing
      ensures regenerationResult == Some(result) && regenerationSuccess == result.success
      ensures regenerationMessage == result.message
      ensures errorMessages == (if result.errors != [] then result.errors else old(errorMessages))
      ensures toasts == old(toasts) + [Toast(if result.success then "Success" else "Error", result.message,
                                             if result.success then "success" else "error")]
    {
      regenerationResult, regenerationSuccess, regenerationMessage := Some(result), result.success, result.message;
      if |result.errors| > 0 {
        errorMessages := result.errors;
      }
      currentStep, isProcessing := Complete, false;
      if result.success {
        toasts := toasts + [Toast("Success", result.message, "success")];
      } else {
        toasts := toasts + [Toast("Error", result.message, "error")];
      }
    }

    /** The run is rejected: finish anyway, with one error message. */
    method RegenerationFailed(f: Fault)
      modifies this`regenerationSuccess, this`regenerationMessage, this`errorMessages
      modifies this`currentStep, this`isProcessing, this`toasts
      ensures currentStep == Complete && !isProcessing && !regenerationSuccess
      ensures regenerationMessage == Or(BodyMessage(f), "Error regenerating invitations")
      ensures errorMessages == [Or(BodyMessage(f), "Unknown error occurred")]
      ensures toasts == old(toasts) + [Toast("Error", regenerationMessage, "error")]
    {
      regenerationSuccess := false;
      regenerationMessage := Or(BodyMessage(f), "Error regenerating invitations");
      errorMessages := [Or(BodyMessage(f), "Unknown error occurred")];
      currentStep, isProcessing := Complete, false;
      toasts := toasts + [Toast("Error", regenerationMessage, "error")];
    }

    /** Back to the first step with nothing entered; `isLoadingSurveys` is left as it is. */
    method HandleReset()
      modifies this`currentStep, this`manualIds, this`parsedIds, this`uploadError, this`selection, this`surveys
      modifies this`regenerationResult, this`regenerationSuccess, this`regenerationMessage, this`errorMessages
      modifies this`isProcessing
      ensures currentStep == Upload && manualIds == "" && parsedIds == [] && uploadError == ""
      ensures selection == NO_TYPES && surveys == [] && !isProcessing
      ensures regenerationResult.None? && !regenerationSuccess && regenerationMessage == "" && errorMessages == []
    {
      currentStep, manualIds, parsedIds, uploadError := Upload, "", [], "";
      selection, surveys := NO_TYPES, [];
      regenerationResult, regenerationSuccess, regenerationMessage, errorMessages := None, false, "", [];
      isProcessing := false;
    }
  }
}

=== FILE: response_store.dfy ===
/**
 * The answers a survey taker collects: one entry per question id, kept in
 * the order the ids were first stored (the order `Object.values` and
 * `Map.prototype.values` report them in), and the checkbox list operations
 * both taker components apply to an entry.
 */
module ResponseStore {
  import opened Common
  import opened Questions

  /**
   * `{ questionId, response, responses }`: the free-text or single-select
   * answer, and the list of checked values (`None` stands for `null`).
   */
  datatype Response = Response(questionId: string, response: string, responses: Option<seq<string>>)

  /** Entries in key-insertion order; an entry is stored under its own `questionId`. */
  type Store = seq<Response>

  /** No question id is stored twice. */
  predicate Keyed(store: Store) {
    forall i, j :: 0 <= i < j < |store| ==> store[i].questionId != store[j].questionId
  }

  /** Position of the entry stored under `id`, or -1. */
  function IndexOf(store: Store, id: string): (k: int)
    ensures -1 <= k < |store|
    ensures k >= 0 ==> store[k].questionId == id && forall j :: 0 <= j < k ==> store[j].questionId != id
    ensures k < 0 ==> forall j :: 0 <= j < |store| ==> store[j].questionId != id
  {
    if store == [] then -1
    else if store[0].questionId == id then 0
    else
      var k := IndexOf(store[1..], id);
      if k < 0 then -1 else k + 1
  }

  /** `responses[id]` (`None` for `undefined`). */
  function Get(store: Store, id: string): (r: Option<Response>)
    ensures r.Some? <==> exists j :: 0 <= j < |store| && store[j].questionId == id
    ensures r.Some? ==> r.value in store && r.value.questionId == id
  {
    var k := IndexOf(store, id);
    if k < 0 then None else Some(store[k])
  }

  /**
   * `responses[r.questionId] = r`: an existing entry is replaced where it
   * stands, a new one is appended.
   */
  function Put(store: Store, r: Response): (s: Store)
    ensures Keyed(store) ==> Keyed(s)
    ensures Get(s, r.questionId) == Some(r)
    ensures forall id :: id != r.questionId ==> Get(s, id) == Get(store, id)
    ensures Get(store, r.questionId).Some? ==> |s| == |store|
    ensures Get(store, r.questionId).None? ==> s == store + [r]
    ensures forall j :: 0 <= j < |store| ==> s[j].questionId == store[j].questionId
  {
    var k := IndexOf(store, r.questionId);
    if k < 0 then
      var s := store + [r];
      assert IndexOf(s, r.questionId) == |store| by { IndexAppended(store, r); }
      IndexKeptAppend(store, r);
      s
    else
      var s := store[k := r];
      IndexKeptUpdate(store, k, r);
      s
  }

  lemma {:induction false} IndexAppended(store: Store, r: Response)
    requires IndexOf(store, r.questionId) < 0
    ensures IndexOf(store + [r], r.questionId) == |store|
  {
    if store != [] {
      assert (store + [r])[1..] == store[1..] + [r];
      IndexAppended(store[1..], r);
    }
  }

  lemma {:induction false} IndexKeptAppend(store: Store, r: Response)
    ensures forall id :: id != r.questionId ==> IndexOf(store + [r], id) == IndexOf(store, id)
  {
    forall id | id != r.questionId
      ensures IndexOf(store + [r], id) == IndexOf(store, id)
    {
      IndexKeptAppendAt(store, r, id);
    }
  }

  lemma {:induction false} IndexKeptAppendAt(store: Store, r: Response, id: string)
    requires id != r.questionId
    ensures IndexOf(store + [r], id) == IndexOf(store, id)
  {
    if store != [] {
      assert (store + [r])[1..] == store[1..] + [r];
      IndexKeptAppendAt(store[1..], r, id);
    }
  }

  lemma {:induction false} IndexKeptUpdate(store: Store, k: nat, r: Response)
    requires k < |store| && store[k].questionId == r.questionId
    ensures forall id :: IndexOf(store[k := r], id) == IndexOf(store, id)
  {
    forall id
      ensures IndexOf(store[k := r], id) == IndexOf(store, id)
    {
      IndexKeptUpdateAt(store, k, r, id);
    }
  }

  lemma {:induction false} IndexKeptUpdateAt(store: Store, k: nat, r: Response, id: string)
    requires k < |store| && store[k].questionId == r.questionId
    ensures IndexOf(store[k := r], id) == IndexOf(store, id)
  {
    if k > 0 {
      assert store[k := r][1..] == store[1..][k - 1 := r];
      IndexKeptUpdateAt(store[1..], k - 1, r, id);
    }
  }

  // ---------------------------------------------------------------------
  // Checkbox lists
  // ---------------------------------------------------------------------

  /** `list.filter((v) => v !== value)`. */
  function Without(list: seq<string>, value: string): (r: seq<string>)
    ensures value !in r
    ensures forall w :: w != value ==> (w in r <==> w in list)
  {
    if list == [] then []
    else (if list[0] != value then [list[0]] else []) + Without(list[1..], value)
  }

  /**
   * A checkbox change: when checked, `push` the value unless `includes`
   * already finds it; when unchecked, filter it out.
   */
  function Toggle(list: seq<string>, value: string, checked: bool): (r: seq<string>)
    ensures value in r <==> checked
    ensures forall w :: w != value ==> (w in r <==> w in list)
    ensures checked ==> IsSubsequence(list, r)
  {
    if checked then
      if value in list then
        SubsequenceOfExtension(list, []);
        assert list + [] == list;
        list
      else
        SubsequenceOfExtension(list, [value]);
        list + [value]
    else Without(list, value)
  }

  lemma {:induction false} SubsequenceOfExtension(a: seq<string>, b: seq<string>)
    ensures IsSubsequence(a, a + b)
  {
    if a == [] {
    } else {
      assert (a + b)[1..] == a[1..] + b;
      SubsequenceOfExtension(a[1..], b);
    }
  }

  lemma {:induction false} WithoutAbsent(list: seq<string>, value: string)
    requires value !in list
    ensures Without(list, value) == list
  {
    if list != [] {
      WithoutAbsent(list[1..], value);
      assert [list[0]] + list[1..] == list;
    }
  }

  lemma {:induction false} WithoutAppend(list: seq<string>, tail: seq<string>, value: string)
    ensures Without(list + tail, value) == Without(list, value) + Without(tail, value)
  {
    if list != [] {
      assert (list + tail)[1..] == list[1..] + tail;
      WithoutAppend(list[1..], tail, value);
    } else {
      assert list + tail == tail;
    }
  }

  /** Unchecking a box just checked gives back the list it started from. */
  lemma {:induction false} CheckThenUncheck(list: seq<string>, value: string)
    requires value !in list
    ensures Toggle(Toggle(list, value, true), value, false) == list
  {
    WithoutAppend(list, [value], value);
    WithoutAbsent(list, value);
  }

  /** Checking a box twice, or unchecking it twice, is the same as doing it once. */
  lemma {:induction false} ToggleIdempotent(list: seq<string>, value: string, checked: bool)
    ensures Toggle(Toggle(list, value, checked), value, checked) == Toggle(list, value, checked)
  {
    if !checked {
      WithoutAbsent(Without(list, value), value);
    }
  }

  /** A list of distinct values stays free of duplicates under every toggle. */
  lemma {:induction false} ToggleKeepsDistinct(list: seq<string>, value: string, checked: bool)
    requires Distinct(list)
    ensures Distinct(Toggle(list, value, checked))
  {
    if !checked {
      WithoutKeepsDistinct(list, value);
    }
  }

  lemma {:induction false} WithoutKeepsDistinct(list: seq<string>, value: string)
    requires Distinct(list)
    ensures Distinct(Without(list, value))
  {
    if list != [] {
      WithoutKeepsDistinct(list[1..], value);
      var rest := Without(list[1..], value);
      assert list[0] !in list[1..];
      assert list[0] !in rest;
    }
  }

  // ---------------------------------------------------------------------
  // Entry updates shared by the takers
  // ---------------------------------------------------------------------

  /**
   * Create the entry `{ questionId: id, response: '', responses: blankList }`
   * if there is none, then set its `response` to `value`.
   */
  function SetAnswer(store: Store, id: string, value: string, blankList: Option<seq<string>>): (s: Store)
    ensures Keyed(store) ==> Keyed(s)
    ensures Get(s, id) == Some(Response(id, value,
      if Get(store, id).Some? then Get(store, id).value.responses else blankList))
    ensures forall other :: other != id ==> Get(s, other) == Get(store, other)
  {
    var entry := Get(store, id);
    var r := if entry.Some? then entry.value else Response(id, "", blankList);
    Put(store, r.(response := value))
  }

  /** The checked values of an entry: `responses || []`. */
  function CheckedValues(entry: Option<Response>): seq<string> {
    if entry.Some? && entry.value.responses.Some? then entry.value.responses.value else []
  }

  /**
   * Create the entry `{ questionId: id, response: '', responses: [] }` if
   * there is none, make a `null` list empty, then toggle `value`.
   */
  function ToggleAnswer(store: Store, id: string, value: string, checked: bool): (s: Store)
    ensures Keyed(store) ==> Keyed(s)
    ensures Get(s, id).Some?
    ensures Get(s, id).value.responses == Some(Toggle(CheckedValues(Get(store, id)), value, checked))
    ensures Get(s, id).value.response == (if Get(store, id).Some? then Get(store, id).value.response else "")
    ensures forall other :: other != id ==> Get(s, other) == Get(store, other)
  {
    var entry := Get(store, id);
    var r := if entry.Some? then entry.value else Response(id, "", Some([]));
    Put(store, r.(responses := Some(Toggle(CheckedValues(entry), value, checked))))
  }

  /** `r.response || (r.responses && r.responses.length > 0)`: the entry holds an answer. */
  predicate HasAnswer(r: Response) {
    r.response != "" || (r.responses.Some? && |r.responses.value| > 0)
  }

  /** The entry a question starts with when a survey is loaded. */
  function BlankEntry(q: Question): (r: Response)
    ensures r.questionId == q.id && !HasAnswer(r)
    ensures r.responses.Some? <==> q.questionType == MULTI_SELECT_VERTICAL
  {
    Response(q.id, "", if q.questionType == MULTI_SELECT_VERTICAL then Some([]) else None)
  }

  /** The store after `responses = {}` and one assignment per question, in order. */
  function InitialStore(qs: seq<Question>): (s: Store)
    ensures Keyed(s)
    ensures |s| <= |qs|
  {
    if qs == [] then []
    else Put(InitialStore(qs[..|qs| - 1]), BlankEntry(qs[|qs| - 1]))
  }

  /**
   * Every loaded question has an entry, and every entry is the blank entry
   * of some loaded question, so none holds an answer.
   */
  lemma {:induction false} InitialStoreEntries(qs: seq<Question>)
    ensures forall q :: q in qs ==> Get(InitialStore(qs), q.id).Some?
    ensures forall r :: r in InitialStore(qs) ==> !HasAnswer(r)
    ensures forall r :: r in InitialStore(qs) ==> exists q :: q in qs && r == BlankEntry(q)
  {
    if qs != [] {
      var init := InitialStore(qs[..|qs| - 1]);
      var last := qs[|qs| - 1];
      InitialStoreEntries(qs[..|qs| - 1]);
      assert forall q :: q in qs ==> q in qs[..|qs| - 1] || q == last;
      PutEntries(init, BlankEntry(last));
    }
  }

  lemma PutEntries(store: Store, r: Response)
    ensures forall x :: x in Put(store, r) ==> x in store || x == r
  {
    var k := IndexOf(store, r.questionId);
    if k >= 0 {
      assert Put(store, r) == store[k := r];
      forall x | x in Put(store, r) ensures x in store || x == r {
        var j :| 0 <= j < |store| && store[k := r][j] == x;
      }
    }
  }

  /** A store with distinct keys has one entry per question for distinct question ids. */
  lemma {:induction false} InitialStoreEntry(qs: seq<Question>, q: Question)
    requires q in qs
    requires forall i, j :: 0 <= i < j < |qs| ==> qs[i].id != qs[j].id
    ensures Get(InitialStore(qs), q.id) == Some(BlankEntry(q))
  {
    var init := InitialStore(qs[..|qs| - 1]);
    var last := qs[|qs| - 1];
    if q != last {
      assert q in qs[..|qs| - 1];
      assert q.id != last.id;
      InitialStoreEntry(qs[..|qs| - 1], q);
    }
  }
}

=== FILE: survey_builder.dfy ===
/**
 * The record-page question editor (`surveyBuilder` component): questions are
 * saved, deleted and reordered one remote call at a time, and every
 * successful call reloads the survey.
 */
module SurveyBuilder {
  import opened Common
  import opened Questions

  /** A `Survey_Question__c` row as loaded; a missing text is `""`, a missing order number `0`. */
  datatype QuestionRecord = QuestionRecord(
    id: string,
    question: string,
    questionType: string,
    required: bool,
    choices: string,
    orderNumber: int)

  /** A loaded row with the fields the list adds to it. */
  datatype QuestionRow = QuestionRow(record: QuestionRecord, displayOrder: nat, typeLabel: string, choicesPreview: string)

  /** The survey's own settings (`Survey__c`), as loaded and as the settings modal edits them. */
  datatype SurveyRecord = SurveyRecord(
    name: string,
    header: string,
    hideName: bool,
    thankYouText: string,
    thankYouLink: string,
    allAnonymous: bool,
    shareWithGuest: bool)

  /** The question modal's form fields. */
  datatype QuestionForm = QuestionForm(text: string, questionType: string, required: bool, choices: string, order: int)

  /** `questionData` as `createQuestion` / `updateQuestion` receive it. */
  datatype QuestionPayload = QuestionPayload(
    question: string,
    questionType: string,
    required: bool,
    choices: string,
    orderNumber: int,
    surveyId: string)

  datatype SaveRequest = CreateQuestion(payload: QuestionPayload) | UpdateQuestion(id: string, payload: QuestionPayload)

  /** The remote calls after which the survey is reloaded on success. */
  datatype Call = CreateCall | UpdateCall | DeleteCall | SettingsCall | ReorderCall

  const SINGLE_SELECT_LABEL: string := "Single Select"
  const MULTI_SELECT_LABEL: string := "Multi-Select"

  /** `getTypeLabel`: the select types get a short label; any other type is shown as it is. */
  function TypeLabel(questionType: string): (r: string)
    ensures questionType == SINGLE_SELECT_VERTICAL || questionType == SINGLE_SELECT_HORIZONTAL ==>
      r == SINGLE_SELECT_LABEL
    ensures questionType == MULTI_SELECT_VERTICAL ==> r == MULTI_SELECT_LABEL
    ensures questionType != SINGLE_SELECT_VERTICAL && questionType != SINGLE_SELECT_HORIZONTAL
            && questionType != MULTI_SELECT_VERTICAL
            ==> r == questionType
  {
    if questionType == SINGLE_SELECT_VERTICAL || questionType == SINGLE_SELECT_HORIZONTAL then SINGLE_SELECT_LABEL
    else if questionType == MULTI_SELECT_VERTICAL then MULTI_SELECT_LABEL
    else questionType
  }

  /** `lines.filter((c) => c.trim())`: the lines that are not blank, untrimmed, in order. */
  function NonBlank(lines: seq<string>): (r: seq<string>)
    ensures |r| <= |lines|
  {
    if lines == [] then [] else (if IsBlank(lines[0]) then [] else [lines[0]]) + NonBlank(lines[1..])
  }

  lemma {:induction false} NonBlankMembers(lines: seq<string>)
    ensures forall l :: l in NonBlank(lines) <==> l in lines && !IsBlank(l)
  {
    if lines != [] {
      NonBlankMembers(lines[1..]);
      assert forall l :: l in lines <==> l == lines[0] || l in lines[1..];
    }
  }

  lemma {:induction false} NonBlankInOrder(lines: seq<string>)
    ensures IsSubsequence(NonBlank(lines), lines)
  {
    if lines != [] {
      NonBlankInOrder(lines[1..]);
      var rest := NonBlank(lines[1..]);
      if !IsBlank(lines[0]) {
        assert ([lines[0]] + rest)[1..] == rest;
      } else {
        assert NonBlank(lines) == rest;
      }
    }
  }

  /** The non-blank lines of a choices text. */
  function ChoiceLines(choices: string): seq<string> {
    NonBlank(Split(choices, '\n'))
  }

  /** The lines a preview shows: the first three. */
  function PreviewLines(choices: string): (r: seq<string>)
    ensures |r| <= 3
  {
    Take(ChoiceLines(choices), 3)
  }

  /**
   * `getChoicesPreview`: the first three non-blank lines joined by `", "`,
   * followed by `"..."` when there are more.
   */
  function ChoicesPreview(choices: string): (r: string)
    ensures choices == "" ==> r == ""
  {
    if choices == "" then ""
    else if |ChoiceLines(choices)| <= 3 then Join(ChoiceLines(choices), ", ")
    else Join(PreviewLines(choices), ", ") + "..."
  }

  /** The preview is empty exactly when the text has no non-blank line; otherwise it starts with the first one. */
  lemma PreviewStartsWithFirstLine(choices: string)
    ensures ChoicesPreview(choices) == "" <==> ChoiceLines(choices) == []
    ensures ChoiceLines(choices) != [] ==> ChoiceLines(choices)[0] <= ChoicesPreview(choices)
  {
    var lines := ChoiceLines(choices);
    if choices == "" {
      assert Split(choices, '\n') == [""];
      assert IsBlank("");
    } else if lines != [] {
      var shown := PreviewLines(choices);
      assert shown[0] == lines[0];
      JoinStartsWithFirst(shown, ", ");
      var joined := Join(shown, ", ");
      assert ChoicesPreview(choices) == joined || ChoicesPreview(choices) == joined + "..." by {
        if |lines| <= 3 { assert shown == lines; }
      }
      NonBlankMembers(Split(choices, '\n'));
      assert lines[0] in lines;
      assert IsBlank("");
    }
  }

  /**
   * The preview shows non-blank lines of the text, untrimmed: all of them
   * when there are at most three, else the first three and an ellipsis.
   */
  lemma PreviewShowsFirstThree(choices: string)
    ensures forall l :: l in PreviewLines(choices) ==> l in Split(choices, '\n') && !IsBlank(l)
    ensures |ChoiceLines(choices)| <= 3 ==> PreviewLines(choices) == ChoiceLines(choices)
    ensures |ChoiceLines(choices)| <= 3 ==> ChoicesPreview(choices) == Join(ChoiceLines(choices), ", ")
    ensures |ChoiceLines(choices)| > 3 ==>
      PreviewLines(choices) == ChoiceLines(choices)[..3]
      && ChoicesPreview(choices) == Join(PreviewLines(choices), ", ") + "..."
  {
    NonBlankMembers(Split(choices, '\n'));
    assert forall l :: l in PreviewLines(choices) ==> l in ChoiceLines(choices);
    if choices == "" {
      assert Split(choices, '\n') == [""];
      assert IsBlank("");
    }
  }

  /** The preview stays on one line. */
  lemma PreviewSingleLine(choices: string)
    ensures '\n' !in ChoicesPreview(choices)
  {
    if choices != "" {
      NonBlankMembers(Split(choices, '\n'));
      assert forall l :: l in PreviewLines(choices) ==> l in ChoiceLines(choices);
      JoinAvoids(PreviewLines(choices), ", ", '\n');
    }
  }

  /** `showChoicesField`: every type but Free Text asks for choices. */
  predicate ShowChoicesField(questionType: string) {
    questionType != FREE_TEXT
  }

  /**
   * Why the form cannot be saved, if it cannot: a blank question text, or
   * blank choices for a type that asks for choices.
   */
  function QuestionFormError(form: QuestionForm): (r: Option<string>)
    ensures r.None? <==> !IsBlank(form.text) && (!ShowChoicesField(form.questionType) || !IsBlank(form.choices))
  {
    if IsBlank(form.text) then Some("Question text is required")
    else if ShowChoicesField(form.questionType) && IsBlank(form.choices) then
      Some("Please provide choices for this question type")
    else None
  }

  /** `questionData`: the form as sent, with no choices for Free Text. */
  function PayloadOf(form: QuestionForm, surveyId: string): (p: QuestionPayload)
    ensures p.question == form.text && p.questionType == form.questionType && p.required == form.required
    ensures p.orderNumber == form.order && p.surveyId == surveyId
    ensures form.questionType == FREE_TEXT ==> p.choices == ""
    ensures form.questionType != FREE_TEXT ==> p.choices == form.choices
  {
    QuestionPayload(form.text, form.questionType, form.required,
      if ShowChoicesField(form.questionType) then form.choices else "", form.order, surveyId)
  }

  /** A payload that passed the form check has a question text, and choices unless it is Free Text. */
  lemma ValidPayload(form: QuestionForm, surveyId: string)
    requires QuestionFormError(form).None?
    ensures !IsBlank(PayloadOf(form, surveyId).question)
    ensures PayloadOf(form, surveyId).questionType != FREE_TEXT ==> !IsBlank(PayloadOf(form, surveyId).choices)
  {
  }

  /** The loaded rows from position `start`. */
  function RowsFrom(data: seq<QuestionRecord>, start: nat): (r: seq<QuestionRow>)
    ensures |r| == |data|
    ensures forall i :: 0 <= i < |data| ==>
      r[i] == QuestionRow(data[i], start + i + 1, TypeLabel(data[i].questionType), ChoicesPreview(data[i].choices))
  {
    if data == [] then []
    else
      [QuestionRow(data[0], start + 1, TypeLabel(data[0].questionType), ChoicesPreview(data[0].choices))]
      + RowsFrom(data[1..], start + 1)
  }

  /** The list a load shows: each record kept, numbered from 1 in load order, with its label and preview. */
  function Rows(data: seq<QuestionRecord>): (r: seq<QuestionRow>)
    ensures |r| == |data|
    ensures forall i :: 0 <= i < |data| ==> r[i].record == data[i] && r[i].displayOrder == i + 1
  {
    RowsFrom(data, 0)
  }

  /** `questions.map((q) => q.Id)`. */
  function Ids(qs: seq<QuestionRow>): (r: seq<string>)
    ensures |r| == |qs|
    ensures forall i :: 0 <= i < |qs| ==> r[i] == qs[i].record.id
  {
    if qs == [] then [] else [qs[0].record.id] + Ids(qs[1..])
  }

  /** `questions.findIndex((q) => q.Id === id)`: the first position with that id, or -1. */
  function FindIndex(qs: seq<QuestionRow>, id: string): (r: int)
    ensures -1 <= r < |qs|
    ensures r == -1 <==> forall i :: 0 <= i < |qs| ==> qs[i].record.id != id
    ensures r >= 0 ==> qs[r].record.id == id && forall i :: 0 <= i < r ==> qs[i].record.id != id
  {
    if qs == [] then -1
    else if qs[0].record.id == id then 0
    else
      var k := FindIndex(qs[1..], id);
      if k == -1 then -1 else k + 1
  }

  /**
   * The id list `swapQuestions` sends: the current ids copied into an array
   * and the two positions exchanged through a temporary.
   */
  method SwappedIds(qs: seq<QuestionRow>, from: nat, to: nat) returns (ids: seq<string>)
    requires from < |qs| && to < |qs|
    ensures ids == Ids(qs)[from := qs[to].record.id][to := qs[from].record.id]
    ensures multiset(ids) == multiset(Ids(qs))
  {
    var a := new string[|qs|];
    var i := 0;
    while i < |qs|
      invariant 0 <= i <= |qs|
      invariant forall j :: 0 <= j < i ==> a[j] == qs[j].record.id
    {
      a[i] := qs[i].record.id;
      i := i + 1;
    }
    ghost var before := a[..];
    assert before == Ids(qs);
    var temp := a[from];
    a[from] := a[to];
    a[to] := temp;
    ids := a[..];
    assert ids == before[from := before[to]][to := before[from]];
    SwapMultiset(before, from, to);
  }

  function SuccessMessage(call: Call): string {
    match call
    case CreateCall => "Question added successfully"
    case UpdateCall => "Question updated successfully"
    case DeleteCall => "Question deleted successfully"
    case SettingsCall => "Survey settings updated successfully"
    case ReorderCall => "Question order updated"
  }

  function FailureFallback(call: Call): string {
    match call
    case CreateCall => "Error creating question"
    case UpdateCall => "Error updating question"
    case DeleteCall => "Error deleting question"
    case SettingsCall => "Error updating settings"
    case ReorderCall => "Error reordering questions"
  }

  /** `error.body?.message || fallback`. */
  function FailureText(f: Fault, fallback: string): (r: string)
    ensures BodyMessage(f) != "" ==> r == BodyMessage(f)
    ensures BodyMessage(f) == "" ==> r == fallback
  {
    Or(BodyMessage(f), fallback)
  }

  class SurveyBuilder {
    const recordId: string
    var isLoading: bool
    var isSaving: bool
    var survey: Option<SurveyRecord>
    var questions: seq<QuestionRow>
    var error: string
    var showQuestionModal: bool
    var editingQuestion: Option<QuestionRow>
    var isNewQuestion: bool
    var form: QuestionForm
    var showSettingsModal: bool
    var settings: SurveyRecord
    var toasts: seq<Toast>

    constructor (recordId: string)
      ensures this.recordId == recordId && isLoading && !isSaving && survey.None? && questions == []
      ensures error == "" && !showQuestionModal && editingQuestion.None? && !isNewQuestion
      ensures form == QuestionForm("", FREE_TEXT, false, "", 1) && !showSettingsModal
      ensures settings == SurveyRecord("", "", false, "", "", false, false) && toasts == []
    {
      this.recordId := recordId;
      isLoading, isSaving, survey, questions, error := true, false, None, [], "";
      showQuestionModal, editingQuestion, isNewQuestion := false, None, false;
      form := QuestionForm("", FREE_TEXT, false, "", 1);
      showSettingsModal := false;
      settings := SurveyRecord("", "", false, "", "", false, false);
      toasts := [];
    }

    /** `loadSurveyData`: start reading the survey and its questions. */
    method LoadSurveyData() returns (surveyId: string)
      modifies this`isLoading, this`error
      ensures isLoading && error == "" && surveyId == recordId
    {
      isLoading, error := true, "";
      surveyId := recordId;
    }

    /** Both reads resolve: number the rows from 1 and copy a loaded survey into the settings form. */
    method LoadSucceeded(loaded: Option<SurveyRecord>, data: seq<QuestionRecord>)
      modifies this`survey, this`questions, this`settings, this`isLoading
      ensures survey == loaded && questions == Rows(data) && !isLoading
      ensures loaded.Some? ==> settings == loaded.value
      ensures loaded.None? ==> settings == old(settings)
    {
      survey := loaded;
      questions := Rows(data);
      InitializeSurveySettings();
      isLoading := false;
    }

    method LoadFailed(f: Fault)
      modifies this`error, this`isLoading
      ensures error == FailureText(f, "Error loading survey data") && !isLoading
    {
      error, isLoading := FailureText(f, "Error loading survey data"), false;
    }

    method InitializeSurveySettings()
      modifies this`settings
      ensures survey.Some? ==> settings == survey.value
      ensures survey.None? ==> settings == old(settings)
    {
      if survey.Some? {
        settings := survey.value;
      }
    }

    /** A blank form for a new question, numbered after the last one. */
    method HandleAddQuestion()
      modifies this`isNewQuestion, this`editingQuestion, this`form, this`showQuestionModal
      ensures isNewQuestion && editingQuestion.None? && showQuestionModal
      ensures form == QuestionForm("", FREE_TEXT, false, "", |questions| + 1)
    {
      isNewQuestion, editingQuestion := true, None;
      form := QuestionForm("", FREE_TEXT, false, "", |questions| + 1);
      showQuestionModal := true;
    }

    /** Fill the form from the first row with that id; an unknown id does nothing. */
    method HandleEditQuestion(questionId: string)
      modifies this`isNewQuestion, this`editingQuestion, this`form, this`showQuestionModal
      ensures FindIndex(questions, questionId) == -1 ==>
        isNewQuestion == old(isNewQuestion) && editingQuestion == old(editingQuestion)
        && form == old(form) && showQuestionModal == old(showQuestionModal)
      ensures FindIndex(questions, questionId) >= 0 ==>
        var q := questions[FindIndex(questions, questionId)];
        !isNewQuestion && editingQuestion == Some(q) && showQuestionModal
        && form == QuestionForm(q.record.question, Or(q.record.questionType, FREE_TEXT), q.record.required,
                                q.record.choices, if q.record.orderNumber != 0 then q.record.orderNumber else 1)
    {
      var index := FindIndex(questions, questionId);
      if index >= 0 {
        var q := questions[index];
        isNewQuestion, editingQuestion := false, Some(q);
        form := QuestionForm(q.record.question, Or(q.record.questionType, FREE_TEXT), q.record.required,
                             q.record.choices, if q.record.orderNumber != 0 then q.record.orderNumber else 1);
        showQuestionModal := true;
      }
    }

    method HandleCloseQuestionModal()
      modifies this`showQuestionModal, this`editingQuestion
      ensures !showQuestionModal && editingQuestion.None?
    {
      showQuestionModal, editingQuestion := false, None;
    }

    /**
     * Refuse an invalid form with a toast; otherwise start creating a new
     * question, or updating the one being edited.
     */
    method HandleSaveQuestion() returns (request: Option<SaveRequest>)
      requires !isNewQuestion ==> editingQuestion.Some?
      modifies this`toasts, this`isSaving
      ensures request.None? <==> QuestionFormError(form).Some?
      ensures request.None? ==>
        toasts == old(toasts) + [Toast("Error", QuestionFormError(form).value, "error")] && isSaving == old(isSaving)
      ensures request.Some? ==> toasts == old(toasts) && isSaving
      ensures request.Some? && isNewQuestion ==> request.value == CreateQuestion(PayloadOf(form, recordId))
      ensures request.Some? && !isNewQuestion ==>
        request.value == UpdateQuestion(editingQuestion.value.record.id, PayloadOf(form, recordId))
    {
      var problem := QuestionFormError(form);
      if problem.Some? {
        toasts := toasts + [Toast("Error", problem.value, "error")];
        return None;
      }
      isSaving := true;
      if isNewQuestion {
        request := Some(CreateQuestion(PayloadOf(form, recordId)));
      } else {
        request := Some(UpdateQuestion(editingQuestion.value.record.id, PayloadOf(form, recordId)));
      }
    }

    /** Delete only after the user confirms. */
    method HandleDeleteQuestion(questionId: string, confirmed: bool) returns (request: Option<string>)
      modifies this`isSaving
      ensures confirmed ==> isSaving && request == Some(questionId)
      ensures !confirmed ==> isSaving == old(isSaving) && request.None?
    {
      if confirmed {
        isSaving := true;
        request := Some(questionId);
      } else {
        request := None;
      }
    }

    method HandleOpenSettings()
      modifies this`settings, this`showSettingsModal
      ensures survey.Some? ==> settings == survey.value
      ensures survey.None? ==> settings == old(settings)
      ensures showSettingsModal
    {
      InitializeSurveySettings();
      showSettingsModal := true;
    }

    method HandleCloseSettingsModal()
      modifies this`showSettingsModal
      ensures !showSettingsModal
    {
      showSettingsModal := false;
    }

    /** Refuse a blank survey name with a toast; otherwise send the settings form. */
    method HandleSaveSettings() returns (request: Option<(string, SurveyRecord)>)
      modifies this`toasts, this`isSaving
      ensures request.None? <==> IsBlank(settings.name)
      ensures request.None? ==>
        toasts == old(toasts) + [Toast("Error", "Survey name is required", "error")] && isSaving == old(isSaving)
      ensures request.Some? ==> request.value == (recordId, settings) && isSaving && toasts == old(toasts)
    {
      if IsBlank(settings.name) {
        toasts := toasts + [Toast("Error", "Survey name is required", "error")];
        return None;
      }
      isSaving := true;
      request := Some((recordId, settings));
    }

    /** Move a question one place up; the first question, or an unknown id, stays. */
    method HandleMoveUp(questionId: string) returns (request: Option<seq<string>>)
      modifies this`isSaving
      ensures var index := FindIndex(questions, questionId);
        request.Some? <==> index > 0
      ensures request.None? ==> isSaving == old(isSaving)
      ensures request.Some? ==> isSaving && multiset(request.value) == multiset(Ids(questions))
      ensures var index := FindIndex(questions, questionId);
        request.Some? ==> request.value == Ids(questions)[index := Ids(questions)[index - 1]][index - 1 := questionId]
    {
      var index := FindIndex(questions, questionId);
      if index > 0 {
        var ids := SwapQuestions(index, index - 1);
        request := Some(ids);
      } else {
        request := None;
      }
    }

    /** Move a question one place down; the last question stays. */
    method HandleMoveDown(questionId: string) returns (request: Option<seq<string>>)
      requires FindIndex(questions, questionId) >= 0
      modifies this`isSaving
      ensures var index := FindIndex(questions, questionId);
        request.Some? <==> index < |questions| - 1
      ensures request.None? ==> isSaving == old(isSaving)
      ensures request.Some? ==> isSaving && multiset(request.value) == multiset(Ids(questions))
      ensures var index := FindIndex(questions, questionId);
        request.Some? ==> request.value == Ids(questions)[index := Ids(questions)[index + 1]][index + 1 := questionId]
    {
      var index := FindIndex(questions, questionId);
      if index < |questions| - 1 {
        var ids := SwapQuestions(index, index + 1);
        request := Some(ids);
      } else {
        request := None;
      }
    }

    /** `swapQuestions`: the id list with two positions exchanged, sent to `reorderQuestions`. */
    method SwapQuestions(from: nat, to: nat) returns (ids: seq<string>)
      requires from < |questions| && to < |questions|
      modifies this`isSaving
      ensures isSaving
      ensures ids == Ids(questions)[from := Ids(questions)[to]][to := Ids(questions)[from]]
      ensures multiset(ids) == multiset(Ids(questions))
    {
      isSaving := true;
      ids := SwappedIds(questions, from, to);
      assert ids == Ids(questions)[from := Ids(questions)[to]][to := Ids(questions)[from]];
    }

    /**
     * A create, update, delete, settings or reorder call succeeds: toast,
     * close the modal the call came from, and reload. `isSaving` stays set
     * (the reload does not clear it).
     */
    method CallSucceeded(call: Call) returns (surveyId: string)
      modifies this`toasts, this`showQuestionModal, this`showSettingsModal, this`isLoading, this`error
      ensures toasts == old(toasts) + [Toast("Success", SuccessMessage(call), "success")]
      ensures call.CreateCall? || call.UpdateCall? ==> !showQuestionModal
      ensures !(call.CreateCall? || call.UpdateCall?) ==> showQuestionModal == old(showQuestionModal)
      ensures call.SettingsCall? ==> !showSettingsModal
      ensures !call.SettingsCall? ==> showSettingsModal == old(showSettingsModal)
      ensures isLoading && error == "" && surveyId == recordId
    {
      toasts := toasts + [Toast("Success", SuccessMessage(call), "success")];
      if call.CreateCall? || call.UpdateCall? {
        showQuestionModal := false;
      } else if call.SettingsCall? {
        showSettingsModal := false;
      }
      surveyId := LoadSurveyData();
    }

    /** Any of those calls fails: toast the server's message or the call's own fallback, and unlock. */
    method CallFailed(call: Call, f: Fault)
      modifies this`toasts, this`isSaving
      ensures toasts == old(toasts) + [Toast("Error", FailureText(f, FailureFallback(call)), "error")]
      ensures !isSaving
    {
      toasts := toasts + [Toast("Error", FailureText(f, FailureFallback(call)), "error")];
      isSaving := false;
    }
  }
}

=== FILE: survey_builder_lwc.dfy ===
/**
 * The stand-alone question-list builder (`surveyBuilderLwc` component): the
 * same modal editing as the survey editor, on questions that keep their
 * choices as raw text.
 */
module SurveyBuilderLwc {
  import opened Common
  import opened Questions
  import SurveyCreator
  import SurveyQuestion

  /** A question of this builder: choices stay as the text typed into the modal. */
  datatype BuilderQuestion = BuilderQuestion(
    id: string,
    question: string,
    questionType: string,
    required: bool,
    choicesText: string,
    orderNumber: Option<int>)

  /** `questionsWithIndex` from position `start`. */
  function WithIndexFrom(qs: seq<BuilderQuestion>, start: nat): (r: seq<(BuilderQuestion, nat)>)
    ensures |r| == |qs|
    ensures forall i :: 0 <= i < |qs| ==> r[i] == (qs[i].(orderNumber := Some(start + i + 1)), start + i)
  {
    if qs == [] then [] else [(qs[0].(orderNumber := Some(start + 1)), start)] + WithIndexFrom(qs[1..], start + 1)
  }

  /** Each question with `index` = its position and `orderNumber` = position + 1; nothing else changes. */
  function QuestionsWithIndex(qs: seq<BuilderQuestion>): (r: seq<(BuilderQuestion, nat)>)
    ensures |r| == |qs|
    ensures forall i :: 0 <= i < |qs| ==> r[i].1 == i && r[i].0.orderNumber == Some(i + 1)
    ensures forall i :: 0 <= i < |qs| ==> r[i].0.(orderNumber := qs[i].orderNumber) == qs[i]
  {
    WithIndexFrom(qs, 0)
  }

  /** The choices text area is shown exactly for the three select types (compared untrimmed). */
  predicate ShowChoices(questionType: string) {
    questionType == SINGLE_SELECT_VERTICAL || questionType == SINGLE_SELECT_HORIZONTAL
    || questionType == MULTI_SELECT_VERTICAL
  }

  function QuestionModalTitle(editingQuestionIndex: Option<nat>): (r: string)
    ensures r == "Edit Question" <==> editingQuestionIndex.Some?
    ensures editingQuestionIndex.None? ==> r == "Add Question"
  {
    if editingQuestionIndex.Some? then "Edit Question" else "Add Question"
  }

  /**
   * The modal shows the choices box exactly for the types the question
   * component renders as radio buttons or checkboxes, provided the type
   * carries no padding (the modal compares untrimmed).
   */
  lemma ShowChoicesMatchesQuestionKinds(questionType: string)
    ensures ShowChoices(questionType) <==>
      Trim(questionType) == questionType
      && (SurveyQuestion.IsSingleSelect(questionType) || SurveyQuestion.IsMultiSelect(questionType))
  {
    if ShowChoices(questionType) {
      TrimUnpadded(questionType);
    }
  }

  class SurveyBuilderLwc {
    var questions: seq<BuilderQuestion>
    var showQuestionModal: bool
    var currentQuestion: SurveyCreator.Draft
    var editingQuestionIndex: Option<nat>
    var toasts: seq<Toast>

    constructor ()
      ensures questions == [] && !showQuestionModal && editingQuestionIndex.None? && toasts == []
      ensures currentQuestion == SurveyCreator.EMPTY_DRAFT
    {
      questions, showQuestionModal, editingQuestionIndex, toasts := [], false, None, [];
      currentQuestion := SurveyCreator.EMPTY_DRAFT;
    }

    method HandleAddQuestion()
      modifies this`editingQuestionIndex, this`currentQuestion, this`showQuestionModal
      ensures editingQuestionIndex.None? && currentQuestion == SurveyCreator.EMPTY_DRAFT && showQuestionModal
    {
      editingQuestionIndex, currentQuestion, showQuestionModal := None, SurveyCreator.EMPTY_DRAFT, true;
    }

    method HandleEditQuestion(index: nat)
      requires index < |questions|
      modifies this`editingQuestionIndex, this`currentQuestion, this`showQuestionModal
      ensures editingQuestionIndex == Some(index) && showQuestionModal
      ensures var q := questions[index];
        currentQuestion == SurveyCreator.Draft(q.id, q.question, q.questionType, q.required, q.choicesText)
    {
      var q := questions[index];
      editingQuestionIndex := Some(index);
      currentQuestion := SurveyCreator.Draft(q.id, q.question, q.questionType, q.required, q.choicesText);
      showQuestionModal := true;
    }

    /** Append a `' (Copy)'` clone under a fresh id and without an order number; the original stays. */
    method HandleDuplicateQuestion(index: nat, freshId: string)
      requires index < |questions|
      modifies this`questions, this`toasts
      ensures |questions| == |old(questions)| + 1 && questions[..|old(questions)|] == old(questions)
      ensures var q := old(questions)[index];
        questions[|old(questions)|]
          == BuilderQuestion(freshId, q.question + " (Copy)", q.questionType, q.required, q.choicesText, None)
      ensures toasts == old(toasts) + [Toast("Success", "Question duplicated", "success")]
    {
      var q := questions[index];
      questions := questions + [BuilderQuestion(freshId, q.question + " (Copy)", q.questionType, q.required, q.choicesText, None)];
      toasts := toasts + [Toast("Success", "Question duplicated", "success")];
    }

    method HandleDeleteQuestion(index: int)
      modifies this`questions, this`toasts
      ensures questions == RemoveAt(old(questions), index)
      ensures toasts == old(toasts) + [Toast("Success", "Question deleted", "success")]
    {
      questions := RemoveAt(questions, index);
      toasts := toasts + [Toast("Success", "Question deleted", "success")];
    }

    /** Refuse a blank text; otherwise replace the edited question or append one numbered after the last. */
    method HandleSaveQuestion(freshId: string)
      requires editingQuestionIndex.Some? ==> editingQuestionIndex.value < |questions|
      modifies this`questions, this`showQuestionModal, this`toasts
      ensures IsBlank(currentQuestion.question) ==>
        questions == old(questions) && showQuestionModal == old(showQuestionModal)
        && toasts == old(toasts) + [Toast("Error", "Question text is required", "error")]
      ensures !IsBlank(currentQuestion.question) ==>
        !showQuestionModal && toasts == old(toasts) + [Toast("Success", "Question saved", "success")]
      ensures var d := currentQuestion;
        var data := BuilderQuestion(Or(d.id, freshId), d.question, d.questionType, d.required, d.choicesText, None);
        !IsBlank(d.question) ==>
          questions == if editingQuestionIndex.Some? then old(questions)[editingQuestionIndex.value := data]
                       else old(questions) + [data.(orderNumber := Some(|old(questions)| + 1))]
    {
      if IsBlank(currentQuestion.question) {
        toasts := toasts + [Toast("Error", "Question text is required", "error")];
        return;
      }
      var d := currentQuestion;
      var data := BuilderQuestion(Or(d.id, freshId), d.question, d.questionType, d.required, d.choicesText, None);
      if editingQuestionIndex.Some? {
        questions := questions[editingQuestionIndex.value := data];
      } else {
        questions := questions + [data.(orderNumber := Some(|questions| + 1))];
      }
      showQuestionModal := false;
      toasts := toasts + [Toast("Success", "Question saved", "success")];
    }
  }
}

=== FILE: survey_creator.dfy ===
/**
 * The survey editor (`surveyCreator` component): survey settings, a list of
 * questions edited through a modal, choice lines parsed from a text area,
 * and the two-step creation (the survey, then its questions).
 */
module SurveyCreator {
  import opened Common
  import opened Questions

  /** A question as the editor holds it; `choices` are the parsed choice lines. */
  datatype EditorQuestion = EditorQuestion(
    id: string,
    question: string,
    questionType: string,
    required: bool,
    choices: seq<string>,
    choicesText: string,
    orderNumber: Option<int>)

  /** `currentQuestion`, the content of the question modal. */
  datatype Draft = Draft(id: string, question: string, questionType: string, required: bool, choicesText: string)

  /** One element of the `questions` array `createSurveyQuestions` receives. */
  datatype QuestionPayload = QuestionPayload(question: string, questionType: string, required: bool, choices: seq<string>, orderNumber: int)

  /** The survey settings `createSurveyWithDetails` receives. */
  datatype SurveySettings = SurveySettings(
    name: string, header: string, thankYouText: string, thankYouLink: string,
    hideSurveyName: bool, allResponsesAnonymous: bool)

  /** `{ success, surveyId, message }`. */
  datatype CreateResult = CreateResult(success: bool, surveyId: string, message: string)

  /** The settings of a new survey. */
  const NO_SETTINGS: SurveySettings := SurveySettings("", "", "", "", false, false)

  /** The modal content `handleAddQuestion` opens with. */
  const EMPTY_DRAFT: Draft := Draft("", "", FREE_TEXT, false, "")

  // ---------------------------------------------------------------------
  // Choice lines
  // ---------------------------------------------------------------------

  /** `lines.map((c) => c.trim()).filter((c) => c)`. */
  function TrimmedNonEmpty(lines: seq<string>): (r: seq<string>)
    ensures |r| <= |lines|
  {
    if lines == [] then []
    else (if Trim(lines[0]) != "" then [Trim(lines[0])] else []) + TrimmedNonEmpty(lines[1..])
  }

  /** `lines.map((c) => c.trim())`. */
  function TrimAll(lines: seq<string>): (r: seq<string>)
    ensures |r| == |lines|
    ensures forall i :: 0 <= i < |lines| ==> r[i] == Trim(lines[i])
  {
    if lines == [] then [] else [Trim(lines[0])] + TrimAll(lines[1..])
  }

  /** The choices `handleSaveQuestion` parses from the text area: one per non-blank line, trimmed. */
  function ParseChoices(text: string): seq<string> {
    if text != "" then TrimmedNonEmpty(Split(text, '\n')) else []
  }

  /** Every parsed choice is non-empty and already trimmed. */
  lemma {:induction false} ChoicesAreClean(lines: seq<string>)
    ensures forall c :: c in TrimmedNonEmpty(lines) ==> c != "" && Trim(c) == c
  {
    if lines != [] {
      var head := Trim(lines[0]);
      var rest := TrimmedNonEmpty(lines[1..]);
      ChoicesAreClean(lines[1..]);
      TrimIdempotent(lines[0]);
      assert TrimmedNonEmpty(lines) == (if head != "" then [head] else []) + rest;
      forall c | c in TrimmedNonEmpty(lines)
        ensures c != "" && Trim(c) == c
      {
        if c !in rest {
          assert c == head;
        }
      }
    }
  }

  /** The parsed choices are the trimmed lines, in line order, with the empty ones left out. */
  lemma {:induction false} ChoicesKeepLineOrder(lines: seq<string>)
    ensures IsSubsequence(TrimmedNonEmpty(lines), TrimAll(lines))
    ensures forall l :: l in lines && Trim(l) != "" ==> Trim(l) in TrimmedNonEmpty(lines)
  {
    if lines != [] {
      ChoicesKeepLineOrder(lines[1..]);
      var rest := TrimmedNonEmpty(lines[1..]);
      assert TrimAll(lines)[1..] == TrimAll(lines[1..]);
      if Trim(lines[0]) != "" {
        assert TrimmedNonEmpty(lines) == [Trim(lines[0])] + rest;
        assert ([Trim(lines[0])] + rest)[1..] == rest;
      } else {
        assert TrimmedNonEmpty(lines) == rest;
      }
      assert forall l :: l in lines ==> l == lines[0] || l in lines[1..];
    }
  }

  /** Whatever was typed, no choice spans two lines, is empty, or has surrounding white space. */
  lemma ParsedChoicesAreLines(text: string)
    ensures forall c :: c in ParseChoices(text) ==> c != "" && Trim(c) == c && '\n' !in c
  {
    if text != "" {
      var lines := Split(text, '\n');
      ChoicesAreClean(lines);
      ChoicesKeepLineOrder(lines);
      forall c | c in ParseChoices(text)
        ensures '\n' !in c
      {
        NoNewlineAfterTrim(lines, c);
      }
    }
  }

  lemma {:induction false} NoNewlineAfterTrim(lines: seq<string>, c: string)
    requires forall l :: l in lines ==> '\n' !in l
    requires c in TrimmedNonEmpty(lines)
    ensures '\n' !in c
  {
    if Trim(lines[0]) != "" && c == Trim(lines[0]) {
      TrimIsInner(lines[0]);
    } else {
      assert forall l :: l in lines[1..] ==> l in lines;
      NoNewlineAfterTrim(lines[1..], c);
    }
  }

  /** A trimmed string is a piece of the original. */
  lemma TrimIsInner(s: string)
    ensures forall ch :: ch in Trim(s) ==> ch in s
  {
    var t := TrimStart(s);
    assert forall ch :: ch in t ==> ch in s;
  }

  // ---------------------------------------------------------------------
  // Question list views
  // ---------------------------------------------------------------------

  /** `questionsWithIndex` from position `start`: each question with its index and `orderNumber = index + 1`. */
  function WithIndexFrom(qs: seq<EditorQuestion>, start: nat): (r: seq<(EditorQuestion, nat)>)
    ensures |r| == |qs|
    ensures forall i :: 0 <= i < |qs| ==> r[i] == (qs[i].(orderNumber := Some(start + i + 1)), start + i)
  {
    if qs == [] then [] else [(qs[0].(orderNumber := Some(start + 1)), start)] + WithIndexFrom(qs[1..], start + 1)
  }

  function QuestionsWithIndex(qs: seq<EditorQuestion>): (r: seq<(EditorQuestion, nat)>)
    ensures |r| == |qs|
    ensures forall i :: 0 <= i < |qs| ==> r[i].1 == i && r[i].0.orderNumber == Some(i + 1)
    ensures forall i :: 0 <= i < |qs| ==> r[i].0.(orderNumber := qs[i].orderNumber) == qs[i]
  {
    WithIndexFrom(qs, 0)
  }

  /** The question payload of `handleCreateSurvey`, numbered from `start + 1`. */
  function PayloadFrom(qs: seq<EditorQuestion>, start: nat): (r: seq<QuestionPayload>)
    ensures |r| == |qs|
    ensures forall i :: 0 <= i < |qs| ==>
      r[i] == QuestionPayload(qs[i].question, qs[i].questionType, qs[i].required, qs[i].choices, start + i + 1)
  {
    if qs == [] then []
    else [QuestionPayload(qs[0].question, qs[0].questionType, qs[0].required, qs[0].choices, start + 1)]
         + PayloadFrom(qs[1..], start + 1)
  }

  function QuestionPayloads(qs: seq<EditorQuestion>): seq<QuestionPayload> {
    PayloadFrom(qs, 0)
  }

  /** The numbers sent on creation are the numbers shown in the list, whatever the stored `orderNumber`s say. */
  lemma PayloadMatchesDisplay(qs: seq<EditorQuestion>)
    ensures |QuestionPayloads(qs)| == |QuestionsWithIndex(qs)|
    ensures forall i :: 0 <= i < |qs| ==>
      Some(QuestionPayloads(qs)[i].orderNumber) == QuestionsWithIndex(qs)[i].0.orderNumber
      && QuestionPayloads(qs)[i].question == QuestionsWithIndex(qs)[i].0.question
  {
  }

  // ---------------------------------------------------------------------
  // Header texts
  // ---------------------------------------------------------------------

  /** `canCreate`: the name has a character other than white space. */
  predicate CanCreate(name: string) {
    !IsBlank(name)
  }

  function SurveyStatusText(isViewMode: bool, surveyId: string): (r: string)
    ensures isViewMode ==> r == "Viewing Survey"
    ensures !isViewMode ==> (r == "Saved" <==> surveyId != "")
    ensures !isViewMode && surveyId == "" ==> r == "Draft - Not saved"
  {
    if isViewMode then "Viewing Survey" else if surveyId != "" then "Saved" else "Draft - Not saved"
  }

  function CreateButtonLabel(isViewMode: bool, surveyId: string): (r: string)
    ensures isViewMode ==> r == "Edit Survey"
    ensures !isViewMode ==> (r == "Update Survey" <==> surveyId != "")
    ensures !isViewMode && surveyId == "" ==> r == "Create Survey"
  {
    if isViewMode then "Edit Survey" else if surveyId != "" then "Update Survey" else "Create Survey"
  }

  /** `'Error creating …: ' + (error.body?.message || error.message)`. */
  function FaultText(prefix: string, f: Fault): string {
    prefix + Or(BodyMessage(f), MessageOf(f))
  }

  /** The question `handleSaveQuestion` builds from the modal, before it is placed. */
  function QuestionFrom(draft: Draft, freshId: string): (q: EditorQuestion)
    ensures q.id == Or(draft.id, freshId) && q.question == draft.question
    ensures q.questionType == draft.questionType && q.required == draft.required
    ensures q.choices == ParseChoices(draft.choicesText) && q.choicesText == draft.choicesText
    ensures q.orderNumber.None?
  {
    EditorQuestion(Or(draft.id, freshId), draft.question, draft.questionType, draft.required,
                   ParseChoices(draft.choicesText), draft.choicesText, None)
  }

  class SurveyCreator {
    var surveyId: string
    /** `surveyName`, `surveyHeader`, `thankYouText`, `thankYouLink`, `hideSurveyName`, `allResponsesAnonymous`. */
    var settings: SurveySettings
    var isViewMode: bool
    var showSettings: bool
    var activeTab: string
    var isCreating: bool
    var totalResponses: int
    /** `surveyCreatedDate` (`""` for `null`). */
    var createdDate: string
    var questions: seq<EditorQuestion>
    var showQuestionModal: bool
    var currentQuestion: Draft
    var editingQuestionIndex: Option<nat>
    var toasts: seq<Toast>

    constructor ()
      ensures surveyId == "" && settings == NO_SETTINGS && questions == [] && toasts == []
      ensures !isViewMode && !isCreating && !showQuestionModal && editingQuestionIndex.None?
      ensures currentQuestion == EMPTY_DRAFT
    {
      surveyId, settings := "", NO_SETTINGS;
      isViewMode, showSettings, activeTab, isCreating := false, true, "build", false;
      totalResponses, createdDate, questions := 0, "", [];
      showQuestionModal, currentQuestion, editingQuestionIndex, toasts := false, EMPTY_DRAFT, None, [];
    }

    /** Forget the survey being edited and start an empty one. */
    method HandleNewSurvey()
      modifies this`surveyId, this`settings, this`questions, this`totalResponses
      modifies this`createdDate, this`isViewMode, this`showSettings, this`activeTab
      ensures surveyId == "" && settings == NO_SETTINGS && questions == [] && totalResponses == 0
      ensures createdDate == "" && !isViewMode && showSettings && activeTab == "build"
    {
      surveyId, settings, questions, totalResponses := "", NO_SETTINGS, [], 0;
      createdDate, isViewMode, showSettings, activeTab := "", false, true, "build";
    }

    /** Open the modal on an empty Free Text question to be appended. */
    method HandleAddQuestion()
      modifies this`editingQuestionIndex, this`currentQuestion, this`showQuestionModal
      ensures editingQuestionIndex.None? && currentQuestion == EMPTY_DRAFT && showQuestionModal
    {
      editingQuestionIndex, currentQuestion, showQuestionModal := None, EMPTY_DRAFT, true;
    }

    /** Open the modal on the question at `index`, to be replaced on save. */
    method HandleEditQuestion(index: nat)
      requires index < |questions|
      modifies this`editingQuestionIndex, this`currentQuestion, this`showQuestionModal
      ensures editingQuestionIndex == Some(index) && showQuestionModal
      ensures var q := questions[index];
        currentQuestion == Draft(q.id, q.question, q.questionType, q.required, q.choicesText)
    {
      var q := questions[index];
      editingQuestionIndex := Some(index);
      currentQuestion := Draft(q.id, q.question, q.questionType, q.required, q.choicesText);
      showQuestionModal := true;
    }

    /** Append a copy of the question at `index` under a fresh id; the original stays as it is. */
    method HandleDuplicateQuestion(index: nat, freshId: string)
      requires index < |questions|
      modifies this`questions, this`toasts
      ensures |questions| == |old(questions)| + 1 && questions[..|old(questions)|] == old(questions)
      ensures var q := old(questions)[index];
        questions[|old(questions)|]
          == EditorQuestion(freshId, q.question + " (Copy)", q.questionType, q.required, q.choices,
                            q.choicesText, Some(|old(questions)| + 1))
      ensures toasts == old(toasts) + [Toast("Success", "Question duplicated", "success")]
    {
      var q := questions[index];
      var copy := EditorQuestion(freshId, q.question + " (Copy)", q.questionType, q.required, q.choices,
                                 q.choicesText, Some(|questions| + 1));
      questions := questions + [copy];
      toasts := toasts + [Toast("Success", "Question duplicated", "success")];
    }

    /** Remove the question at `index` (nothing when there is none), keeping the others in order. */
    method HandleDeleteQuestion(index: int)
      modifies this`questions, this`toasts
      ensures questions == RemoveAt(old(questions), index)
      ensures toasts == old(toasts) + [Toast("Success", "Question deleted", "success")]
    {
      questions := RemoveAt(questions, index);
      toasts := toasts + [Toast("Success", "Question deleted", "success")];
    }

    /**
     * Refuse a blank question text; otherwise replace the question being
     * edited, or append a new one numbered after the last, and close the modal.
     */
    method HandleSaveQuestion(freshId: string)
      requires editingQuestionIndex.Some? ==> editingQuestionIndex.value < |questions|
      modifies this`questions, this`showQuestionModal, this`toasts
      ensures IsBlank(currentQuestion.question) ==>
        questions == old(questions) && showQuestionModal == old(showQuestionModal)
        && toasts == old(toasts) + [Toast("Error", "Question text is required", "error")]
      ensures !IsBlank(currentQuestion.question) ==>
        !showQuestionModal && toasts == old(toasts) + [Toast("Success", "Question saved", "success")]
      ensures !IsBlank(currentQuestion.question) && editingQuestionIndex.Some? ==>
        questions == old(questions)[editingQuestionIndex.value := QuestionFrom(currentQuestion, freshId)]
      ensures !IsBlank(currentQuestion.question) && editingQuestionIndex.None? ==>
        questions == old(questions) + [QuestionFrom(currentQuestion, freshId).(orderNumber := Some(|old(questions)| + 1))]
    {
      if IsBlank(currentQuestion.question) {
        toasts := toasts + [Toast("Error", "Question text is required", "error")];
        return;
      }
      var data := QuestionFrom(currentQuestion, freshId);
      if editingQuestionIndex.Some? {
        questions := questions[editingQuestionIndex.value := data];
      } else {
        questions := questions + [data.(orderNumber := Some(|questions| + 1))];
      }
      showQuestionModal := false;
      toasts := toasts + [Toast("Success", "Question saved", "success")];
    }

    /** Refuse a blank name; otherwise start creating the survey with its settings. */
    method HandleCreateSurvey() returns (request: Option<SurveySettings>)
      modifies this`isCreating, this`toasts
      ensures request.None? <==> !CanCreate(settings.name)
      ensures request.None? ==>
        toasts == old(toasts) + [Toast("Error", "Please enter a survey name", "error")] && isCreating == old(isCreating)
      ensures request.Some? ==> isCreating && toasts == old(toasts) && request.value == settings
    {
      if IsBlank(settings.name) {
        toasts := toasts + [Toast("Error", "Please enter a survey name", "error")];
        return None;
      }
      isCreating := true;
      request := Some(settings);
    }

    /**
     * The survey record is created (or refused). With questions, their
     * creation is requested, numbered by position; without, the survey is
     * done and shown in view mode, stamped with `now`.
     */
    method CreateResolved(result: CreateResult, now: string) returns (request: Option<(string, seq<QuestionPayload>)>)
      modifies this`surveyId, this`toasts, this`isCreating, this`isViewMode, this`createdDate
      ensures !result.success ==>
        request.None? && surveyId == old(surveyId) && !isCreating && isViewMode == old(isViewMode)
        && toasts == old(toasts) + [Toast("Error", result.message, "error")]
      ensures result.success ==> surveyId == result.surveyId
      ensures result.success && |questions| > 0 ==>
        request == Some((result.surveyId, QuestionPayloads(questions))) && toasts == old(toasts)
        && isCreating == old(isCreating)
      ensures result.success && |questions| == 0 ==>
        request.None? && !isCreating && isViewMode && createdDate == now
        && toasts == old(toasts) + [Toast("Success", "Survey created successfully", "success")]
    {
      request := None;
      if !result.success {
        toasts := toasts + [Toast("Error", result.message, "error")];
        isCreating := false;
        return;
      }
      surveyId := result.surveyId;
      if |questions| > 0 {
        request := Some((result.surveyId, QuestionPayloads(questions)));
      } else {
        toasts := toasts + [Toast("Success", "Survey created successfully", "success")];
        isCreating := false;
        isViewMode := true;
        createdDate := now;
      }
    }

    /** The questions are created: the survey is done and shown in view mode. */
    method QuestionsCreated(now: string)
      modifies this`toasts, this`isCreating, this`isViewMode, this`createdDate
      ensures !isCreating && isViewMode && createdDate == now
      ensures toasts == old(toasts) + [Toast("Success", "Survey created successfully", "success")]
    {
      toasts := toasts + [Toast("Success", "Survey created successfully", "success")];
      isCreating, isViewMode, createdDate := false, true, now;
    }

    /** Either remote call is rejected: one error toast, and creation stops. */
    method CreateFailed(f: Fault, questionsStep: bool)
      modifies this`toasts, this`isCreating
      ensures !isCreating
      ensures toasts == old(toasts) + [Toast("Error",
        FaultText(if questionsStep then "Error creating questions: " else "Error creating survey: ", f), "error")]
    {
      var prefix := if questionsStep then "Error creating questions: " else "Error creating survey: ";
      toasts := toasts + [Toast("Error", FaultText(prefix, f), "error")];
      isCreating := false;
    }
  }
}

=== FILE: survey_question.dfy ===
/**
 * One rendered question (`surveyQuestion` component): its label, which kind
 * of input it shows, and the detail of the `responsechange` event it sends
 * to the taker.
 */
module SurveyQuestion {
  import opened Common
  import opened Questions

  /** `` `${orderNumber}: ${question}` ``. */
  function QuestionLabel(q: Question): (r: string)
    ensures |r| == |IntToString(q.orderNumber)| + 2 + |q.question|
    ensures r[..|IntToString(q.orderNumber)|] == IntToString(q.orderNumber)
    ensures r[|IntToString(q.orderNumber)|..|IntToString(q.orderNumber)| + 2] == ": "
    ensures r[|r| - |q.question|..] == q.question
  {
    IntToString(q.orderNumber) + ": " + q.question
  }

  /** The text before the label's first colon is the order number. */
  lemma LabelStartsWithNumber(q: Question)
    ensures Split(QuestionLabel(q), ':')[0] == IntToString(q.orderNumber)
  {
    var n := IntToString(q.orderNumber);
    assert ':' !in n;
    assert QuestionLabel(q) == n + [':'] + (" " + q.question);
    SplitAfterPiece(n, ':', " " + q.question);
  }

  predicate IsFreeText(questionType: string) {
    Trim(questionType) == FREE_TEXT
  }

  predicate IsSingleSelect(questionType: string) {
    Trim(questionType) == SINGLE_SELECT_VERTICAL || Trim(questionType) == SINGLE_SELECT_HORIZONTAL
  }

  predicate IsMultiSelect(questionType: string) {
    Trim(questionType) == MULTI_SELECT_VERTICAL
  }

  /** A question shows at most one kind of input. */
  lemma AtMostOneKind(questionType: string)
    ensures !(IsFreeText(questionType) && IsSingleSelect(questionType))
    ensures !(IsFreeText(questionType) && IsMultiSelect(questionType))
    ensures !(IsSingleSelect(questionType) && IsMultiSelect(questionType))
  {
  }

  /** The kind depends only on the trimmed type: surrounding white space does not change it. */
  lemma KindIgnoresPadding(questionType: string)
    ensures IsFreeText(Trim(questionType)) == IsFreeText(questionType)
    ensures IsSingleSelect(Trim(questionType)) == IsSingleSelect(questionType)
    ensures IsMultiSelect(Trim(questionType)) == IsMultiSelect(questionType)
  {
    TrimIdempotent(questionType);
  }

  /** `choices && choices.length > 0` (a missing list is empty). */
  predicate HasChoices(q: Question) {
    |q.choices| > 0
  }

  /** The `responsechange` detail: this question's id and its type as stored, untrimmed. */
  function ChangeDetail(q: Question, value: string, checked: bool): (d: ResponseDetail)
    ensures d.questionId == q.id && d.questionType == q.questionType
    ensures d.value == value && d.checked == checked
  {
    ResponseDetail(q.id, value, checked, q.questionType)
  }

  /**
   * The detail carries the untrimmed type, while the kind of input is
   * decided on the trimmed one: a padded Multi-Select type shows check
   * boxes, yet its detail does not equal the Multi-Select type the takers
   * compare against.
   */
  lemma PaddedTypeReachesTakerUntrimmed(q: Question, value: string, checked: bool)
    requires q.questionType == " " + MULTI_SELECT_VERTICAL
    ensures IsMultiSelect(q.questionType)
    ensures ChangeDetail(q, value, checked).questionType != MULTI_SELECT_VERTICAL
  {
    var m := MULTI_SELECT_VERTICAL;
    assert m[0] == 'M' && m[|m| - 1] == 'l';
    TrimOneLeadingSpace(m);
  }
}

=== FILE: survey_taker.dfy ===
/**
 * The one-question-at-a-time survey taker (`surveyTaker` component): where
 * the survey and respondent come from (component properties or the page
 * state), loading a survey once per identity, recording answers, walking
 * forward and back through the visible questions, validating required
 * questions and building the submission.
 *
 * The decisions the handlers take are pure functions of the fields they
 * read (`ShouldLoad`, `Blocked`, `ValidateResponses`, `SubmitRequestFor`),
 * about which the lemmas speak; the class `SurveyTaker` updates its fields
 * in place and states each handler's new field values in terms of them.
 */
module SurveyTaker {
  import opened Common
  import opened Questions
  import opened ResponseStore

  const DEFAULT_THANK_YOU: string := "Your survey response has been recorded. Thank you!"
  const SURVEY_NOT_FOUND: string := "Survey not found or not available"
  const LOAD_ERROR: string := "Error loading survey"
  const SUBMIT_ERROR: string := "Error submitting survey"
  const ANONYMOUS_OPTION: string := "Anonymous"
  const ANONYMOUS_VALUE: string := "anonymous"

  /** `pageRef.state`; a missing parameter (or a missing state) is `""`. */
  datatype PageState = PageState(cRecordId: string, cCaseId: string, cContactId: string, cToken: string, token: string)

  /** The remote read: `getSurveyDataByToken` or `getSurveyData`. */
  datatype LoadRequest =
    | LoadByToken(token: string)
    | LoadByIdentity(surveyId: string, caseId: string, contactId: string)

  /** `result.survey`: `Name`, `Survey_Header__c`, `Hide_Survey_Name__c`, `Thank_You_Text__c`. */
  datatype SurveyRecord = SurveyRecord(name: string, header: string, hideName: bool, thankYouText: string)

  /** A result that has a survey. */
  datatype SurveyPayload = SurveyPayload(
    survey: SurveyRecord,
    invitationHeader: string,
    questions: seq<Question>,
    isInternal: bool,
    anonymousOption: string)

  /** The remote write: `submitSurveyWithToken` or `submitSurveyResponses`. */
  datatype SubmitRequest =
    | SubmitWithToken(token: string, responses: seq<Response>)
    | SubmitResponses(surveyId: string, responses: seq<Response>, caseId: string, contactId: string, isAnonymous: bool)

  /** How the submission settles: resolved with `{ success, thankYouText, message }`, or rejected. */
  datatype SubmitOutcome = Submitted(success: bool, thankYouText: string, message: string) | SubmitFailed(fault: Fault)

  /** The toast `handleNext` shows on a required question without an answer. */
  const REQUIRED_TOAST: Toast := Toast("Required Field", "Please answer this question before continuing.", "error")

  /** What `handleSubmit` did: refused with a validation message, or sent a request. */
  datatype SubmitStart = Invalid(message: string) | Sent(request: SubmitRequest)

  /** What `handleNext` did. */
  datatype NextStep = NeedsAnswer | Advanced | ChooseAnonymity | Submitting(start: SubmitStart)


  // ---------------------------------------------------------------------
  // Identity and loading
  // ---------------------------------------------------------------------

  /**
   * `shouldLoadSurveyData`: there is an identifier, it differs from the one
   * loaded, and no load is in flight.
   */
  predicate ShouldLoad(id: string, token: string, loadedId: string, loadedToken: string, isLoading: bool) {
    (id != "" || token != "") && (id != loadedId || token != loadedToken) && !isLoading
  }

  /** The request `loadSurveyData` sends: by token whenever there is one. */
  function LoadRequestFor(token: string, surveyId: string, caseId: string, contactId: string): LoadRequest {
    if token != "" then LoadByToken(token) else LoadByIdentity(surveyId, caseId, contactId)
  }

  /** Anonymity is a choice only without a token, for internal users, on a survey that is not all-anonymous. */
  function CanChooseAnonymous(token: string, isInternal: bool, anonymousOption: string): bool {
    if token != "" then false else isInternal && anonymousOption != ANONYMOUS_OPTION
  }

  /** `err.body?.message || err.message || 'Error loading survey'`. */
  function LoadErrorMessage(f: Fault): (r: string)
    ensures r != ""
    ensures BodyMessage(f) != "" ==> r == BodyMessage(f)
    ensures BodyMessage(f) == "" && MessageOf(f) != "" ==> r == MessageOf(f)
    ensures BodyMessage(f) == "" && MessageOf(f) == "" ==> r == LOAD_ERROR
  {
    Or(Or(BodyMessage(f), MessageOf(f)), LOAD_ERROR)
  }

  /** `err.body?.message || 'Error submitting survey'`. */
  function SubmitErrorMessage(f: Fault): (r: string)
    ensures r != ""
    ensures BodyMessage(f) != "" ==> r == BodyMessage(f)
    ensures BodyMessage(f) == "" ==> r == SUBMIT_ERROR
  {
    Or(BodyMessage(f), SUBMIT_ERROR)
  }

  // ---------------------------------------------------------------------
  // Navigation
  // ---------------------------------------------------------------------

  /** `visibleQuestions[currentQuestionIndex] || null`. */
  function CurrentQuestion(qs: seq<Question>, index: nat): (r: Option<Question>)
    ensures r.Some? <==> index < |VisibleQuestions(qs)|
    ensures r.Some? ==> r.value in qs && !r.value.hideOnSurvey
  {
    var visible := VisibleQuestions(qs);
    if index < |visible| then
      VisibleMembers(qs);
      assert visible[index] in visible;
      Some(visible[index])
    else None
  }

  predicate IsLastQuestion(qs: seq<Question>, index: nat) {
    index == |VisibleQuestions(qs)| - 1
  }

  /** The cursor points at a visible question whenever there is one. */
  predicate CursorInRange(qs: seq<Question>, index: nat) {
    |VisibleQuestions(qs)| > 0 ==> index < |VisibleQuestions(qs)|
  }

  /** The check `handleNext` makes before leaving a required question. */
  predicate StepAnswered(entry: Option<Response>) {
    entry.Some? && HasAnswer(entry.value)
  }

  /** `handleNext` refuses to move: the current question is required and has no answer. */
  predicate Blocked(qs: seq<Question>, store: Store, index: nat) {
    var current := CurrentQuestion(qs, index);
    current.Some? && current.value.required && !StepAnswered(Get(store, current.value.id))
  }

  /** Every visible required question has an answer `handleNext` accepts. */
  predicate AllRequiredAnswered(qs: seq<Question>, store: Store) {
    forall q :: q in VisibleQuestions(qs) && q.required ==> StepAnswered(Get(store, q.id))
  }

  /**
   * With every required question answered, Next moves forward from each of
   * the first `N - 1` visible questions and, on the last one, opens the
   * anonymity choice or submits: `N - 1` presses reach the end of a survey
   * with `N` visible questions.
   */
  lemma NextWalksForward(qs: seq<Question>, store: Store, index: nat)
    requires AllRequiredAnswered(qs, store)
    requires index < |VisibleQuestions(qs)|
    ensures !Blocked(qs, store, index)
  {
    var visible := VisibleQuestions(qs);
    assert visible[index] in visible;
  }

  // ---------------------------------------------------------------------
  // Validation and submission
  // ---------------------------------------------------------------------

  /** The check `validateResponses` makes for a required question. */
  predicate Answers(q: Question, entry: Option<Response>) {
    entry.Some? &&
    if q.questionType == MULTI_SELECT_VERTICAL then
      entry.value.responses.Some? && |entry.value.responses.value| > 0
    else !IsBlank(entry.value.response)
  }

  predicate Satisfied(q: Question, store: Store) {
    !q.required || Answers(q, Get(store, q.id))
  }

  function RequiredMessage(q: Question): string {
    "Please answer question " + IntToString(q.orderNumber) + ": " + q.question
  }

  /** The message for the first question of `qs` left unanswered, if any. */
  function FirstUnanswered(qs: seq<Question>, store: Store): (r: Option<string>)
    ensures r.None? <==> forall i :: 0 <= i < |qs| ==> Satisfied(qs[i], store)
    ensures r.Some? ==> exists k :: 0 <= k < |qs| && !Satisfied(qs[k], store)
                           && (forall j :: 0 <= j < k ==> Satisfied(qs[j], store))
                           && r.value == RequiredMessage(qs[k])
  {
    if qs == [] then None
    else if !Satisfied(qs[0], store) then Some(RequiredMessage(qs[0]))
    else
      var r := FirstUnanswered(qs[1..], store);
      FirstUnansweredShift(qs, store, r);
      r
  }

  lemma FirstUnansweredShift(qs: seq<Question>, store: Store, r: Option<string>)
    requires qs != [] && Satisfied(qs[0], store)
    requires r.Some? ==> exists k :: 0 <= k < |qs[1..]| && !Satisfied(qs[1..][k], store)
                           && (forall j :: 0 <= j < k ==> Satisfied(qs[1..][j], store))
                           && r.value == RequiredMessage(qs[1..][k])
    ensures r.Some? ==> exists k :: 0 <= k < |qs| && !Satisfied(qs[k], store)
                           && (forall j :: 0 <= j < k ==> Satisfied(qs[j], store))
                           && r.value == RequiredMessage(qs[k])
  {
    if r.Some? {
      var k :| 0 <= k < |qs[1..]| && !Satisfied(qs[1..][k], store)
                && (forall j :: 0 <= j < k ==> Satisfied(qs[1..][j], store))
                && r.value == RequiredMessage(qs[1..][k]);
      assert forall j :: 0 < j < k + 1 ==> qs[j] == qs[1..][j - 1];
    }
  }

  /** `validateResponses`: the first visible required question without an answer. */
  function ValidateResponses(qs: seq<Question>, store: Store): (r: Option<string>)
    ensures r.None? <==> forall q :: q in VisibleQuestions(qs) ==> Satisfied(q, store)
  {
    FirstUnanswered(VisibleQuestions(qs), store)
  }

  /** `Object.values(responses).filter(...)`: the answered entries, in store order. */
  function SubmittedResponses(store: Store): (r: seq<Response>)
    ensures forall e :: e in r <==> e in store && HasAnswer(e)
    ensures (forall e :: e in store ==> !HasAnswer(e)) ==> r == []
  {
    if store == [] then [] else (if HasAnswer(store[0]) then [store[0]] else []) + SubmittedResponses(store[1..])
  }

  /** The submission keeps the order the entries were stored in. */
  lemma {:induction false} SubmittedInOrder(store: Store)
    ensures IsSubsequence(SubmittedResponses(store), store)
  {
    if store != [] {
      SubmittedInOrder(store[1..]);
      var rest := SubmittedResponses(store[1..]);
      if HasAnswer(store[0]) {
        assert ([store[0]] + rest)[1..] == rest;
      } else {
        assert SubmittedResponses(store) == rest;
      }
    }
  }

  function IsAnonymous(anonymousValue: string, anonymousOption: string): bool {
    anonymousValue == ANONYMOUS_VALUE || anonymousOption == ANONYMOUS_OPTION
  }

  /** The request `handleSubmit` sends: by token whenever there is one. */
  function SubmitRequestFor(token: string, surveyId: string, caseId: string, contactId: string,
                            store: Store, anonymousValue: string, anonymousOption: string): SubmitRequest
  {
    var responses := SubmittedResponses(store);
    if token != "" then SubmitWithToken(token, responses)
    else SubmitResponses(surveyId, responses, caseId, contactId, IsAnonymous(anonymousValue, anonymousOption))
  }

  // ---------------------------------------------------------------------
  // Properties
  // ---------------------------------------------------------------------

  /**
   * Loading and submitting take the same route, by token exactly when there
   * is one, and a submission carries the answered entries only.
   */
  lemma TokenDecidesTheRoute(token: string, surveyId: string, caseId: string, contactId: string,
                             store: Store, anonymousValue: string, anonymousOption: string)
    ensures var load := LoadRequestFor(token, surveyId, caseId, contactId);
      var submit := SubmitRequestFor(token, surveyId, caseId, contactId, store, anonymousValue, anonymousOption);
      (load.LoadByToken? <==> token != "") && (submit.SubmitWithToken? <==> token != "")
      && submit.responses == SubmittedResponses(store)
      && (submit.SubmitResponses? ==> submit.surveyId == surveyId && submit.caseId == caseId
                                      && submit.contactId == contactId)
  {
  }

  /** Right after a survey is loaded nothing is answered, so a submission would carry no entry. */
  lemma FreshStoreSubmitsNothing(qs: seq<Question>)
    ensures SubmittedResponses(InitialStore(qs)) == []
  {
    InitialStoreEntries(qs);
  }

  /** The validation `handleSubmit` runs is stricter than the check `handleNext` runs. */
  lemma ValidationImpliesStepAnswered(q: Question, entry: Option<Response>)
    requires Answers(q, entry)
    ensures StepAnswered(entry)
  {
    if q.questionType != MULTI_SELECT_VERTICAL {
      assert Trim("") == "";
    }
  }

  /** A blank-only text answer gets past `handleNext` but not `validateResponses`. */
  lemma BlankTextPassesOnlyTheStepCheck(q: Question)
    requires q.questionType == FREE_TEXT
    ensures var entry := Some(Response(q.id, " ", None));
      StepAnswered(entry) && !Answers(q, entry)
  {
    assert TrimStart(" ") == "";
  }

  /** Every visible required question that passed validation is part of the submission. */
  lemma {:induction false} ValidatedRequiredAreSubmitted(qs: seq<Question>, store: Store)
    requires ValidateResponses(qs, store).None?
    ensures forall q :: q in VisibleQuestions(qs) && q.required ==>
      exists e :: e in SubmittedResponses(store) && e.questionId == q.id
  {
    forall q | q in VisibleQuestions(qs) && q.required
      ensures exists e :: e in SubmittedResponses(store) && e.questionId == q.id
    {
      assert Satisfied(q, store);
      ValidationImpliesStepAnswered(q, Get(store, q.id));
      var e := Get(store, q.id).value;
      assert e in SubmittedResponses(store);
    }
  }

  /** The loop of `initializeResponses` over the entries: one blank entry per question, in question order. */
  method BlankEntries(questions: seq<Question>) returns (store: Store)
    ensures store == InitialStore(questions)
  {
    store := [];
    var i := 0;
    while i < |questions|
      invariant 0 <= i <= |questions|
      invariant store == InitialStore(questions[..i])
    {
      InitialStoreStep(questions, i);
      store := Put(store, BlankEntry(questions[i]));
      i := i + 1;
    }
    assert questions[..i] == questions;
  }

  /** The loop of `initializeResponses` over the questions: Multi-Select choices unchecked, the rest left alone. */
  method ResetAll(questions: seq<Question>) returns (reset: seq<Question>)
    ensures reset == ResetQuestions(questions)
  {
    reset := questions;
    var i := 0;
    while i < |questions|
      invariant 0 <= i <= |questions| == |reset|
      invariant forall k :: 0 <= k < i ==> reset[k] == ResetChoices(questions[k])
      invariant forall k :: i <= k < |reset| ==> reset[k] == questions[k]
    {
      var q := questions[i];
      if q.questionType == MULTI_SELECT_VERTICAL {
        reset := reset[i := q.(choices := UncheckAll(q.choices))];
      }
      i := i + 1;
    }
  }

  lemma InitialStoreStep(qs: seq<Question>, i: nat)
    requires i < |qs|
    ensures InitialStore(qs[..i + 1]) == Put(InitialStore(qs[..i]), BlankEntry(qs[i]))
  {
    assert qs[..i + 1][..i] == qs[..i];
  }

  /** Mark the first choice with `value` in the question at position `p`. */
  function MarkAt(qs: seq<Question>, p: nat, value: string, checked: bool): (r: seq<Question>)
    requires p < |qs|
    ensures |r| == |qs|
    ensures forall i :: 0 <= i < |qs| ==> r[i].id == qs[i].id && r[i].hideOnSurvey == qs[i].hideOnSurvey
    ensures |VisibleQuestions(r)| == |VisibleQuestions(qs)|
  {
    var r := qs[p := qs[p].(choices := MarkChoice(qs[p].choices, value, checked))];
    VisibleCountKept(qs, r);
    r
  }

  // ---------------------------------------------------------------------
  // The component
  // ---------------------------------------------------------------------

  /** `_urlRecordId`, `_urlCaseId`, `_urlContactId`, `_urlToken` (`""` for `null`). */
  datatype UrlParams = UrlParams(recordId: string, caseId: string, contactId: string, token: string)

  /** A survey identity as `shouldLoadSurveyData` compares them: record id and token. */
  datatype Identity = Identity(recordId: string, token: string)

  /** `surveyName`, `surveyHeader`, `invitationHeader`, `showSurveyName`, `thankYouText`. */
  datatype SurveyView = SurveyView(name: string, header: string, invitationHeader: string, showName: bool, thankYouText: string)

  /** `isInternal`, `anonymousOption`, `anonymousValue`, `canChooseAnonymous`. */
  datatype Anonymity = Anonymity(isInternal: bool, option: string, value: string, canChoose: bool)

  /** What `handlePageReference` reads from the page state: `c__token` wins over `token`. */
  function UrlParamsOf(state: PageState): (r: UrlParams)
    ensures r.token == "" <==> state.cToken == "" && state.token == ""
    ensures state.cToken != "" ==> r.token == state.cToken
    ensures state.cToken == "" ==> r.token == state.token
    ensures r.recordId == state.cRecordId && r.caseId == state.cCaseId && r.contactId == state.cContactId
  {
    UrlParams(state.cRecordId, state.cCaseId, state.cContactId, Or(state.cToken, state.token))
  }

  /** The texts a loaded survey shows; the thank-you text is never empty. */
  function ViewOf(p: SurveyPayload): (r: SurveyView)
    ensures r.thankYouText != ""
    ensures p.survey.thankYouText != "" ==> r.thankYouText == p.survey.thankYouText
    ensures p.survey.thankYouText == "" ==> r.thankYouText == DEFAULT_THANK_YOU
    ensures r.name == p.survey.name && r.header == p.survey.header && r.invitationHeader == p.invitationHeader
    ensures r.showName <==> !p.survey.hideName
  {
    SurveyView(p.survey.name, p.survey.header, p.invitationHeader, !p.survey.hideName,
               Or(p.survey.thankYouText, DEFAULT_THANK_YOU))
  }

  /** The anonymity settings after a load; the respondent's own choice `value` is kept. */
  function AnonymityOf(p: SurveyPayload, token: string, value: string): (r: Anonymity)
    ensures r.value == value
    ensures r.canChoose <==> token == "" && p.isInternal && p.anonymousOption != ANONYMOUS_OPTION
  {
    Anonymity(p.isInternal, p.anonymousOption, value, CanChooseAnonymous(token, p.isInternal, p.anonymousOption))
  }

  class SurveyTaker {
    /** The component properties `recordId`, `caseId`, `contactId`. */
    var recordId: string
    var caseId: string
    var contactId: string
    var url: UrlParams
    /** `_loadedRecordId`, `_loadedToken`. */
    var loaded: Identity
    /** The identity the load in flight captured (`recordIdToLoad`, `tokenToLoad`). */
    var pending: Identity
    var isLoading: bool
    var isSubmitting: bool
    var isSubmitted: bool
    var error: string
    var view: SurveyView
    var anonymity: Anonymity
    var questions: seq<Question>
    var responses: Store
    var currentQuestionIndex: nat
    var showAnonymousSelection: bool
    /** The toasts shown so far, oldest first. */
    var toasts: seq<Toast>

    /** One entry per question id, and a cursor on a visible question whenever there is one. */
    predicate Valid()
      reads this`responses, this`questions, this`currentQuestionIndex
    {
      Keyed(responses) && CursorInRange(questions, currentQuestionIndex)
    }

    constructor (recordId: string, caseId: string, contactId: string)
      ensures Valid()
      ensures this.recordId == recordId && this.caseId == caseId && this.contactId == contactId
      ensures url == UrlParams("", "", "", "") && loaded == Identity("", "")
      ensures !isLoading && !isSubmitting && !isSubmitted && error == ""
      ensures view == SurveyView("", "", "", true, "")
      ensures anonymity == Anonymity(true, "User", "named", false)
      ensures questions == [] && responses == [] && toasts == []
      ensures currentQuestionIndex == 0 && !showAnonymousSelection
    {
      this.recordId, this.caseId, this.contactId := recordId, caseId, contactId;
      url := UrlParams("", "", "", "");
      loaded, pending := Identity("", ""), Identity("", "");
      isLoading, isSubmitting, isSubmitted, error := false, false, false, "";
      view := SurveyView("", "", "", true, "");
      anonymity := Anonymity(true, "User", "named", false);
      questions, responses := [], [];
      currentQuestionIndex, showAnonymousSelection, toasts := 0, false, [];
    }

    /** The component property wins over the page state. */
    function EffectiveRecordId(): (r: string)
      reads this`recordId, this`url
      ensures recordId != "" ==> r == recordId
      ensures recordId == "" ==> r == url.recordId
    {
      Or(recordId, url.recordId)
    }

    function EffectiveCaseId(): (r: string)
      reads this`caseId, this`url
      ensures caseId != "" ==> r == caseId
      ensures caseId == "" ==> r == url.caseId
    {
      Or(caseId, url.caseId)
    }

    function EffectiveContactId(): (r: string)
      reads this`contactId, this`url
      ensures contactId != "" ==> r == contactId
      ensures contactId == "" ==> r == url.contactId
    {
      Or(contactId, url.contactId)
    }

    /** The identity the component currently asks for; the token only ever comes from the page state. */
    function Current(): Identity
      reads this`recordId, this`url
    {
      Identity(EffectiveRecordId(), url.token)
    }

    predicate ShouldLoadSurveyData()
      reads this`recordId, this`url, this`loaded, this`isLoading
    {
      ShouldLoad(Current().recordId, Current().token, loaded.recordId, loaded.token, isLoading)
    }

    /** The request a load for the current identity sends. */
    function CurrentLoadRequest(): LoadRequest
      reads this`recordId, this`caseId, this`contactId, this`url
    {
      LoadRequestFor(url.token, EffectiveRecordId(), EffectiveCaseId(), EffectiveContactId())
    }

    /** Start a load for the current identity and remember which identity it is for. */
    method LoadSurveyData() returns (request: LoadRequest)
      modifies this`isLoading, this`error, this`pending
      ensures isLoading && error == "" && pending == Current()
      ensures request == CurrentLoadRequest()
    {
      isLoading := true;
      error := "";
      pending := Identity(EffectiveRecordId(), url.token);
      if pending.token != "" {
        request := LoadByToken(pending.token);
      } else {
        request := LoadByIdentity(pending.recordId, EffectiveCaseId(), EffectiveContactId());
      }
    }

    method ConnectedCallback() returns (request: Option<LoadRequest>)
      modifies this`isLoading, this`error, this`pending
      ensures request.Some? <==> old(ShouldLoadSurveyData())
      ensures old(isLoading) || Current() == loaded ==> request.None?
      ensures request.Some? ==> isLoading && error == "" && pending == Current() && request.value == CurrentLoadRequest()
      ensures request.None? ==> unchanged(this)
    {
      request := None;
      if ShouldLoadSurveyData() {
        var r := LoadSurveyData();
        request := Some(r);
      }
    }

    /** Take the page state, then load as `connectedCallback` does. */
    method HandlePageReference(pageRef: Option<PageState>) returns (request: Option<LoadRequest>)
      modifies this`url, this`isLoading, this`error, this`pending
      ensures pageRef.None? ==> request.None? && unchanged(this)
      ensures pageRef.Some? ==> url == UrlParamsOf(pageRef.value)
      ensures request.Some? <==>
        pageRef.Some? && ShouldLoad(Current().recordId, Current().token, loaded.recordId, loaded.token, old(isLoading))
      ensures request.Some? ==> isLoading && error == "" && pending == Current() && request.value == CurrentLoadRequest()
      ensures request.None? ==> unchanged(this`isLoading, this`error, this`pending)
      ensures old(isLoading) ==> request.None?
      ensures Current() == loaded ==> request.None?
    {
      if pageRef.None? {
        return None;
      }
      url := UrlParamsOf(pageRef.value);
      request := None;
      if ShouldLoadSurveyData() {
        var r := LoadSurveyData();
        request := Some(r);
      }
    }

    /**
     * The load resolves with a survey: the identity it was for is recorded,
     * so it is not loaded again, and the survey is presented.
     */
    method LoadResolved(p: SurveyPayload)
      modifies this`loaded, this`view, this`anonymity, this`questions, this`responses
      modifies this`currentQuestionIndex, this`showAnonymousSelection, this`isLoading
      ensures Valid()
      ensures !isLoading && loaded == pending
      ensures pending == Current() ==> !ShouldLoadSurveyData()
      ensures view == ViewOf(p) && anonymity == AnonymityOf(p, pending.token, old(anonymity.value))
      ensures questions == ResetQuestions(p.questions) && responses == InitialStore(p.questions)
      ensures currentQuestionIndex == 0 && !showAnonymousSelection
    {
      loaded := pending;
      isLoading := false;
      Present(p);
    }

    /**
     * The load resolves without a survey (no result, or a result without
     * one): the identity is recorded all the same, so it is not loaded
     * again, and only the error message is set.
     */
    method LoadFoundNothing()
      modifies this`loaded, this`error, this`isLoading
      ensures !isLoading && loaded == pending && error == SURVEY_NOT_FOUND
      ensures pending == Current() ==> !ShouldLoadSurveyData()
    {
      loaded := pending;
      isLoading := false;
      error := SURVEY_NOT_FOUND;
    }

    /**
     * The load is rejected: only the error message changes, and the identity
     * is not recorded, so the next page event or connection loads it again.
     */
    method LoadRejected(fault: Fault)
      modifies this`error, this`isLoading
      ensures !isLoading && error == LoadErrorMessage(fault)
      ensures pending == Current() != loaded && pending != Identity("", "") ==> ShouldLoadSurveyData()
    {
      error := LoadErrorMessage(fault);
      isLoading := false;
    }

    /**
     * `loadSurveyData` on a resolved survey: take its texts, questions and
     * anonymity settings, then `initializeResponses`.
     */
    method Present(p: SurveyPayload)
      modifies this`view, this`anonymity, this`questions, this`responses
      modifies this`currentQuestionIndex, this`showAnonymousSelection
      ensures Valid()
      ensures view == ViewOf(p) && anonymity == AnonymityOf(p, pending.token, old(anonymity.value))
      ensures questions == ResetQuestions(p.questions) && responses == InitialStore(p.questions)
      ensures currentQuestionIndex == 0 && !showAnonymousSelection
    {
      view := ViewOf(p);
      anonymity := AnonymityOf(p, pending.token, anonymity.value);
      questions := p.questions;
      InitializeResponses();
    }

    /**
     * `initializeResponses`: one blank entry per question, Multi-Select
     * choices unchecked, back to the first question.
     */
    method InitializeResponses()
      modifies this`questions, this`responses, this`currentQuestionIndex, this`showAnonymousSelection
      ensures Valid()
      ensures questions == ResetQuestions(old(questions)) && responses == InitialStore(old(questions))
      ensures currentQuestionIndex == 0 && !showAnonymousSelection
    {
      var store := BlankEntries(questions);
      var reset := ResetAll(questions);
      assert Keyed(store) && CursorInRange(reset, 0);
      questions, responses := reset, store;
      currentQuestionIndex, showAnonymousSelection := 0, false;
    }

    /** Set the current question's text answer (creating its entry with a `null` list). */
    method HandleCurrentResponseChange(value: string)
      requires Valid()
      modifies this`responses
      ensures Valid()
      ensures var current := CurrentQuestion(questions, currentQuestionIndex);
        responses == if current.None? then old(responses) else SetAnswer(old(responses), current.value.id, value, None)
    {
      var current := CurrentQuestion(questions, currentQuestionIndex);
      if current.None? {
        return;
      }
      responses := SetAnswer(responses, current.value.id, value, None);
    }

    /**
     * Toggle the value in the current question's list (creating its entry
     * and list as needed) and mark the first choice with that value.
     */
    method HandleCheckboxChange(value: string, checked: bool)
      requires Valid()
      modifies this`responses, this`questions
      ensures Valid()
      ensures var current := CurrentQuestion(old(questions), currentQuestionIndex);
        current.None? ==> unchanged(this)
      ensures var current := CurrentQuestion(old(questions), currentQuestionIndex);
        current.Some? ==>
          responses == ToggleAnswer(old(responses), current.value.id, value, checked)
          && questions == MarkAt(old(questions), VisiblePosition(old(questions), currentQuestionIndex), value, checked)
    {
      var current := CurrentQuestion(questions, currentQuestionIndex);
      if current.None? {
        return;
      }
      var p := VisiblePosition(questions, currentQuestionIndex);
      responses := ToggleAnswer(responses, questions[p].id, value, checked);
      questions := MarkAt(questions, p, value, checked);
    }

    /** A Multi-Select detail toggles; any other sets the text answer (creating the entry with an empty list). */
    method HandleResponseChange(detail: ResponseDetail)
      requires Valid()
      modifies this`responses
      ensures Valid()
      ensures detail.questionType == MULTI_SELECT_VERTICAL ==>
        responses == ToggleAnswer(old(responses), detail.questionId, detail.value, detail.checked)
      ensures detail.questionType != MULTI_SELECT_VERTICAL ==>
        responses == SetAnswer(old(responses), detail.questionId, detail.value, Some([]))
    {
      if detail.questionType == MULTI_SELECT_VERTICAL {
        responses := ToggleAnswer(responses, detail.questionId, detail.value, detail.checked);
      } else {
        responses := SetAnswer(responses, detail.questionId, detail.value, Some([]));
      }
    }

    /**
     * Stay with a toast on a required question without an answer; otherwise
     * move forward, or on the last question open the anonymity choice or submit.
     */
    method HandleNext() returns (step: NextStep)
      requires Valid()
      modifies this`toasts, this`showAnonymousSelection, this`currentQuestionIndex, this`isSubmitting
      ensures Valid()
      ensures step == NeedsAnswer <==> old(Blocked(questions, responses, currentQuestionIndex))
      ensures step == NeedsAnswer ==>
        toasts == old(toasts) + [REQUIRED_TOAST] && unchanged(this`showAnonymousSelection, this`currentQuestionIndex, this`isSubmitting)
      ensures step == Advanced <==>
        !old(Blocked(questions, responses, currentQuestionIndex)) && !old(IsLastQuestion(questions, currentQuestionIndex))
      ensures step == Advanced ==>
        currentQuestionIndex == old(currentQuestionIndex) + 1 && unchanged(this`toasts, this`showAnonymousSelection, this`isSubmitting)
      ensures step == ChooseAnonymity ==>
        anonymity.canChoose && showAnonymousSelection && unchanged(this`toasts, this`currentQuestionIndex, this`isSubmitting)
      ensures step.Submitting? ==> !anonymity.canChoose && unchanged(this`showAnonymousSelection, this`currentQuestionIndex)
      ensures step.Submitting? && step.start.Invalid? ==>
        toasts == old(toasts) + [Toast("Validation Error", step.start.message, "error")] && isSubmitting == old(isSubmitting)
      ensures step.Submitting? && step.start.Sent? ==> toasts == old(toasts) && isSubmitting
      ensures step == ChooseAnonymity || step.Submitting? <==>
        !old(Blocked(questions, responses, currentQuestionIndex)) && old(IsLastQuestion(questions, currentQuestionIndex))
      ensures step.Submitting? ==> (step.start.Invalid? <==> ValidateResponses(questions, responses).Some?)
      ensures step.Submitting? && step.start.Invalid? ==> step.start.message == ValidateResponses(questions, responses).value
      ensures step.Submitting? && step.start.Sent? ==> step.start.request == CurrentSubmitRequest()
    {
      if Blocked(questions, responses, currentQuestionIndex) {
        toasts := toasts + [REQUIRED_TOAST];
        return NeedsAnswer;
      }
      if IsLastQuestion(questions, currentQuestionIndex) {
        if anonymity.canChoose {
          showAnonymousSelection := true;
          step := ChooseAnonymity;
        } else {
          var start := HandleSubmit();
          step := Submitting(start);
        }
      } else {
        currentQuestionIndex := currentQuestionIndex + 1;
        step := Advanced;
      }
    }

    method HandlePrevious()
      requires Valid()
      modifies this`currentQuestionIndex, this`showAnonymousSelection
      ensures Valid()
      ensures old(currentQuestionIndex) > 0 ==>
        currentQuestionIndex == old(currentQuestionIndex) - 1 && !showAnonymousSelection
      ensures old(currentQuestionIndex) == 0 ==> unchanged(this)
    {
      if currentQuestionIndex > 0 {
        currentQuestionIndex := currentQuestionIndex - 1;
        showAnonymousSelection := false;
      }
    }

    method HandleBackToLastQuestion()
      modifies this`showAnonymousSelection
      ensures !showAnonymousSelection
    {
      showAnonymousSelection := false;
    }

    method HandleAnonymousChange(value: string)
      modifies this`anonymity
      ensures anonymity == old(anonymity).(value := value)
    {
      anonymity := anonymity.(value := value);
    }

    /** The request a submission of the current answers sends. */
    function CurrentSubmitRequest(): SubmitRequest
      reads this`recordId, this`caseId, this`contactId, this`url, this`responses, this`anonymity
    {
      SubmitRequestFor(url.token, EffectiveRecordId(), EffectiveCaseId(), EffectiveContactId(),
                       responses, anonymity.value, anonymity.option)
    }

    /**
     * Refuse with a toast when validation finds an unanswered required
     * question; otherwise mark the survey as submitting and send the answered
     * entries.
     */
    method HandleSubmit() returns (start: SubmitStart)
      requires Valid()
      modifies this`toasts, this`isSubmitting
      ensures Valid()
      ensures start.Invalid? <==> ValidateResponses(questions, responses).Some?
      ensures start.Invalid? ==>
        start.message == ValidateResponses(questions, responses).value
        && toasts == old(toasts) + [Toast("Validation Error", start.message, "error")] && isSubmitting == old(isSubmitting)
      ensures start.Sent? ==> isSubmitting && toasts == old(toasts) && start.request == CurrentSubmitRequest()
    {
      var problem := ValidateResponses(questions, responses);
      if problem.Some? {
        toasts := toasts + [Toast("Validation Error", problem.value, "error")];
        return Invalid(problem.value);
      }
      isSubmitting := true;
      start := Sent(CurrentSubmitRequest());
    }

    /** The submission settles; `isSubmitting` is cleared either way and one toast reports the result. */
    method CompleteSubmit(outcome: SubmitOutcome)
      modifies this`view, this`isSubmitted, this`toasts, this`isSubmitting
      ensures !isSubmitting
      ensures isSubmitted == (old(isSubmitted) || (outcome.Submitted? && outcome.success))
      ensures outcome.Submitted? && outcome.success ==>
        view == old(view).(thankYouText := Or(outcome.thankYouText, old(view.thankYouText)))
        && toasts == old(toasts) + [Toast("Success", "Survey submitted successfully!", "success")]
      ensures outcome.Submitted? && !outcome.success ==>
        view == old(view) && toasts == old(toasts) + [Toast("Error", Or(outcome.message, SUBMIT_ERROR), "error")]
      ensures outcome.SubmitFailed? ==>
        view == old(view) && toasts == old(toasts) + [Toast("Error", SubmitErrorMessage(outcome.fault), "error")]
    {
      match outcome {
        case Submitted(success, text, message) =>
          if success {
            view := view.(thankYouText := Or(text, view.thankYouText));
            isSubmitted := true;
            toasts := toasts + [Toast("Success", "Survey submitted successfully!", "success")];
          } else {
            toasts := toasts + [Toast("Error", Or(message, SUBMIT_ERROR), "error")];
          }
        case SubmitFailed(f) =>
          toasts := toasts + [Toast("Error", SubmitErrorMessage(f), "error")];
      }
      isSubmitting := false;
    }
  }
}

=== FILE: template_list.dfy ===
/**
 * The survey list (`surveyTemplateList` component): load every survey, sort
 * the table by a numeric column, and create, clone or delete surveys.
 */
module TemplateList {
  import opened Common

  /** A survey row; a missing number is `0` (it sorts and sums like one). */
  datatype TemplateSurvey = TemplateSurvey(
    id: string,
    name: string,
    questions: int,
    completedSurveys: int,
    shareWithGuest: bool,
    createdDate: int,
    nameUrl: string)

  /** The sortable numeric columns: `Questions__c`, `Completed_Surveys__c`, `CreatedDate` (as milliseconds). */
  datatype SortField = QuestionsField | ResponsesField | CreatedField

  /** Where a row action or a successful create or clone takes the user. */
  datatype Navigation = ToSurveyRecord(surveyId: string) | ToSurveyTaker(surveyId: string)

  function Key(s: TemplateSurvey, field: SortField): int {
    match field
    case QuestionsField => s.questions
    case ResponsesField => s.completedSurveys
    case CreatedField => s.createdDate
  }

  /** `sortBy(field, reverse)(a, b)`: `reverse * ((a > b) - (b > a))`. */
  function Compare(a: int, b: int, reverse: int): (r: int)
    ensures a == b ==> r == 0
    ensures reverse == 1 ==> (r <= 0 <==> a <= b)
    ensures reverse == -1 ==> (r <= 0 <==> a >= b)
  {
    reverse * ((if a > b then 1 else 0) - (if b > a then 1 else 0))
  }

  /** Swapping the operands negates the comparison. */
  lemma CompareAntisymmetric(a: int, b: int, reverse: int)
    ensures Compare(a, b, reverse) == -Compare(b, a, reverse)
  {
  }

  /** No pair of rows is out of order for the comparator. */
  predicate SortedFor(s: seq<TemplateSurvey>, field: SortField, reverse: int) {
    forall i, j :: 0 <= i < j < |s| ==> Compare(Key(s[i], field), Key(s[j], field), reverse) <= 0
  }

  /** Ascending sorts leave the column non-decreasing, descending ones non-increasing. */
  lemma SortedDirection(s: seq<TemplateSurvey>, field: SortField, reverse: int)
    requires reverse == 1 || reverse == -1
    requires SortedFor(s, field, reverse)
    ensures reverse == 1 ==> forall i, j :: 0 <= i < j < |s| ==> Key(s[i], field) <= Key(s[j], field)
    ensures reverse == -1 ==> forall i, j :: 0 <= i < j < |s| ==> Key(s[i], field) >= Key(s[j], field)
  {
    forall i, j | 0 <= i < j < |s|
      ensures reverse == 1 ==> Key(s[i], field) <= Key(s[j], field)
      ensures reverse == -1 ==> Key(s[i], field) >= Key(s[j], field)
    {
      assert Compare(Key(s[i], field), Key(s[j], field), reverse) <= 0;
    }
  }

  /** The key the comparator orders ascending. */
  function DirectedKey(s: TemplateSurvey, field: SortField, ascending: bool): int {
    if ascending then Key(s, field) else -Key(s, field)
  }

  lemma DirectedKeyOrder(x: TemplateSurvey, y: TemplateSurvey, field: SortField, reverse: int)
    requires reverse == 1 || reverse == -1
    ensures DirectedKey(x, field, reverse == 1) <= DirectedKey(y, field, reverse == 1)
      <==> Compare(Key(x, field), Key(y, field), reverse) <= 0
  {
  }

  /** The first `n` rows are in ascending order of the directed key. */
  predicate SortedPrefix(s: seq<TemplateSurvey>, n: nat, field: SortField, ascending: bool)
    requires n <= |s|
  {
    forall p, q :: 0 <= p < q < n ==> DirectedKey(s[p], field, ascending) <= DirectedKey(s[q], field, ascending)
  }

  /**
   * While `s[j]` moves left through the first `i + 1` rows: they are in order
   * except around position `j`, and everything before `j` is below everything after it.
   */
  predicate InsertingAt(s: seq<TemplateSurvey>, i: nat, j: nat, field: SortField, ascending: bool)
    requires j <= i < |s|
  {
    (forall p, q :: 0 <= p < q <= i && q != j ==> DirectedKey(s[p], field, ascending) <= DirectedKey(s[q], field, ascending))
    && (forall p, q :: 0 <= p < j < q <= i ==> DirectedKey(s[p], field, ascending) <= DirectedKey(s[q], field, ascending))
  }

  /** Exchanging `s[j - 1]` and `s[j]` when they are out of order moves the gap one place left. */
  lemma InsertingStep(s: seq<TemplateSurvey>, i: nat, j: nat, field: SortField, ascending: bool)
    requires 0 < j <= i < |s|
    requires InsertingAt(s, i, j, field, ascending)
    requires DirectedKey(s[j - 1], field, ascending) > DirectedKey(s[j], field, ascending)
    ensures InsertingAt(s[j - 1 := s[j]][j := s[j - 1]], i, j - 1, field, ascending)
  {
  }

  /** The insertion of `s[i]` starts with the row where it stands. */
  lemma InsertingStart(s: seq<TemplateSurvey>, i: nat, field: SortField, ascending: bool)
    requires i < |s|
    requires SortedPrefix(s, i, field, ascending)
    ensures InsertingAt(s, i, i, field, ascending)
  {
  }

  /** The insertion ends once the row before the moving one is not larger. */
  lemma InsertingDone(s: seq<TemplateSurvey>, i: nat, j: nat, field: SortField, ascending: bool)
    requires j <= i < |s|
    requires InsertingAt(s, i, j, field, ascending)
    requires j == 0 || DirectedKey(s[j - 1], field, ascending) <= DirectedKey(s[j], field, ascending)
    ensures SortedPrefix(s, i + 1, field, ascending)
  {
    if j > 0 {
      forall p | 0 <= p < j
        ensures DirectedKey(s[p], field, ascending) <= DirectedKey(s[j], field, ascending)
      {
        if p < j - 1 {
          assert DirectedKey(s[p], field, ascending) <= DirectedKey(s[j - 1], field, ascending);
        }
      }
    }
  }

  /** One step of the insertion sort: move `a[i]` left past every larger key. */
  method InsertNext(a: array<TemplateSurvey>, i: nat, field: SortField, ascending: bool)
    requires i < a.Length
    requires SortedPrefix(a[..], i, field, ascending)
    modifies a
    ensures SortedPrefix(a[..], i + 1, field, ascending)
    ensures multiset(a[..]) == multiset(old(a[..]))
  {
    var j := i;
    InsertingStart(a[..], i, field, ascending);
    while j > 0 && DirectedKey(a[j - 1], field, ascending) > DirectedKey(a[j], field, ascending)
      invariant 0 <= j <= i
      invariant InsertingAt(a[..], i, j, field, ascending)
      invariant multiset(a[..]) == multiset(old(a[..]))
    {
      ghost var before := a[..];
      a[j - 1], a[j] := a[j], a[j - 1];
      assert a[..] == before[j - 1 := before[j]][j := before[j - 1]];
      InsertingStep(before, i, j, field, ascending);
      SwapMultiset(before, j - 1, j);
      j := j - 1;
    }
    InsertingDone(a[..], i, j, field, ascending);
  }

  /** Sorted by the directed key is sorted for the comparator. */
  lemma DirectedSorted(s: seq<TemplateSurvey>, field: SortField, reverse: int)
    requires reverse == 1 || reverse == -1
    requires SortedPrefix(s, |s|, field, reverse == 1)
    ensures SortedFor(s, field, reverse)
  {
    forall p, q | 0 <= p < q < |s|
      ensures Compare(Key(s[p], field), Key(s[q], field), reverse) <= 0
    {
      DirectedKeyOrder(s[p], s[q], field, reverse);
    }
  }

  /**
   * `cloneData.sort(this.sortBy(field, reverse))` on a copy of the rows: an
   * insertion sort in place on an array.
   */
  method SortSurveys(surveys: seq<TemplateSurvey>, field: SortField, reverse: int) returns (sorted: seq<TemplateSurvey>)
    requires reverse == 1 || reverse == -1
    ensures multiset(sorted) == multiset(surveys)
    ensures SortedFor(sorted, field, reverse)
  {
    var a := new TemplateSurvey[|surveys|](k requires 0 <= k < |surveys| => surveys[k]);
    assert a[..] == surveys;
    var i := 0;
    while i < a.Length
      invariant 0 <= i <= a.Length
      invariant SortedPrefix(a[..], i, field, reverse == 1)
      invariant multiset(a[..]) == multiset(surveys)
    {
      InsertNext(a, i, field, reverse == 1);
      i := i + 1;
    }
    sorted := a[..];
    DirectedSorted(sorted, field, reverse);
  }

  function CompletedOf(s: TemplateSurvey): int {
    s.completedSurveys
  }

  /** `totalResponses`: the completed counts added up. */
  function TotalResponses(surveys: seq<TemplateSurvey>): int {
    Sum(surveys, CompletedOf)
  }

  /** Every loaded row gets the link `'/' + Id`; nothing else changes. */
  function WithNameUrls(loaded: seq<TemplateSurvey>): (r: seq<TemplateSurvey>)
    ensures |r| == |loaded|
    ensures forall i :: 0 <= i < |loaded| ==> r[i] == loaded[i].(nameUrl := "/" + loaded[i].id)
  {
    if loaded == [] then [] else [loaded[0].(nameUrl := "/" + loaded[0].id)] + WithNameUrls(loaded[1..])
  }

  class SurveyTemplateList {
    var surveys: seq<TemplateSurvey>
    var isLoading: bool
    var error: string
    var sortedBy: SortField
    var sortedDirection: string
    var showCreateModal: bool
    var newSurveyName: string
    var isCreating: bool
    var showCloneModal: bool
    var cloneSurveyName: string
    var cloneSourceId: string
    var isCloning: bool
    var toasts: seq<Toast>

    constructor ()
      ensures surveys == [] && isLoading && error == "" && sortedBy == CreatedField && sortedDirection == "desc"
      ensures !showCreateModal && newSurveyName == "" && !isCreating
      ensures !showCloneModal && cloneSurveyName == "" && cloneSourceId == "" && !isCloning && toasts == []
    {
      surveys, isLoading, error, sortedBy, sortedDirection := [], true, "", CreatedField, "desc";
      showCreateModal, newSurveyName, isCreating := false, "", false;
      showCloneModal, cloneSurveyName, cloneSourceId, isCloning, toasts := false, "", "", false, [];
    }

    /** `loadSurveys` (also `handleRefresh`). */
    method LoadSurveys()
      modifies this`isLoading, this`error
      ensures isLoading && error == ""
    {
      isLoading, error := true, "";
    }

    method SurveysLoaded(result: seq<TemplateSurvey>)
      modifies this`surveys, this`isLoading
      ensures surveys == WithNameUrls(result) && !isLoading
    {
      surveys, isLoading := WithNameUrls(result), false;
    }

    method SurveysFailed(f: Fault)
      modifies this`error, this`isLoading
      ensures error == Or(BodyMessage(f), "Error loading surveys") && !isLoading
    {
      error, isLoading := Or(BodyMessage(f), "Error loading surveys"), false;
    }

    /** Record the column and direction, and replace the rows by a sorted permutation of themselves. */
    method HandleSort(field: SortField, sortDirection: string)
      modifies this`sortedBy, this`sortedDirection, this`surveys
      ensures sortedBy == field && sortedDirection == sortDirection
      ensures multiset(surveys) == multiset(old(surveys))
      ensures SortedFor(surveys, field, if sortDirection == "asc" then 1 else -1)
      ensures TotalResponses(surveys) == TotalResponses(old(surveys))
    {
      sortedBy, sortedDirection := field, sortDirection;
      var sorted := SortSurveys(surveys, field, if sortDirection == "asc" then 1 else -1);
      SumPermutation(sorted, surveys, CompletedOf);
      surveys := sorted;
    }

    /**
     * Row actions: edit and preview navigate, clone opens the clone modal,
     * delete asks for confirmation and then starts the deletion.
     */
    method HandleRowAction(actionName: string, row: TemplateSurvey, confirmed: bool)
      returns (navigation: Option<Navigation>, deleteRequest: Option<string>)
      modifies this`cloneSourceId, this`cloneSurveyName, this`showCloneModal, this`isLoading
      ensures actionName == "edit" ==> navigation == Some(ToSurveyRecord(row.id))
      ensures actionName == "preview" ==> navigation == Some(ToSurveyTaker(row.id))
      ensures actionName != "edit" && actionName != "preview" ==> navigation.None?
      ensures actionName == "clone" ==>
        cloneSourceId == row.id && cloneSurveyName == "Copy of " + row.name && showCloneModal
      ensures actionName != "clone" ==>
        cloneSourceId == old(cloneSourceId) && cloneSurveyName == old(cloneSurveyName)
        && showCloneModal == old(showCloneModal)
      ensures deleteRequest.Some? <==> actionName == "delete" && confirmed
      ensures deleteRequest.Some? ==> deleteRequest.value == row.id && isLoading
      ensures deleteRequest.None? ==> isLoading == old(isLoading)
    {
      navigation, deleteRequest := None, None;
      if actionName == "edit" {
        navigation := Some(ToSurveyRecord(row.id));
      } else if actionName == "clone" {
        OpenCloneModal(row);
      } else if actionName == "preview" {
        navigation := Some(ToSurveyTaker(row.id));
      } else if actionName == "delete" {
        if confirmed {
          isLoading := true;
          deleteRequest := Some(row.id);
        }
      }
    }

    method DeleteSucceeded()
      modifies this`toasts, this`isLoading, this`error
      ensures toasts == old(toasts) + [Toast("Success", "Survey deleted successfully", "success")]
      ensures isLoading && error == ""
    {
      toasts := toasts + [Toast("Success", "Survey deleted successfully", "success")];
      LoadSurveys();
    }

    method DeleteFailed(f: Fault)
      modifies this`toasts, this`isLoading
      ensures toasts == old(toasts) + [Toast("Error", Or(BodyMessage(f), "Error deleting survey"), "error")]
      ensures !isLoading
    {
      toasts := toasts + [Toast("Error", Or(BodyMessage(f), "Error deleting survey"), "error")];
      isLoading := false;
    }

    method HandleOpenCreateModal()
      modifies this`newSurveyName, this`showCreateModal
      ensures newSurveyName == "" && showCreateModal
    {
      newSurveyName, showCreateModal := "", true;
    }

    /** Refuse a blank name with a toast; otherwise create a survey of that name. */
    method HandleCreateSurvey() returns (request: Option<string>)
      modifies this`toasts, this`isCreating
      ensures request.None? <==> IsBlank(newSurveyName)
      ensures request.None? ==>
        toasts == old(toasts) + [Toast("Error", "Please enter a survey name", "error")] && isCreating == old(isCreating)
      ensures request.Some? ==> request.value == newSurveyName && isCreating && toasts == old(toasts)
    {
      if IsBlank(newSurveyName) {
        toasts := toasts + [Toast("Error", "Please enter a survey name", "error")];
        return None;
      }
      isCreating := true;
      request := Some(newSurveyName);
    }

    /** The create call resolves: on success close the modal and open the new survey. */
    method CreateResolved(success: bool, surveyId: string, message: string) returns (navigation: Option<Navigation>)
      modifies this`toasts, this`showCreateModal, this`isCreating
      ensures !isCreating
      ensures success ==>
        navigation == Some(ToSurveyRecord(surveyId)) && !showCreateModal
        && toasts == old(toasts) + [Toast("Success", "Survey created successfully", "success")]
      ensures !success ==>
        navigation.None? && showCreateModal == old(showCreateModal)
        && toasts == old(toasts) + [Toast("Error", message, "error")]
    {
      if success {
        toasts := toasts + [Toast("Success", "Survey created successfully", "success")];
        showCreateModal := false;
        navigation := Some(ToSurveyRecord(surveyId));
      } else {
        toasts := toasts + [Toast("Error", message, "error")];
        navigation := None;
      }
      isCreating := false;
    }

    method CreateFailed(f: Fault)
      modifies this`toasts, this`isCreating
      ensures toasts == old(toasts) + [Toast("Error", Or(BodyMessage(f), "Error creating survey"), "error")]
      ensures !isCreating
    {
      toasts := toasts + [Toast("Error", Or(BodyMessage(f), "Error creating survey"), "error")];
      isCreating := false;
    }

    /** The clone modal remembers the source and proposes `'Copy of ' + Name`. */
    method OpenCloneModal(survey: TemplateSurvey)
      modifies this`cloneSourceId, this`cloneSurveyName, this`showCloneModal
      ensures cloneSourceId == survey.id && cloneSurveyName == "Copy of " + survey.name && showCloneModal
    {
      cloneSourceId, cloneSurveyName, showCloneModal := survey.id, "Copy of " + survey.name, true;
    }

    /** Refuse a blank clone name with a toast; otherwise clone the remembered source under that name. */
    method HandleCloneSurvey() returns (request: Option<(string, string)>)
      modifies this`toasts, this`isCloning
      ensures request.None? <==> IsBlank(cloneSurveyName)
      ensures request.None? ==>
        toasts == old(toasts) + [Toast("Error", "Please enter a name for the cloned survey", "error")]
        && isCloning == old(isCloning)
      ensures request.Some? ==> request.value == (cloneSourceId, cloneSurveyName) && isCloning && toasts == old(toasts)
    {
      if IsBlank(cloneSurveyName) {
        toasts := toasts + [Toast("Error", "Please enter a name for the cloned survey", "error")];
        return None;
      }
      isCloning := true;
      request := Some((cloneSourceId, cloneSurveyName));
    }

    method CloneResolved(success: bool, surveyId: string, message: string) returns (navigation: Option<Navigation>)
      modifies this`toasts, this`showCloneModal, this`isCloning
      ensures !isCloning
      ensures success ==>
        navigation == Some(ToSurveyRecord(surveyId)) && !showCloneModal
        && toasts == old(toasts) + [Toast("Success", "Survey cloned successfully", "success")]
      ensures !success ==>
        navigation.None? && showCloneModal == old(showCloneModal)
        && toasts == old(toasts) + [Toast("Error", message, "error")]
    {
      if success {
        toasts := toasts + [Toast("Success", "Survey cloned successfully", "success")];
        showCloneModal := false;
        navigation := Some(ToSurveyRecord(surveyId));
      } else {
        toasts := toasts + [Toast("Error", message, "error")];
        navigation := None;
      }
      isCloning := false;
    }

    method CloneFailed(f: Fault)
      modifies this`toasts, this`isCloning
      ensures toasts == old(toasts) + [Toast("Error", Or(BodyMessage(f), "Error cloning survey"), "error")]
      ensures !isCloning
    {
      toasts := toasts + [Toast("Error", Or(BodyMessage(f), "Error cloning survey"), "error")];
      isCloning := false;
    }
  }
}
